=== FILE: README.md ===
# Email hotkey generator — a Dafny model

The program turns a file of e-mail addresses (CSV, plain text or, in the
current package, a saved `.eml` message) into an AutoHotkey profile. The
profile has two parts:

- a script, with one `Ctrl+Shift+<letter>` hotkey per e-mail domain that pastes
  that domain's addresses, plus `Ctrl+Shift+Z` (all addresses), `Ctrl+Shift+R`
  (the addresses one at a time, each followed by Enter) and `Ctrl+Shift+X`
  (exit);
- a JSON manifest describing the bindings.

A Tk manager window lists the profiles. Its hotkey windows let the user *arm*
one hotkey. A global F8 handler then injects that hotkey's key strokes and
disarms it.

Both the generator and the manager exist twice: the current package under
`src/email_hotkey_manager/`, and an older copy at the repository root. The
model covers both.

| file | module | what it models |
|---|---|---|
| base.dfy | `Base` | `Option`, `Result`, and the exceptions the generator raises, with their messages |
| text.dfy | `Text` | ASCII `lower`, lexicographic string order, `join`, `split`, `strip`, `isalnum` |
| sorted_sets.dfy | `SortedSets` | `sorted(set)` as the unique strictly ascending listing of a set |
| extraction.dfy | `Extraction` | `extract_emails_from_file`, `extract_emails_from_eml`: the encoding loops, lower-casing, the excluded address, sorting |
| grouping.dfy | `Grouping` | `group_emails_by_domain` (an insertion-ordered dictionary of lists) |
| codegen.dfy | `Codegen` | the key pool and `create_ahk_and_manifest`: script lines and the ordered manifest |
| generator.dfy | `Generator` | `run` of the current package, and end-to-end properties |
| legacy_generator.dfy | `LegacyGenerator` | the older CSV/TXT-only extractor and its `run`, compared with the current one |
| keystrokes.dfy | `Keystrokes` | `send_hotkey` as an event log, checked against a stack of held keys |
| manager_ui.dfy | `ManagerUi` | `friendly_file_type`, name sanitising and the checks of `run_generator`, and the `load_profiles` sort |
| hotkey_dispatch.dfy | `HotkeyDispatch` | the armed slot, F8 handling, the AutoHotkey process registry, and the `set_armed_ui` rule of a hotkey window |
| legacy_ui.dfy | `LegacyUi` | the older manager's globals, its F8 handler, its registry and its "Generate" |

Library calls are inputs to the model rather than code in it:

- the regular expression, the CSV reader, text decoding and MIME parsing. An
  `InputFile` carries what each of them returns, for each of the three
  encodings, including how each read attempt ends: cleanly, with an error
  the encoding loop catches, or with one it does not catch;
- process start and poll, whose results are the parameters `alive`,
  `runtimeFound` and `pid`;
- key injection that raises part-way. `failAt` is the number of events sent
  before the exception;
- file deletion, whose error message is the parameter `unlinkError`.

Some behaviours of the code are easy to get wrong when reading it, and the
model keeps them as the code has them:

- **The manifest has n+2 entries.** It holds n domain entries, then Z, then R.
  The exit binding `^+X` is written only to the script, so the script has
  n+3 bindings (`Codegen.ExitOnlyInScript`). The manifest has no exit entry.
- **Sequential pieces keep a leading space.** The sequential hotkey splits the
  `", "`-joined payload at the commas, so every piece after the first starts
  with a space (`Codegen.SequentialOneCyclePerAddress`).
- **A failed CSV read keeps its rows.** The CSV reader is lazy. Rows read
  under an encoding that later raises are already in the set when the next
  encoding is tried (`Extraction.CsvEmailsFrom`).
- **An uncaught decoding error ends the extraction.** The CSV loop catches
  only `UnicodeDecodeError` and `csv.Error`, the text loop only
  `UnicodeDecodeError`. The utf-16 decoder raises a plain `UnicodeError` for
  input without a byte-order mark. That error leaves the loop, so Latin-1 is
  never tried, and the run fails with the error's own text
  (`Extraction.ExtractSpec`, error `ReadFailed`). See "## Findings".
- **TooManyDomains comes after writing has started.** The script file is
  opened and the first 23 domain blocks are written before the 24th domain
  raises; only the error itself is modelled.
- **An address without '@' raises IndexError.** `split("@", 1)[1]` on such an
  address raises, and the model has this as the error `NoAtSign`. It can
  happen with an `.eml` header address. A CSV or text file cannot cause it
  when every pattern match contains '@', which the pattern's shape suggests
  but the model takes as a premise (`Generator.CsvAndTextNeverLackAt`).
- **The armed slot is tested for truthiness.** An armed hotkey `""` counts as
  not armed (`HotkeyDispatch.IsSet`).

## Model

| member | source | states |
|---|---|---|
| Text.Lower | src/email_hotkey_manager/email_to_ahk.py:85 | lower-casing keeps the length, turns each upper-case letter into the same letter in lower case, and changes nothing else |
| Text.LowerIsLowered | src/email_hotkey_manager/email_to_ahk.py:46 | lower-casing twice is lower-casing once |
| Text.LessTransitive | src/email_hotkey_manager/email_to_ahk.py:113 | the string order used by `sorted` is transitive |
| Text.LessTotal | src/email_hotkey_manager/email_to_ahk.py:113 | any two different strings are ordered one way or the other |
| Text.Strip | src/email_hotkey_manager/email_to_ahk_ui.py:420 | the stripped string is the slice of the input that starts right after its leading white space and is followed only by white space, has no white space at either end, and is empty exactly when the input is all white space |
| Text.StripRemovesOnlyEnds | src/email_hotkey_manager/email_to_ahk_ui.py:420 | the stripped string is a slice of the input with only white space before it and only white space after it: nothing is dropped from the middle and nothing is reordered |
| Text.SplitPiecesHaveNoSeparator | src/email_hotkey_manager/email_to_ahk.py:179 | no piece of `split(",")` contains a comma |
| Text.SplitThenJoin | src/email_hotkey_manager/email_to_ahk.py:179 | joining the pieces of `split(c)` with c gives the string back; with the lemma above this determines `split`, here and in the hotkey parser's `hotkey.lower().split("+")` (src/email_hotkey_manager/email_to_ahk_ui.py:139) |
| Text.JoinThenSplit | src/email_hotkey_manager/email_to_ahk.py:148-164 | `join` puts the pieces in order with one separator between neighbours: splitting the text joined with a one-character separator that no piece contains gives the list back; this covers the per-domain and the all-emails payloads (`Codegen.SplitJoined` does the same for the `", "` payload) |
| Base.MessagesDistinct | src/email_hotkey_manager/email_to_ahk.py:72-209 | "Input file not found." (:72), "No emails found." (:209), "Too many domains (max 23 supported)." (:146) and the IndexError text are pairwise different, so the message tells which error was raised |
| SortedSets.SortedSeq | src/email_hotkey_manager/email_to_ahk.py:113 | `sorted(emails)` is strictly ascending and holds exactly the elements of the set |
| SortedSets.AscendingUnique | src/email_hotkey_manager/email_to_ahk.py:113 | there is only one strictly ascending listing of a set, so the sorted result is determined by the set |
| Extraction.LowerAll | src/email_hotkey_manager/email_to_ahk.py:84-86 | the set of lower-cased matches: every match contributes its lower-cased form, and nothing else is in it |
| Extraction.AddLowered | src/email_hotkey_manager/email_to_ahk.py:96-98 | `emails.update(...)` adds exactly the lower-cased matches to the set |
| Extraction.ReadCsvRows | src/email_hotkey_manager/email_to_ahk.py:82-86 | the row and cell loops add the lower-cased matches of every cell |
| Extraction.CollectCsv | src/email_hotkey_manager/email_to_ahk.py:77-89 | the CSV encoding loop fails exactly when an attempt reached after caught errors raises an uncaught one, with that error's text; otherwise it gives the rows of every attempt that raised a caught error, then those of the first clean read, then stops |
| Extraction.CollectText | src/email_hotkey_manager/email_to_ahk.py:92-101 | the text encoding loop fails exactly when an attempt reached after caught errors raises an uncaught one, with that error's text; otherwise it gives the matches of the first encoding that decodes |
| Extraction.ExtractEmailsFromEml | src/email_hotkey_manager/email_to_ahk.py:30-64 | the header addresses that are non-empty, and the matches of the text/plain and text/html parts whose content could be read, all lower-cased |
| Extraction.HeaderEmails | src/email_hotkey_manager/email_to_ahk.py:42-46 | an address is in the header set exactly when it is the lower-cased form of a non-empty header address; the empty address is never in it |
| Extraction.PartsEmailsMembers | src/email_hotkey_manager/email_to_ahk.py:49-56 | an address comes from the body parts exactly when some text/plain or text/html part with readable content yields it |
| Extraction.CellsEmailsMembers | src/email_hotkey_manager/email_to_ahk.py:83-86 | an address comes from a CSV row exactly when some cell of it yields it |
| Extraction.RowsEmailsMembers | src/email_hotkey_manager/email_to_ahk.py:82-86 | an address comes from the rows read exactly when some row yields it |
| Extraction.ExtractSpec | src/email_hotkey_manager/email_to_ahk.py:67-113 | a missing file fails before the suffix is looked at; the lower-cased suffix must be .csv, .txt or .eml, else "Unsupported file type. Use CSV, TXT, or EML."; an error the CSV or text loop does not catch fails with its own text; success is exactly those suffixes with no such error, and the result is strictly ascending and holds exactly the gathered addresses other than the excluded one |
| Extraction.ExtractEmailsFromFile | src/email_hotkey_manager/email_to_ahk.py:67-113 | the extractor returns what `ExtractSpec` gives |
| Extraction.ExtractedAreLoweredAndNeverExcluded | src/email_hotkey_manager/email_to_ahk.py:110-113 | every extracted address is lower-case and is not "marc.turner@ukg.com" |
| Extraction.ExtractedAreDistinct | src/email_hotkey_manager/email_to_ahk.py:68 | the extracted list has no duplicates |
| Extraction.ExcludedInAnyCasing | src/email_hotkey_manager/email_to_ahk.py:111 | the excluded address is removed in every casing, because the discard comes after lower-casing |
| Extraction.TextFirstDecodingWins | src/email_hotkey_manager/email_to_ahk.py:93-99 | when the encodings before k fail and k decodes, the text result is the matches of encoding k, whatever the later encodings hold |
| Extraction.TextAllFail | src/email_hotkey_manager/email_to_ahk.py:100-101 | when every encoding raises `UnicodeDecodeError`, the text reader contributes nothing and raises nothing |
| Extraction.CsvFirstCleanReadWins | src/email_hotkey_manager/email_to_ahk.py:78-89 | when the attempts before k raise a caught error without rows and k reads cleanly, the CSV result is the rows of attempt k and nothing escapes |
| Extraction.CsvIgnoresLaterAttempts | src/email_hotkey_manager/email_to_ahk.py:87-89 | after the first CSV attempt that does not raise a caught error, the later encodings change neither the addresses nor the error that escapes |
| Extraction.TextEscapeSound | src/email_hotkey_manager/email_to_ahk.py:92-101 | when the text loop lets an error out, some attempt raised it and every attempt before it raised `UnicodeDecodeError` |
| Extraction.TextEscapeComplete | src/email_hotkey_manager/email_to_ahk.py:92-101 | an uncaught error reached after attempts that all raised `UnicodeDecodeError` is the error the text loop lets out |
| Extraction.CsvEscapeSound | src/email_hotkey_manager/email_to_ahk.py:77-89 | when the CSV loop lets an error out, some attempt raised it and every attempt before it raised a caught error |
| Extraction.CsvEscapeComplete | src/email_hotkey_manager/email_to_ahk.py:77-89 | an uncaught error reached after attempts that all raised caught errors is the error the CSV loop lets out |
| Extraction.Utf16ErrorHidesLatin1Text | src/email_hotkey_manager/email_to_ahk.py:92-101 | a text file that fails UTF-8 and gets an uncaught error from utf-16 fails with that error, although catching it would give the Latin-1 matches without the excluded address |
| Extraction.Utf16ErrorHidesLatin1Csv | src/email_hotkey_manager/email_to_ahk.py:77-89 | a CSV file that fails UTF-8 and gets an uncaught error from utf-16 fails with that error, although catching it would succeed |
| Extraction.IntendedNeverFailsOnRead | src/email_hotkey_manager/email_to_ahk.py:67-113 | with every decoding error caught, extraction succeeds exactly for an existing file with a supported suffix, and a missing file still gives "Input file not found." |
| Extraction.IntendedAgreesWhenNothingEscapes | src/email_hotkey_manager/email_to_ahk.py:77-101 | wherever the extractor as written succeeds, catching every decoding error gives the same list |
| Extraction.CsvAndTextExtractedHaveAt | src/email_hotkey_manager/email_to_ahk.py:16-17 | when every pattern match contains '@', so does every address extracted from a CSV or text file |
| Grouping.FirstWithoutAt | src/email_hotkey_manager/email_to_ahk.py:122-123 | the first address the grouping loop cannot split: it has no '@' and every earlier address has one |
| Grouping.DomainOf | src/email_hotkey_manager/email_to_ahk.py:123 | the domain is what follows the first '@': the address is a local part without '@', then '@', then the domain |
| Grouping.Append | src/email_hotkey_manager/email_to_ahk.py:124 | `domain_groups[domain].append(email)`: an existing group gets the address at its end, a new domain opens a new last group, and domains stay distinct |
| Grouping.GroupEmailsByDomain | src/email_hotkey_manager/email_to_ahk.py:120-125 | the loop succeeds exactly when every address has '@' and then returns `Grouped`; otherwise it fails with the first address without '@' |
| Grouping.GroupedDomainsFirstSeen | src/email_hotkey_manager/email_to_ahk.py:120-125 | the groups' domains are the addresses' domains without repeats, in first-seen order |
| Grouping.GroupedMembers | src/email_hotkey_manager/email_to_ahk.py:122-124 | each group holds exactly the addresses of its domain in input order, and no other domain has addresses |
| Grouping.GroupedIsPermutation | src/email_hotkey_manager/email_to_ahk.py:120-125 | the groups, concatenated, are a permutation of the input |
| Grouping.Dedup | src/email_hotkey_manager/email_to_ahk.py:121 | the first-seen listing holds the same values as its input, each once |
| Codegen.UppercaseLetters | src/email_hotkey_manager/email_to_ahk.py:23 | `string.ascii_uppercase`: the 26 letters A to Z in order |
| Codegen.AvailableKeysPool | src/email_hotkey_manager/email_to_ahk.py:22-23 | the pool has 23 keys in strictly ascending order, all capital letters and none of Z, R, X |
| Codegen.AvailableKeysAt | src/email_hotkey_manager/email_to_ahk.py:23 | the i-th pool key is A+i before R, A+i+1 between R and X, and Y after |
| Codegen.Put | src/email_hotkey_manager/email_to_ahk.py:156-159 | storing into the ordered manifest appends the entry for a new hotkey, and for an existing one replaces the first entry with that hotkey where it stands, leaving all other entries as they were; hotkeys stay distinct |
| Codegen.PutFresh | src/email_hotkey_manager/email_to_ahk.py:172 | storing a hotkey that is not yet present appends it at the end |
| Codegen.HotkeyNameInjective | src/email_hotkey_manager/email_to_ahk.py:156 | different keys give different "Ctrl+Shift+<key>" names |
| Codegen.CreateAhkAndManifest | src/email_hotkey_manager/email_to_ahk.py:132-199 | succeeds exactly when there are at most 23 groups, and then gives the whole script and manifest; otherwise fails with "Too many domains" |
| Codegen.WriteDomainHotkeys | src/email_hotkey_manager/email_to_ahk.py:142-159 | the domain loop takes the next pool key for each group, writes its paste block and its manifest entry, and fails when the pool runs out |
| Codegen.WriteSequential | src/email_hotkey_manager/email_to_ahk.py:178-186 | the sequential loop writes the R block: one cycle per non-empty comma-separated piece |
| Codegen.DomainEntriesLayout | src/email_hotkey_manager/email_to_ahk.py:156-159 | the i-th domain entry is "Ctrl+Shift+" plus the i-th pool key, labelled with the i-th domain, type "domain" |
| Codegen.DomainEntriesAvoidReserved | src/email_hotkey_manager/email_to_ahk.py:22 | no domain entry is stored under Ctrl+Shift+Z or Ctrl+Shift+R |
| Codegen.ManifestShape | src/email_hotkey_manager/email_to_ahk.py:172-175 | the manifest is the domain entries followed by the Z entry and the R entry |
| Codegen.ManifestLayout | src/email_hotkey_manager/email_to_ahk.py:156-191 | the manifest has n+2 entries: the n domain entries in group order, then ("Ctrl+Shift+Z", "All Emails", "all"), then ("Ctrl+Shift+R", "Sequential Emails", "sequential") |
| Codegen.ManifestHotkeysDistinct | src/email_hotkey_manager/email_to_ahk.py:188-191 | no two manifest entries share a hotkey |
| Codegen.ScriptBindings | src/email_hotkey_manager/email_to_ahk.py:150-194 | the script binds the first n pool keys, then Z, R and X, each once and in that order |
| Codegen.ExitOnlyInScript | src/email_hotkey_manager/email_to_ahk.py:194 | the script has one binding more than the manifest: the i-th manifest entry names the i-th script binding, and the extra last binding is X |
| Codegen.DomainBlocksLayout | src/email_hotkey_manager/email_to_ahk.py:150-154 | domain hotkey i occupies six lines: the binding of pool key i, the clipboard line with its payload, ClipWait, the paste, Return and a blank line |
| Codegen.ScriptSections | src/email_hotkey_manager/email_to_ahk.py:161-194 | after the domain hotkeys come the Z paste block with the all-addresses payload, the R block, and the exit line last |
| Codegen.PayloadPieces | src/email_hotkey_manager/email_to_ahk.py:148 | splitting a payload of comma-free, non-empty addresses at the commas and dropping empty pieces gives the first address, then each later one with a leading space |
| Codegen.SplitJoined | src/email_hotkey_manager/email_to_ahk.py:162-164 | a ", "-joined list with a trailing "," splits into its elements, the later ones with a leading space, and a final empty piece |
| Codegen.SequentialOneCyclePerAddress | src/email_hotkey_manager/email_to_ahk.py:179-185 | the R block has one five-line paste, wait, paste, sleep, Enter cycle per address, in order; the first pastes the address as it is, the later ones with a leading space |
| Codegen.SequentialEmpty | src/email_hotkey_manager/email_to_ahk.py:186 | with no addresses, the R block is only its binding and Return |
| Codegen.CyclesOfLayout | src/email_hotkey_manager/email_to_ahk.py:181-185 | the cycles are five lines each, the i-th for the i-th piece |
| Generator.Run | src/email_hotkey_manager/email_to_ahk.py:206-212 | `run` enters each stage only when the one before it succeeded, and gives `RunSpec` |
| Generator.NoEmailsExactlyWhenExtractionEmpty | src/email_hotkey_manager/email_to_ahk.py:207-209 | "No emails found." is raised exactly when extraction succeeds with an empty list |
| Generator.PipelineDomains | src/email_hotkey_manager/email_to_ahk.py:142-146 | a run fails with "Too many domains" exactly when there are more than 23 distinct domains; otherwise the manifest has one entry per distinct domain, titled in first-seen order, plus two |
| Generator.PipelinePastesEveryAddress | src/email_hotkey_manager/email_to_ahk.py:161-186 | the Z hotkey pastes the grouped addresses, a permutation of the extracted ones, and, when no address contains a comma and none is empty, the R hotkey has one cycle per extracted address (an `.eml` header address such as `"a,b"@x.com` gets two) |
| Generator.PipelineProfile | src/email_hotkey_manager/email_to_ahk.py:211-212 | a successful run writes the script of the grouped addresses, and there are at most 23 groups |
| Generator.ScriptPastesEveryAddress | src/email_hotkey_manager/email_to_ahk.py:162-185 | for groups that hold a permutation of comma-free, non-empty addresses, the script's Z block and R block carry them all |
| Generator.CsvAndTextNeverLackAt | src/email_hotkey_manager/email_to_ahk.py:123 | when every pattern match contains '@', a CSV or text file never makes the grouping raise IndexError |
| LegacyGenerator.LegacyExtractSpec | email_to_ahk.py:25-60 | the older extractor: a missing file fails; other suffixes than .csv and .txt fail with "Unsupported file type. Use CSV or TXT."; an error the encoding loop does not catch fails with its own text; success is exactly .csv and .txt with no such error; the result is strictly ascending, without the excluded address |
| LegacyGenerator.LegacyExtractEmailsFromFile | email_to_ahk.py:32-57 | the older extractor gives what `LegacyExtractSpec` gives |
| LegacyGenerator.LegacyRun | email_to_ahk.py:153-159 | the older `run` gives `LegacyRunSpec`: extraction, then "No emails found.", then grouping and codegen |
| LegacyGenerator.CopiesAgreeOutsideEml | email_to_ahk.py:56-57 | the two copies agree on CSV files, text files and missing files; an .eml file works only in the current copy; other suffixes fail in both, with different messages |
| LegacyGenerator.LegacyNeverLacksAt | email_to_ahk.py:67-72 | when every pattern match contains '@', the older grouping never meets an address without '@' |
| Keystrokes.SendHotkey | src/email_hotkey_manager/email_to_ahk_ui.py:135-151 | the modifier loop, the press and the reversed release loop emit `HotkeyEvents` |
| Keystrokes.Modifiers | src/email_hotkey_manager/email_to_ahk_ui.py:139-140 | the modifiers are all the '+'-separated parts but the last |
| Keystrokes.HotkeyEventsBalanced | src/email_hotkey_manager/email_to_ahk_ui.py:143-151 | the events are 2m+1 long and hold a single press at position m, with every modifier held there; each key-down has exactly one later key-up, in reverse order, so no key stays held |
| Keystrokes.ReplayUps | src/email_hotkey_manager/email_to_ahk_ui.py:149-151 | the reversed release loop lets go of exactly the held modifiers, last first |
| Keystrokes.NoModifiers | src/email_hotkey_manager/email_to_ahk_ui.py:147 | a name without '+' is sent as one press of its lower-cased form |
| Keystrokes.CtrlShiftEvents | email_to_ahk_ui.py:43-59 | a manifest name "Ctrl+Shift+k" holds ctrl then shift, presses k, and releases shift then ctrl |
| ManagerUi.FriendlyFileType | src/email_hotkey_manager/email_to_ahk_ui.py:49-57 | "CSV", "TXT" or "EML" exactly for those lower-cased suffixes, and "—" otherwise |
| ManagerUi.FriendlyTypeMatchesExtractor | src/email_hotkey_manager/email_to_ahk_ui.py:49-57 | an existing file shows a type other than "—" exactly when the extractor does not refuse its suffix, which is exactly when extraction with every decoding error caught succeeds |
| ManagerUi.KeepNameChars | src/email_hotkey_manager/email_to_ahk_ui.py:430 | the kept characters are exactly the letters, digits, spaces, '_' and '-' of the name |
| ManagerUi.KeepNameCharsAppend | src/email_hotkey_manager/email_to_ahk_ui.py:430 | the filter keeps order and repeats: the kept characters of a + b are those of a followed by those of b |
| ManagerUi.KeepNameCharsOne | src/email_hotkey_manager/email_to_ahk_ui.py:430 | one character is kept exactly when it is a name character |
| ManagerUi.SafeName | src/email_hotkey_manager/email_to_ahk_ui.py:430 | the sanitised name holds only letters, digits, spaces, `_` and `-` taken from the input, has no white space at either end, and is empty exactly when every name character of the input is white space |
| ManagerUi.SafeNameIdempotent | src/email_hotkey_manager/email_to_ahk_ui.py:430 | sanitising a sanitised name again changes nothing |
| ManagerUi.SafeNameEmpty | src/email_hotkey_manager/email_to_ahk_ui.py:431 | a name with no allowed character sanitises to nothing |
| ManagerUi.RunGenerator | src/email_hotkey_manager/email_to_ahk_ui.py:418-439 | "Generate" checks the input file, then the name, then the sanitised name, each with its own dialog; only then does it run the generator, reporting its error or creating the profile under the sanitised name |
| ManagerUi.GeneratorRunsOnlyOnSafeNames | src/email_hotkey_manager/email_to_ahk_ui.py:426-435 | the generator runs exactly when the input is a file and the sanitised name is non-empty; a created profile's name is non-empty, trimmed and made of allowed characters |
| ManagerUi.SortByName | src/email_hotkey_manager/email_to_ahk_ui.py:265 | the sorted list is a permutation ordered by lower-cased name |
| ManagerUi.SortByNameStable | src/email_hotkey_manager/email_to_ahk_ui.py:265 | profiles whose lower-cased names are equal keep their relative order |
| ManagerUi.LoadProfiles | src/email_hotkey_manager/email_to_ahk_ui.py:241-266 | the scan keeps the scripts with a manifest and sorts them by name |
| ManagerUi.ListedAreThoseWithManifest | src/email_hotkey_manager/email_to_ahk_ui.py:243-263 | a profile is listed exactly when a script with its stem has a manifest |
| HotkeyDispatch.ArmedRowRule | src/email_hotkey_manager/email_to_ahk_ui.py:362-373 | disarmed: no row highlighted, every button enabled; armed with a listed hotkey: exactly that row is highlighted and only its button enabled; armed with another hotkey: nothing highlighted, every button disabled; armed with `""`, which is not truthy: every button enabled and only a `""` row highlighted |
| HotkeyDispatch.HotkeyWindow.SetArmedUi | src/email_hotkey_manager/email_to_ahk_ui.py:362-373 | the row loop leaves each row's highlight and button state as the rule gives them, and the status line unchanged |
| HotkeyDispatch.HotkeyWindow.constructor | src/email_hotkey_manager/email_to_ahk_ui.py:318 | a new window, built over distinct hotkeys (the manifest's keys), shows "Ready. Choose a hotkey and click ARM." with nothing highlighted and every button enabled |
| HotkeyDispatch.HotkeyWindow.SetStatus | src/email_hotkey_manager/email_to_ahk_ui.py:322-325 | the status line shows the message and the rows are unchanged |
| HotkeyDispatch.Emitted | src/email_hotkey_manager/email_to_ahk_ui.py:143-151 | the events sent before key injection raises are a prefix of the full events, and all of them when it does not raise |
| HotkeyDispatch.Dispatcher.constructor | src/email_hotkey_manager/email_to_ahk_ui.py:38-43 | nothing armed, no active window, an empty registry |
| HotkeyDispatch.Dispatcher.Arm | src/email_hotkey_manager/email_to_ahk_ui.py:154-159 | the slot holds the new hotkey whatever it held (last write wins); the active window shows it armed; the window whose button was clicked says "Armed." |
| HotkeyDispatch.Dispatcher.ClearArmed | src/email_hotkey_manager/email_to_ahk_ui.py:162-168 | the slot is empty, the active window shows nothing armed, and a given window says "Ready." |
| HotkeyDispatch.Dispatcher.OnTriggerPressed | src/email_hotkey_manager/email_to_ahk_ui.py:171-187 | armed: the armed hotkey's events are sent, F8 is suppressed and the slot is cleared even when sending raises; "Sent <hotkey>" only when it did not; the windows' other fields stay as they were; not armed: nothing is sent and nothing changes |
| HotkeyDispatch.Dispatcher.EnsureAhkRunning | src/email_hotkey_manager/email_to_ahk_ui.py:89-114 | a live process: nothing happens; a missing runtime: the registry is unchanged and the window says so; otherwise the registry maps the name to the new process |
| HotkeyDispatch.Dispatcher.StopAhk | src/email_hotkey_manager/email_to_ahk_ui.py:117-132 | the name leaves the registry and every other entry stays |
| HotkeyDispatch.Dispatcher.OpenWindow | src/email_hotkey_manager/email_to_ahk_ui.py:375-379 | the window becomes the active status and armed display, and shows the current armed hotkey |
| HotkeyDispatch.Dispatcher.CloseWindow | src/email_hotkey_manager/email_to_ahk_ui.py:381-393 | a closing active window stops being active, the slot is cleared, and the profile's process leaves the registry; a window that stays active has its rows cleared but keeps its status line, since `clear_armed()` is called with no status window; a closing window that was not the armed display is left as it was |
| LegacyUi.LegacyDispatcher.constructor | email_to_ahk_ui.py:23-24 | nothing armed, nothing running, status "Ready." |
| LegacyUi.LegacyDispatcher.ArmHotkey | email_to_ahk_ui.py:68-74 | the slot holds the new hotkey whatever it held, and the status says it is armed |
| LegacyUi.LegacyDispatcher.SendHotkeyAndReport | email_to_ahk_ui.py:43-61 | the hotkey's events are sent, then "Sent <hotkey>" is shown; an exception during sending skips the report |
| LegacyUi.LegacyDispatcher.OnTriggerPressed | email_to_ahk_ui.py:77-83 | armed: send and clear the slot; a send that raises leaves the slot armed, since there is no `finally`; not armed: nothing happens |
| LegacyUi.LegacyDispatcher.EnsureAhkRunning | email_to_ahk_ui.py:36-41 | a profile unknown to the registry is launched once and recorded; a known one is not launched again |
| LegacyUi.LegacyDispatcher.DeleteProfile | email_to_ahk_ui.py:130-139 | the name leaves the registry, so a later open launches it again; the status reports the deletion or the error |
| LegacyUi.LegacyRunGenerator | email_to_ahk_ui.py:161-188 | the older "Generate" checks the input file and the stripped name, then runs the generator under the sanitised name without checking that name |
| LegacyUi.LegacyAcceptsEmptyName | email_to_ahk_ui.py:173-177 | a name made only of dropped characters creates a profile named "" in the older copy, and is rejected by the current one |
| LegacyUi.BangsAreNoName | email_to_ahk_ui.py:173 | "!!!" is such a name |
| LegacyUi.GenerateAgreesOnSafeNames | email_to_ahk_ui.py:161-188 | with a non-empty sanitised name and a CSV, text or missing file, the two copies create the same profile under the same name, or fail with the same message |

## Left out

- File and process I/O is not modelled: writing the script and the manifest,
  reading manifests and `.meta.json` files, JSON formatting, globbing the
  profile folder, `Popen`, `poll`, `terminate` and `kill`. Their results are
  parameters: `alive`, `runtimeFound`, `pid` and `unlinkError`, and
  `FoundScript` for a found profile.
- The regular expression, the CSV tokeniser, text decoding and MIME parsing
  are library code. The model receives their results per encoding,
  including which attempts raise an error the loop does not catch and that
  error's text. Which byte strings make a decoder raise is not modelled.
- `Extraction.CsvAndTextExtractedHaveAt`: that every pattern match contains
  '@' is a precondition (`PatternMatchesHaveAt`), not derived from the
  pattern.
- `Generator.CsvAndTextNeverLackAt`: rests on the same `PatternMatchesHaveAt`
  precondition, because the regular expression is not modelled.
- `LegacyGenerator.LegacyNeverLacksAt`: rests on the same
  `PatternMatchesHaveAt` precondition, for the same reason.
- `Base.MessagesDistinct`: leaves out `ReadFailed`, whose text comes from the
  decoder and could be any of the other messages.
- `Text.Lower`, `Text.IsAlnum`, `Text.Strip`: ASCII only. Python's `lower`,
  `isalnum` and `strip` also act on non-ASCII letters and white space.
- Tk widgets, layout, the scrollable frame, file dialogs, message boxes,
  `manager_flash` timers, `profile_row_text` and `browse_input`: display
  only. Row colours become a highlighted flag, button states an enabled
  flag.
- Registering the global F8 hook and any race between arming and the
  trigger. The transitions are modelled one at a time.
- `time.sleep` pauses in key injection and in `stop_ahk`.
- The partial script left on disk when the 24th domain raises, because the
  file is opened first. Only the error is modelled.
- `get_ahk_runtime_exe`'s path probing. It becomes the `runtimeFound` flag.
- `Path.suffix` parsing. `InputFile.suffix` is taken as given.
- The hotkey count and the meta file `run_generator` writes after a
  successful run, and the message text it flashes.
- The CLI `main` of both generator copies: console input and output only.
- The older copy launches a script through `explorer.exe` and never checks
  whether that process is still alive. Its registry is therefore a flag per
  name, and the launch is recorded in a log (`LegacyUi.LegacyDispatcher`).
- `LegacyUi.LegacyRunGenerator`: `add_profile_row`, the "Profile '<name>'
  created." status and clearing the entry fields are not part of the outcome.

## Findings

| source | as written | input that shows it | evidently intended | confidence | as-written member | corrected member |
|---|---|---|---|---|---|---|
| src/email_hotkey_manager/email_to_ahk.py:88-100 | the CSV loop catches only `UnicodeDecodeError` and `csv.Error`, the text loop only `UnicodeDecodeError`; the utf-16 decoder's `UnicodeError` for input without a byte-order mark leaves the loop, so Latin-1 is never tried and the run fails with "UTF-16 stream does not start with BOM" (the older copy, email_to_ahk.py:43-54, is the same) | a `.txt` file holding the 12 Latin-1 bytes of "café a@b.fr" and a newline: invalid UTF-8, even length, no byte-order mark | fall back to Latin-1, which decodes every byte string, and extract "a@b.fr" | not executed | Extraction.Utf16ErrorHidesLatin1Text | Extraction.IntendedNeverFailsOnRead |
| email_to_ahk_ui.py:173-177 | the older "Generate" never checks that the sanitised name is non-empty, so it runs the generator with the script path `<profile folder>/.ahk` | profile name "!!!" with a valid CSV file: the profile is created with an empty name | reject a name with no letter, digit, space, '_' or '-', as the current copy does at src/email_hotkey_manager/email_to_ahk_ui.py:431-433 | not executed | LegacyUi.LegacyAcceptsEmptyName | ManagerUi.GeneratorRunsOnlyOnSafeNames |

The extraction, `run` and the manager window follow the code as written
(`Extraction.ExtractSpec`). The corrected extraction is
`Extraction.IntendedExtractSpec`, which reads the input with every decoding
error caught. `ManagerUi.FriendlyTypeMatchesExtractor` relates the type label
to it.

=== FILE: base.dfy ===
/**
 * Shared result and error types of the email-to-hotkey generator.
 * Each error stands for one exception the generator raises; `Message`
 * gives the text that the exception carries (what the manager window shows).
 */
module Base {

  datatype Option<T> = None | Some(value: T)

  datatype Result<T> = Ok(value: T) | Err(error: Error)

  datatype Error =
    | FileNotFound                         // FileNotFoundError: the input path does not exist
    | UnsupportedFileType(message: string) // ValueError: the suffix is not one the extractor reads
    | NoEmailsFound                        // ValueError: extraction produced an empty list
    | TooManyDomains                       // RuntimeError: the key pool ran out
    | NoAtSign(address: string)            // IndexError: `split("@", 1)[1]` on an address without '@'
    | ReadFailed(message: string)          // an error reading the input that the encoding loop does not catch

  function Message(e: Error): string
  {
    match e
    case FileNotFound => "Input file not found."
    case UnsupportedFileType(m) => m
    case NoEmailsFound => "No emails found."
    case TooManyDomains => "Too many domains (max 23 supported)."
    case NoAtSign(_) => "list index out of range"
    case ReadFailed(m) => m
  }

  /**
   * Apart from the unsupported-type and read errors, which carry their own
   * text, the message tells which error was raised.
   */
  lemma MessagesDistinct(a: Error, b: Error)
    requires !a.UnsupportedFileType? && !b.UnsupportedFileType?
    requires !a.ReadFailed? && !b.ReadFailed?
    ensures Message(a) == Message(b) <==>
      a.FileNotFound? == b.FileNotFound? && a.NoEmailsFound? == b.NoEmailsFound? && a.TooManyDomains? == b.TooManyDomains?
  {
    var texts := ["Input file not found.", "No emails found.", "Too many domains (max 23 supported).", "list index out of range"];
    assert texts[0][0] != texts[1][0] && texts[0][0] != texts[2][0] && texts[1][0] != texts[2][0];
    assert texts[3][0] != texts[0][0] && texts[3][0] != texts[1][0] && texts[3][0] != texts[2][0];
  }
}

=== FILE: codegen.dfy ===
/**
 * `create_ahk_and_manifest`: for every domain group, in order, the next key
 * of the pool gets a paste hotkey; then the "all" hotkey Z, the sequential
 * hotkey R and the exit hotkey X. The script is modelled as its list of
 * lines (every `write` of "...\n" is one line, "Return\n\n" is "Return"
 * followed by an empty line); the manifest dictionary as its list of
 * entries in insertion order.
 */
module Codegen {
  import opened Base
  import opened Text
  import opened Grouping

  // ---------- the key pool ----------

  /** The letters 'A' to 'Z' in order. */
  function UppercaseLetters(): (r: string)
    ensures |r| == 26 && forall i :: 0 <= i < 26 ==> r[i] as int == 'A' as int + i
  {
    seq(26, i requires 0 <= i < 26 => ('A' as int + i) as char)
  }

  /** `string.ascii_uppercase`. */
  const AsciiUppercase: string := UppercaseLetters()

  /** Keys kept for the fixed hotkeys: all emails, sequential, exit. */
  const ReservedKeys: set<char> := {'Z', 'R', 'X'}

  /** The characters of s that are not reserved, in order. */
  function WithoutReserved(s: string): string
  {
    if s == [] then []
    else (if s[0] in ReservedKeys then [] else [s[0]]) + WithoutReserved(s[1..])
  }

  /** `AVAILABLE_KEYS`: the alphabet without the reserved keys. */
  const AvailableKeys: string := WithoutReserved(AsciiUppercase)

  /** Filtering a run of unreserved characters keeps the run. */
  lemma {:induction false} KeepsRun(s: string, i: nat, j: nat)
    requires i <= j <= |s|
    requires forall k :: i <= k < j ==> s[k] !in ReservedKeys
    ensures WithoutReserved(s[i..]) == s[i..j] + WithoutReserved(s[j..])
    decreases j - i
  {
    if i < j {
      var t, rest := s[i..], WithoutReserved(s[j..]);
      assert t[0] == s[i] && t[1..] == s[i + 1..];
      assert WithoutReserved(t) == [s[i]] + WithoutReserved(s[i + 1..]);
      KeepsRun(s, i + 1, j);
      assert s[i..j] == [s[i]] + s[i + 1..j];
      assert [s[i]] + (s[i + 1..j] + rest) == ([s[i]] + s[i + 1..j]) + rest;
    }
  }

  lemma DropsOne(s: string, i: nat)
    requires i < |s| && s[i] in ReservedKeys
    ensures WithoutReserved(s[i..]) == WithoutReserved(s[i + 1..])
  {
    assert s[i..][1..] == s[i + 1..];
  }

  lemma FilteredHead(u: string)
    requires u == AsciiUppercase
    ensures WithoutReserved(u) == u[..17] + WithoutReserved(u[17..])
  {
    KeepsRun(u, 0, 17);
    assert u[0..] == u;
  }

  lemma FilteredTail(u: string)
    requires u == AsciiUppercase
    ensures WithoutReserved(u[17..]) == u[18..23] + u[24..25]
  {
    DropsOne(u, 17);
    KeepsRun(u, 18, 23);
    DropsOne(u, 23);
    KeepsRun(u, 24, 25);
    DropsOne(u, 25);
    assert u[26..] == [];
  }

  /** The pool is the alphabet with R, X and Z cut out. */
  lemma AvailableKeysPositions()
    ensures AvailableKeys == AsciiUppercase[..17] + AsciiUppercase[18..23] + AsciiUppercase[24..25]
  {
    var u := AsciiUppercase;
    FilteredHead(u);
    FilteredTail(u);
  }

  /** The i-th key: the i-th letter, then one later past R, two later past X. */
  lemma AvailableKeysAt()
    ensures |AvailableKeys| == 23
    ensures forall i :: 0 <= i < 23 ==> AvailableKeys[i] as int == 'A' as int + i + (if i < 17 then 0 else if i < 22 then 1 else 2)
  {
    AvailableKeysPositions();
    ThreeRuns(AvailableKeys, AsciiUppercase);
  }

  /** The positions of the three runs the filter keeps. */
  lemma ThreeRuns(s: string, u: string)
    requires |u| == 26 && s == u[..17] + u[18..23] + u[24..25]
    ensures |s| == 23
    ensures forall i :: 0 <= i < 17 ==> s[i] == u[i]
    ensures forall i :: 17 <= i < 22 ==> s[i] == u[i + 1]
    ensures s[22] == u[24]
  {
  }

  /** The pool: 23 upper-case letters in alphabetical order, none of them reserved. */
  lemma AvailableKeysPool()
    ensures |AvailableKeys| == 23
    ensures forall i, j :: 0 <= i < j < |AvailableKeys| ==> AvailableKeys[i] < AvailableKeys[j]
    ensures forall c :: c in AvailableKeys ==> IsUpper(c) && c !in ReservedKeys
  {
    KeysAscending();
    KeysUnreserved();
  }

  lemma KeysAscending()
    ensures |AvailableKeys| == 23
    ensures forall i, j :: 0 <= i < j < |AvailableKeys| ==> AvailableKeys[i] < AvailableKeys[j]
  {
    KeyAt(0);
    forall i, j | 0 <= i < j < 23 ensures AvailableKeys[i] < AvailableKeys[j] {
      KeyAt(i);
      KeyAt(j);
    }
  }

  lemma KeysUnreserved()
    ensures forall c :: c in AvailableKeys ==> IsUpper(c) && c !in ReservedKeys
  {
    KeyAt(0);
    forall i | 0 <= i < 23 ensures IsUpper(AvailableKeys[i]) && AvailableKeys[i] !in ReservedKeys {
      KeyUnreserved(i);
    }
  }

  lemma KeyUnreserved(i: nat)
    requires i < 23
    ensures |AvailableKeys| == 23
    ensures IsUpper(AvailableKeys[i]) && AvailableKeys[i] != 'Z' && AvailableKeys[i] != 'R' && AvailableKeys[i] != 'X'
  {
    KeyAt(i);
    var n := AvailableKeys[i] as int;
    if i < 17 {
      assert 65 <= n <= 81;
    } else if i < 22 {
      assert 83 <= n <= 87;
    } else {
      assert n == 89;
    }
  }

  /** The i-th key of the pool, on its own. */
  lemma KeyAt(i: nat)
    requires i < 23
    ensures |AvailableKeys| == 23
    ensures AvailableKeys[i] as int == 'A' as int + i + (if i < 17 then 0 else if i < 22 then 1 else 2)
  {
    AvailableKeysAt();
  }

  // ---------- script lines ----------

  /** `", ".join(emails) + ","`: the text a paste hotkey puts on the clipboard. */
  function Payload(emails: seq<string>): string
  {
    Join(", ", emails) + ","
  }

  function Binding(key: char): string { "^+" + [key] + "::" }

  function ClipboardLine(text: string): string { "Clipboard := \"" + text + "\"" }

  /** A hotkey that pastes a payload in one go. */
  function PasteBlock(key: char, payload: string): (r: seq<string>)
    ensures |r| == 6
  {
    [Binding(key), ClipboardLine(payload), "ClipWait", "SendInput, ^v", "Return", ""]
  }

  /** One step of the sequential hotkey: paste one piece, wait, press Enter. */
  function Cycle(piece: string): seq<string>
  {
    [ClipboardLine(piece), "ClipWait", "SendInput, ^v", "Sleep, 2000", "Send, {Enter}"]
  }

  const ExitLine: string := "^+X::ExitApp"

  /** The pieces of a list that `if email:` lets through. */
  function NonEmpty(pieces: seq<string>): (r: seq<string>)
    ensures forall i :: 0 <= i < |r| ==> r[i] != ""
  {
    if pieces == [] then []
    else
      var p := pieces[|pieces| - 1];
      NonEmpty(pieces[..|pieces| - 1]) + (if p != "" then [p] else [])
  }

  function CyclesOf(pieces: seq<string>): seq<string>
  {
    if pieces == [] then [] else CyclesOf(pieces[..|pieces| - 1]) + Cycle(pieces[|pieces| - 1])
  }

  lemma NonEmptySnoc(xs: seq<string>, x: string)
    ensures NonEmpty(xs + [x]) == NonEmpty(xs) + (if x != "" then [x] else [])
  {
    assert (xs + [x])[..|xs|] == xs;
  }

  lemma CyclesOfSnoc(xs: seq<string>, x: string)
    ensures CyclesOf(xs + [x]) == CyclesOf(xs) + Cycle(x)
  {
    assert (xs + [x])[..|xs|] == xs;
  }

  /** The sequential hotkey over the all-emails payload: one cycle per non-empty comma-separated piece. */
  function SequentialBlock(allEmails: string): seq<string>
  {
    [Binding('R')] + CyclesOf(NonEmpty(Split(allEmails, ','))) + ["Return", ""]
  }

  /** One paste hotkey per key, the i-th key pasting the i-th payload. */
  function PasteBlocks(keys: string, payloads: seq<string>): seq<string>
    requires |keys| == |payloads|
  {
    if keys == [] then []
    else
      var n := |keys| - 1;
      PasteBlocks(keys[..n], payloads[..n]) + PasteBlock(keys[n], payloads[n])
  }

  /** The payload of every group, in order. */
  function Payloads(gs: seq<Group>): (r: seq<string>)
    ensures |r| == |gs|
  {
    seq(|gs|, i requires 0 <= i < |gs| => Payload(gs[i].emails))
  }

  /** The per-domain hotkeys: the i-th group is bound to the i-th key of the pool. */
  function DomainBlocks(gs: seq<Group>): seq<string>
    requires |gs| <= |AvailableKeys|
  {
    PasteBlocks(AvailableKeys[..|gs|], Payloads(gs))
  }

  lemma PrefixSnoc<T>(s: seq<T>, i: nat)
    requires i < |s|
    ensures s[..i + 1] == s[..i] + [s[i]]
  {
  }

  lemma PayloadsSnoc(gs: seq<Group>, i: nat)
    requires i < |gs|
    ensures Payloads(gs[..i + 1]) == Payloads(gs[..i]) + [Payload(gs[i].emails)]
  {
    var a, b := Payloads(gs[..i + 1]), Payloads(gs[..i]) + [Payload(gs[i].emails)];
    forall k | 0 <= k <= i ensures a[k] == b[k] {
      assert gs[..i + 1][k] == gs[k];
    }
  }

  lemma PasteBlocksSnoc(keys: string, payloads: seq<string>, k: char, p: string)
    requires |keys| == |payloads|
    ensures PasteBlocks(keys + [k], payloads + [p]) == PasteBlocks(keys, payloads) + PasteBlock(k, p)
  {
    assert (keys + [k])[..|keys|] == keys;
    assert (payloads + [p])[..|payloads|] == payloads;
  }

  /** The whole script written for a list of groups the pool can cover. */
  function Script(gs: seq<Group>): seq<string>
    requires |gs| <= |AvailableKeys|
  {
    var all := Payload(AllEmails(gs));
    DomainBlocks(gs) + PasteBlock('Z', all) + SequentialBlock(all) + [ExitLine]
  }

  // ---------- the manifest ----------

  /** One manifest entry: the hotkey name it is stored under, its label and its type. */
  datatype ManifestEntry = ManifestEntry(hotkey: string, title: string, kind: string)

  function HotkeyName(key: char): string { "Ctrl+Shift+" + [key] }

  function Hotkeys(m: seq<ManifestEntry>): seq<string>
  {
    seq(|m|, i requires 0 <= i < |m| => m[i].hotkey)
  }

  predicate DistinctHotkeys(m: seq<ManifestEntry>)
  {
    forall i, j :: 0 <= i < j < |m| ==> m[i].hotkey != m[j].hotkey
  }

  /** The position of the entry stored under h, or |m| when there is none. */
  function IndexOfHotkey(m: seq<ManifestEntry>, h: string): (k: nat)
    ensures k <= |m|
    ensures forall j :: 0 <= j < k ==> m[j].hotkey != h
    ensures k < |m| ==> m[k].hotkey == h
  {
    if m == [] then 0 else if m[0].hotkey == h then 0 else 1 + IndexOfHotkey(m[1..], h)
  }

  /**
   * `manifest[e.hotkey] = ...`: a dictionary assignment replaces the value
   * of an existing key where it stands and adds a new key at the end.
   */
  function Put(m: seq<ManifestEntry>, e: ManifestEntry): (r: seq<ManifestEntry>)
    ensures |r| == if e.hotkey in Hotkeys(m) then |m| else |m| + 1
    ensures DistinctHotkeys(m) ==> DistinctHotkeys(r)
    ensures e in r
    ensures e.hotkey !in Hotkeys(m) ==> r == m + [e]
    ensures e.hotkey in Hotkeys(m) ==> exists k ::
      && 0 <= k < |m| && m[k].hotkey == e.hotkey && r == m[k := e]
      && forall j :: 0 <= j < k ==> m[j].hotkey != e.hotkey
  {
    var k := IndexOfHotkey(m, e.hotkey);
    if k == |m| then
      assert Hotkeys(m + [e]) == Hotkeys(m) + [e.hotkey];
      m + [e]
    else
      assert Hotkeys(m)[k] == e.hotkey;
      assert Hotkeys(m[k := e]) == Hotkeys(m);
      assert m[k := e][k] == e;
      m[k := e]
  }

  function DomainEntry(key: char, domain: string): ManifestEntry
  {
    ManifestEntry(HotkeyName(key), domain, "domain")
  }

  const AllEntry: ManifestEntry := ManifestEntry(HotkeyName('Z'), "All Emails", "all")

  const SequentialEntry: ManifestEntry := ManifestEntry(HotkeyName('R'), "Sequential Emails", "sequential")

  function DomainEntries(gs: seq<Group>): seq<ManifestEntry>
    requires |gs| <= |AvailableKeys|
  {
    if gs == [] then []
    else
      var n := |gs| - 1;
      Put(DomainEntries(gs[..n]), DomainEntry(AvailableKeys[n], gs[n].domain))
  }

  /** The manifest written for a list of groups the pool can cover. */
  function Manifest(gs: seq<Group>): seq<ManifestEntry>
    requires |gs| <= |AvailableKeys|
  {
    Put(Put(DomainEntries(gs), AllEntry), SequentialEntry)
  }

  /** What a successful call writes: the script lines and the manifest entries. */
  datatype Profile = Profile(script: seq<string>, manifest: seq<ManifestEntry>)

  // ---------- the generator, step by step ----------

  /**
   * `create_ahk_and_manifest`: it fails exactly when the groups outnumber
   * the keys of the pool (23, by `AvailableKeysPool`); otherwise it writes
   * `Script` and `Manifest`.
   */
  method CreateAhkAndManifest(domainGroups: seq<Group>) returns (r: Result<Profile>)
    ensures r.Ok? <==> |domainGroups| <= |AvailableKeys|
    ensures r.Err? ==> r.error == TooManyDomains
    ensures r.Ok? ==> r.value == Profile(Script(domainGroups), Manifest(domainGroups))
  {
    var domains := WriteDomainHotkeys(domainGroups);
    if domains.Err? {
      return Err(domains.error);
    }
    var script := domains.value.script;
    var manifest := domains.value.manifest;

    var allEmails := Join(", ", AllEmails(domainGroups)) + ",";
    script := script + [Binding('Z'), ClipboardLine(allEmails), "ClipWait", "SendInput, ^v", "Return", ""];
    manifest := Put(manifest, ManifestEntry(HotkeyName('Z'), "All Emails", "all"));

    var sequential := WriteSequential(allEmails);
    script := script + sequential;
    manifest := Put(manifest, ManifestEntry(HotkeyName('R'), "Sequential Emails", "sequential"));

    script := script + [ExitLine];
    return Ok(Profile(script, manifest));
  }

  /**
   * The "Per-domain hotkeys" section: each group takes the next key of the
   * pool; when the pool is exhausted the generator fails.
   */
  method WriteDomainHotkeys(domainGroups: seq<Group>) returns (r: Result<Profile>)
    ensures r.Ok? <==> |domainGroups| <= |AvailableKeys|
    ensures r.Err? ==> r.error == TooManyDomains
    ensures r.Ok? ==> r.value == Profile(DomainBlocks(domainGroups), DomainEntries(domainGroups))
  {
    var manifest: seq<ManifestEntry> := [];
    var script: seq<string> := [];
    var keyIndex := 0;  // how far `key_iter` has advanced
    for i := 0 to |domainGroups|
      invariant keyIndex == i <= |AvailableKeys|
      invariant script == DomainBlocks(domainGroups[..i])
      invariant manifest == DomainEntries(domainGroups[..i])
    {
      if keyIndex == |AvailableKeys| {
        return Err(TooManyDomains);
      }
      var key := AvailableKeys[keyIndex];
      keyIndex := keyIndex + 1;
      var emailString := Join(", ", domainGroups[i].emails) + ",";
      var block := [Binding(key), ClipboardLine(emailString), "ClipWait", "SendInput, ^v", "Return", ""];
      var entry := ManifestEntry(HotkeyName(key), domainGroups[i].domain, "domain");
      DomainStep(domainGroups, i);
      script := script + block;
      manifest := Put(manifest, entry);
    }
    assert domainGroups[..|domainGroups|] == domainGroups;
    return Ok(Profile(script, manifest));
  }

  /** One more group adds its paste block to the script and its entry to the manifest. */
  lemma DomainStep(gs: seq<Group>, i: nat)
    requires i < |gs| && i < |AvailableKeys|
    ensures DomainBlocks(gs[..i + 1]) == DomainBlocks(gs[..i]) + PasteBlock(AvailableKeys[i], Payload(gs[i].emails))
    ensures DomainEntries(gs[..i + 1]) == Put(DomainEntries(gs[..i]), DomainEntry(AvailableKeys[i], gs[i].domain))
  {
    var done := gs[..i];
    assert gs[..i + 1][..i] == done;
    assert gs[..i + 1][i] == gs[i];
    PrefixSnoc(AvailableKeys, i);
    PayloadsSnoc(gs, i);
    PasteBlocksSnoc(AvailableKeys[..i], Payloads(done), AvailableKeys[i], Payload(gs[i].emails));
  }

  /** The "Sequential" section: one paste-and-Enter cycle per non-empty piece of the all-emails payload. */
  method WriteSequential(allEmails: string) returns (lines: seq<string>)
    ensures lines == SequentialBlock(allEmails)
  {
    lines := [Binding('R')];
    var pieces := Split(allEmails, ',');
    for j := 0 to |pieces|
      invariant lines == [Binding('R')] + CyclesOf(NonEmpty(pieces[..j]))
    {
      var email := pieces[j];
      ghost var done := NonEmpty(pieces[..j]);
      assert pieces[..j + 1] == pieces[..j] + [email];
      NonEmptySnoc(pieces[..j], email);
      if email != "" {
        CyclesOfSnoc(done, email);
        lines := lines + [ClipboardLine(email), "ClipWait", "SendInput, ^v", "Sleep, 2000", "Send, {Enter}"];
        assert lines == [Binding('R')] + CyclesOf(done + [email]);
        assert NonEmpty(pieces[..j + 1]) == done + [email];
      } else {
        assert NonEmpty(pieces[..j + 1]) == done + [];
        assert done + [] == done;
      }
    }
    assert pieces[..|pieces|] == pieces;
    lines := lines + ["Return", ""];
  }

  // ---------- the manifest ----------

  lemma HotkeyNameInjective(a: char, b: char)
    requires HotkeyName(a) == HotkeyName(b)
    ensures a == b
  {
    assert HotkeyName(a)[11] == a;
  }

  /** Assigning a key the dictionary does not hold adds the entry at the end. */
  lemma PutFresh(m: seq<ManifestEntry>, e: ManifestEntry)
    requires forall i :: 0 <= i < |m| ==> m[i].hotkey != e.hotkey
    ensures Put(m, e) == m + [e]
  {
    assert IndexOfHotkey(m, e.hotkey) == |m|;
  }

  /** The i-th domain entry is stored under the i-th key of the pool, with the group's domain as label. */
  lemma {:induction false} DomainEntriesLayout(gs: seq<Group>)
    requires |gs| <= |AvailableKeys|
    ensures |DomainEntries(gs)| == |gs|
    ensures forall i :: 0 <= i < |gs| ==> DomainEntries(gs)[i] == DomainEntry(AvailableKeys[i], gs[i].domain)
    decreases |gs|
  {
    if gs != [] {
      var n := |gs| - 1;
      var init := gs[..n];
      DomainEntriesLayout(init);
      var m := DomainEntries(init);
      var e := DomainEntry(AvailableKeys[n], gs[n].domain);
      LaterKeyFresh(m, n);
      PutFresh(m, e);
      DomainEntriesLast(gs);
      EntriesSnoc(gs, m, e);
    }
  }

  lemma DomainEntriesLast(gs: seq<Group>)
    requires 0 < |gs| <= |AvailableKeys|
    ensures DomainEntries(gs) == Put(DomainEntries(gs[..|gs| - 1]), DomainEntry(AvailableKeys[|gs| - 1], gs[|gs| - 1].domain))
  {
  }

  lemma EntriesSnoc(gs: seq<Group>, m: seq<ManifestEntry>, e: ManifestEntry)
    requires 0 < |gs| <= |AvailableKeys| && |m| == |gs| - 1
    requires forall i :: 0 <= i < |m| ==> m[i] == DomainEntry(AvailableKeys[i], gs[..|m|][i].domain)
    requires e == DomainEntry(AvailableKeys[|m|], gs[|m|].domain)
    ensures forall i :: 0 <= i < |gs| ==> (m + [e])[i] == DomainEntry(AvailableKeys[i], gs[i].domain)
  {
    forall i | 0 <= i < |gs| ensures (m + [e])[i] == DomainEntry(AvailableKeys[i], gs[i].domain) {
      if i < |m| {
        assert gs[..|m|][i] == gs[i];
      }
    }
  }

  /** The n-th key's hotkey is not among those of the first n keys. */
  lemma LaterKeyFresh(m: seq<ManifestEntry>, n: nat)
    requires |m| == n < |AvailableKeys|
    requires forall i :: 0 <= i < |m| ==> m[i].hotkey == HotkeyName(AvailableKeys[i])
    ensures forall i :: 0 <= i < |m| ==> m[i].hotkey != HotkeyName(AvailableKeys[n])
  {
    KeysAscending();
    forall i | 0 <= i < |m| ensures m[i].hotkey != HotkeyName(AvailableKeys[n]) {
      if m[i].hotkey == HotkeyName(AvailableKeys[n]) {
        HotkeyNameInjective(AvailableKeys[i], AvailableKeys[n]);
      }
    }
  }

  /** No domain entry is stored under the Z or R hotkey. */
  lemma DomainEntriesAvoidReserved(gs: seq<Group>)
    requires |gs| <= |AvailableKeys|
    ensures forall i :: 0 <= i < |DomainEntries(gs)| ==> DomainEntries(gs)[i].hotkey != AllEntry.hotkey && DomainEntries(gs)[i].hotkey != SequentialEntry.hotkey
  {
    DomainEntriesLayout(gs);
    AvailableKeysPool();
    var d := DomainEntries(gs);
    forall i | 0 <= i < |d| ensures d[i].hotkey != AllEntry.hotkey && d[i].hotkey != SequentialEntry.hotkey {
      assert AvailableKeys[i] in AvailableKeys;
      if d[i].hotkey == AllEntry.hotkey {
        HotkeyNameInjective(AvailableKeys[i], 'Z');
      }
      if d[i].hotkey == SequentialEntry.hotkey {
        HotkeyNameInjective(AvailableKeys[i], 'R');
      }
    }
  }

  /** After entries under other hotkeys, the Z and R assignments both add at the end. */
  lemma FixedEntriesAppend(d: seq<ManifestEntry>)
    requires forall i :: 0 <= i < |d| ==> d[i].hotkey != AllEntry.hotkey && d[i].hotkey != SequentialEntry.hotkey
    ensures Put(Put(d, AllEntry), SequentialEntry) == d + [AllEntry, SequentialEntry]
  {
    PutFresh(d, AllEntry);
    var d' := d + [AllEntry];
    forall i | 0 <= i < |d'| ensures d'[i].hotkey != SequentialEntry.hotkey {
      if i == |d| {
        assert AllEntry.hotkey[11] != SequentialEntry.hotkey[11];
      } else {
        assert d'[i] == d[i];
      }
    }
    PutFresh(d', SequentialEntry);
  }

  /** The manifest is the domain entries followed by the Z and R entries. */
  lemma ManifestShape(gs: seq<Group>)
    requires |gs| <= |AvailableKeys|
    ensures Manifest(gs) == DomainEntries(gs) + [AllEntry, SequentialEntry]
  {
    DomainEntriesAvoidReserved(gs);
    FixedEntriesAppend(DomainEntries(gs));
  }

  /**
   * The manifest: one domain entry per group, in order, then Z ("All Emails",
   * "all") and R ("Sequential Emails", "sequential"): n+2 entries.
   */
  lemma ManifestLayout(gs: seq<Group>)
    requires |gs| <= |AvailableKeys|
    ensures |Manifest(gs)| == |gs| + 2
    ensures forall i :: 0 <= i < |gs| ==> Manifest(gs)[i] == ManifestEntry("Ctrl+Shift+" + [AvailableKeys[i]], gs[i].domain, "domain")
    ensures Manifest(gs)[|gs|] == ManifestEntry("Ctrl+Shift+Z", "All Emails", "all")
    ensures Manifest(gs)[|gs| + 1] == ManifestEntry("Ctrl+Shift+R", "Sequential Emails", "sequential")
  {
    ManifestShape(gs);
    DomainEntriesLayout(gs);
    EntriesThenFixed(DomainEntries(gs), gs);
  }

  lemma EntriesThenFixed(d: seq<ManifestEntry>, gs: seq<Group>)
    requires |d| == |gs| <= |AvailableKeys|
    requires forall i :: 0 <= i < |gs| ==> d[i] == DomainEntry(AvailableKeys[i], gs[i].domain)
    ensures var m := d + [AllEntry, SequentialEntry];
      && |m| == |gs| + 2
      && (forall i :: 0 <= i < |gs| ==> m[i] == ManifestEntry("Ctrl+Shift+" + [AvailableKeys[i]], gs[i].domain, "domain"))
      && m[|gs|] == ManifestEntry("Ctrl+Shift+Z", "All Emails", "all")
      && m[|gs| + 1] == ManifestEntry("Ctrl+Shift+R", "Sequential Emails", "sequential")
  {
  }

  /** The manifest's hotkeys are distinct: no dictionary assignment overwrote another. */
  lemma ManifestHotkeysDistinct(gs: seq<Group>)
    requires |gs| <= |AvailableKeys|
    ensures DistinctHotkeys(Manifest(gs))
  {
    ManifestShape(gs);
    DomainEntriesLayout(gs);
    DomainEntriesAvoidReserved(gs);
    AvailableKeysPool();
    var d := DomainEntries(gs);
    forall i, j | 0 <= i < j < |gs| ensures d[i].hotkey != d[j].hotkey {
      if d[i].hotkey == d[j].hotkey {
        HotkeyNameInjective(AvailableKeys[i], AvailableKeys[j]);
      }
    }
    assert HotkeyName('R')[11] != HotkeyName('Z')[11];
  }

  // ---------- the script ----------


  /** A line that declares a hotkey: "^+", the key, "::", then possibly an action. */
  predicate IsBindingLine(line: string)
  {
    |line| >= 5 && line[0] == '^' && line[1] == '+' && line[3] == ':' && line[4] == ':'
  }

  /** The keys the script declares, in order. */
  function Bindings(lines: seq<string>): seq<char>
  {
    if lines == [] then []
    else (if IsBindingLine(lines[0]) then [lines[0][2]] else []) + Bindings(lines[1..])
  }

  lemma {:induction false} BindingsAppend(a: seq<string>, b: seq<string>)
    ensures Bindings(a + b) == Bindings(a) + Bindings(b)
    decreases |a|
  {
    if a == [] {
      assert a + b == b;
    } else {
      var head := if IsBindingLine(a[0]) then [a[0][2]] else [];
      assert (a + b)[0] == a[0];
      assert (a + b)[1..] == a[1..] + b;
      assert Bindings(a + b) == head + Bindings(a[1..] + b);
      BindingsAppend(a[1..], b);
      assert Bindings(a) == head + Bindings(a[1..]);
    }
  }

  lemma {:induction false} NoBindings(lines: seq<string>)
    requires forall i :: 0 <= i < |lines| ==> !IsBindingLine(lines[i])
    ensures Bindings(lines) == []
    decreases |lines|
  {
    if lines != [] {
      NoBindings(lines[1..]);
    }
  }

  lemma PasteBlockBindings(key: char, payload: string)
    ensures Bindings(PasteBlock(key, payload)) == [key]
  {
    var rest := [ClipboardLine(payload), "ClipWait", "SendInput, ^v", "Return", ""];
    assert PasteBlock(key, payload) == [Binding(key)] + rest;
    assert ClipboardLine(payload)[0] == 'C';
    NoBindings(rest);
    assert ([Binding(key)] + rest)[1..] == rest;
    assert Binding(key)[2] == key;
  }

  lemma CycleBindings(piece: string)
    ensures Bindings(Cycle(piece)) == []
  {
    assert ClipboardLine(piece)[0] == 'C';
    NoBindings(Cycle(piece));
  }

  lemma {:induction false} CyclesOfBindings(pieces: seq<string>)
    ensures Bindings(CyclesOf(pieces)) == []
    decreases |pieces|
  {
    if pieces != [] {
      var n := |pieces| - 1;
      CyclesOfBindings(pieces[..n]);
      BindingsAppend(CyclesOf(pieces[..n]), Cycle(pieces[n]));
      CycleBindings(pieces[n]);
    }
  }

  lemma {:induction false} PasteBlocksBindings(keys: string, payloads: seq<string>)
    requires |keys| == |payloads|
    ensures Bindings(PasteBlocks(keys, payloads)) == keys
    decreases |keys|
  {
    if keys != [] {
      var n := |keys| - 1;
      PasteBlocksBindings(keys[..n], payloads[..n]);
      BindingsAppend(PasteBlocks(keys[..n], payloads[..n]), PasteBlock(keys[n], payloads[n]));
      PasteBlockBindings(keys[n], payloads[n]);
      assert keys == keys[..n] + [keys[n]];
    }
  }

  /** The sequential section declares only R. */
  lemma SequentialBlockBindings(allEmails: string)
    ensures Bindings(SequentialBlock(allEmails)) == ['R']
  {
    var cycles := CyclesOf(NonEmpty(Split(allEmails, ',')));
    CyclesOfBindings(NonEmpty(Split(allEmails, ',')));
    BindingsAppend([Binding('R')] + cycles, ["Return", ""]);
    BindingsAppend([Binding('R')], cycles);
    NoBindings(["Return", ""]);
    assert Binding('R')[2] == 'R';
  }

  lemma BindingsOfFour(a: seq<string>, b: seq<string>, c: seq<string>, d: seq<string>)
    ensures Bindings(a + b + c + d) == Bindings(a) + Bindings(b) + Bindings(c) + Bindings(d)
  {
    BindingsAppend(a + b + c, d);
    BindingsAppend(a + b, c);
    BindingsAppend(a, b);
  }

  /** The fixed tail of the script declares Z, R and X, in that order. */
  lemma FixedSectionsBindings(all: string)
    ensures Bindings(PasteBlock('Z', all)) + Bindings(SequentialBlock(all)) + Bindings([ExitLine]) == ['Z', 'R', 'X']
  {
    PasteBlockBindings('Z', all);
    SequentialBlockBindings(all);
    ExitBindings();
  }

  lemma ExitBindings()
    ensures Bindings([ExitLine]) == ['X']
  {
    assert ExitLine[2] == 'X';
    assert IsBindingLine(ExitLine);
    assert [ExitLine][1..] == [];
  }

  lemma DomainBlocksBindings(gs: seq<Group>)
    requires |gs| <= |AvailableKeys|
    ensures Bindings(DomainBlocks(gs)) == AvailableKeys[..|gs|]
  {
    PasteBlocksBindings(AvailableKeys[..|gs|], Payloads(gs));
  }

  /** The script declares the pool's first n keys, in order, then Z, R and X. */
  lemma ScriptBindings(gs: seq<Group>)
    requires |gs| <= |AvailableKeys|
    ensures Bindings(Script(gs)) == AvailableKeys[..|gs|] + ['Z', 'R', 'X']
  {
    var all := Payload(AllEmails(gs));
    var d, z, q, x := DomainBlocks(gs), PasteBlock('Z', all), SequentialBlock(all), [ExitLine];
    assert Script(gs) == d + z + q + x;
    DomainBlocksBindings(gs);
    FixedSectionsBindings(all);
    BindingsOfParts(d, z, q, x, AvailableKeys[..|gs|]);
  }

  lemma BindingsOfParts(d: seq<string>, z: seq<string>, q: seq<string>, x: seq<string>, keys: seq<char>)
    requires Bindings(d) == keys
    requires Bindings(z) + Bindings(q) + Bindings(x) == ['Z', 'R', 'X']
    ensures Bindings(d + z + q + x) == keys + ['Z', 'R', 'X']
  {
    BindingsOfFour(d, z, q, x);
    var bz, bq, bx := Bindings(z), Bindings(q), Bindings(x);
    assert keys + bz + bq + bx == keys + (bz + bq + bx);
  }

  lemma HotkeysFollowKeys(keys: string, d: seq<ManifestEntry>)
    requires |d| == |keys|
    requires forall i :: 0 <= i < |d| ==> d[i].hotkey == HotkeyName(keys[i])
    ensures |keys + ['Z', 'R', 'X']| == |d + [AllEntry, SequentialEntry]| + 1
    ensures forall i :: 0 <= i < |d| + 2 ==> (d + [AllEntry, SequentialEntry])[i].hotkey == HotkeyName((keys + ['Z', 'R', 'X'])[i])
    ensures (keys + ['Z', 'R', 'X'])[|d| + 2] == 'X'
  {
  }

  /**
   * The manifest lists the hotkeys the script declares, in the same order,
   * except the last: the exit hotkey X is in the script only.
   */
  lemma ExitOnlyInScript(gs: seq<Group>)
    requires |gs| <= |AvailableKeys|
    ensures |Bindings(Script(gs))| == |Manifest(gs)| + 1
    ensures forall i :: 0 <= i < |Manifest(gs)| ==> Manifest(gs)[i].hotkey == "Ctrl+Shift+" + [Bindings(Script(gs))[i]]
    ensures Bindings(Script(gs))[|Manifest(gs)|] == 'X'
  {
    ScriptBindings(gs);
    ManifestShape(gs);
    DomainEntriesLayout(gs);
    var keys, d := AvailableKeys[..|gs|], DomainEntries(gs);
    forall i | 0 <= i < |d| ensures d[i].hotkey == HotkeyName(keys[i]) {
      assert keys[i] == AvailableKeys[i];
    }
    HotkeysFollowKeys(keys, d);
  }

  /** The i-th domain group's hotkey is the i-th key of the pool and pastes that group's payload. */
  lemma {:induction false} PasteBlocksLayout(keys: string, payloads: seq<string>)
    requires |keys| == |payloads|
    ensures |PasteBlocks(keys, payloads)| == 6 * |keys|
    ensures forall i :: 0 <= i < |keys| ==> PasteBlocks(keys, payloads)[6 * i..6 * i + 6] == PasteBlock(keys[i], payloads[i])
    decreases |keys|
  {
    if keys != [] {
      var n := |keys| - 1;
      PasteBlocksLayout(keys[..n], payloads[..n]);
      var b := PasteBlocks(keys[..n], payloads[..n]);
      var last := PasteBlock(keys[n], payloads[n]);
      forall i | 0 <= i < |keys| ensures (b + last)[6 * i..6 * i + 6] == PasteBlock(keys[i], payloads[i]) {
        var lo := 6 * i;
        if i < n {
          assert lo + 6 <= 6 * n;
          SliceOfFront(b, last, lo, lo + 6);
          assert keys[..n][i] == keys[i] && payloads[..n][i] == payloads[i];
        } else {
          assert lo == |b|;
          SliceOfBack(b, last);
        }
      }
    }
  }

  lemma DomainBlocksLayout(gs: seq<Group>)
    requires |gs| <= |AvailableKeys|
    ensures |DomainBlocks(gs)| == 6 * |gs|
    ensures forall i :: 0 <= i < |gs| ==> DomainBlocks(gs)[6 * i..6 * i + 6] == PasteBlock(AvailableKeys[i], Payload(gs[i].emails))
  {
    var keys, ps := AvailableKeys[..|gs|], Payloads(gs);
    PasteBlocksLayout(keys, ps);
    assert DomainBlocks(gs) == PasteBlocks(keys, ps);
    forall i | 0 <= i < |gs| ensures DomainBlocks(gs)[6 * i..6 * i + 6] == PasteBlock(AvailableKeys[i], Payload(gs[i].emails)) {
      assert keys[i] == AvailableKeys[i];
      assert ps[i] == Payload(gs[i].emails);
    }
  }

  /** The sequential hotkey has one five-line cycle per piece, in order. */
  lemma {:induction false} CyclesOfLayout(pieces: seq<string>)
    ensures |CyclesOf(pieces)| == 5 * |pieces|
    ensures forall i :: 0 <= i < |pieces| ==> CyclesOf(pieces)[5 * i..5 * i + 5] == Cycle(pieces[i])
    decreases |pieces|
  {
    if pieces != [] {
      var n := |pieces| - 1;
      var init := pieces[..n];
      CyclesOfLayout(init);
      var c, last := CyclesOf(init), Cycle(pieces[n]);
      assert CyclesOf(pieces) == c + last;
      forall i | 0 <= i < |pieces| ensures (c + last)[5 * i..5 * i + 5] == Cycle(pieces[i]) {
        if i < n {
          SliceOfFront(c, last, 5 * i, 5 * i + 5);
          assert init[i] == pieces[i];
        } else {
          assert (c + last)[5 * n..5 * n + 5] == last;
        }
      }
    }
  }

  lemma SliceOfBack<T>(a: seq<T>, b: seq<T>)
    ensures (a + b)[|a|..|a| + |b|] == b
  {
  }

  /** Row i of width w fits in n rows when i < n. */
  lemma RowFits(w: nat, i: nat, n: nat)
    requires i < n
    ensures w * i + w <= w * n
  {
    assert w * i + w == w * (i + 1);
  }

  lemma BetweenHeadAndTail<T>(block: seq<T>, h: T, c: seq<T>, t: seq<T>, lo: nat)
    requires block == [h] + c + t && lo + 5 <= |c|
    ensures block[1 + lo..6 + lo] == c[lo..lo + 5]
  {
  }

  lemma SliceOfFront<T>(a: seq<T>, b: seq<T>, lo: nat, hi: nat)
    requires lo <= hi <= |a|
    ensures (a + b)[lo..hi] == a[lo..hi]
  {
  }

  // ---------- payloads and the sequential pieces ----------

  /** Every string of a list with a space in front. */
  function Spaced(xs: seq<string>): (r: seq<string>)
    ensures |r| == |xs| && forall i :: 0 <= i < |xs| ==> r[i] == " " + xs[i]
  {
    seq(|xs|, i requires 0 <= i < |xs| => " " + xs[i])
  }

  predicate CommaFree(es: seq<string>)
  {
    forall i :: 0 <= i < |es| ==> ',' !in es[i]
  }

  /**
   * Splitting a ", "-joined list with a trailing "," at the commas gives the
   * first element, the others each with a leading space, and a final empty piece.
   */
  lemma {:induction false} SplitJoined(p: string, es: seq<string>)
    requires es != [] && ',' !in p && CommaFree(es)
    ensures Split(p + Join(", ", es) + ",", ',') == [p + es[0]] + Spaced(es[1..]) + [""]
    decreases |es|
  {
    var head := p + es[0];
    assert ',' !in head;
    if |es| == 1 {
      assert p + Join(", ", es) + "," == head + [','] + "";
      SplitAtFirstSeparator(head, ',', "");
    } else {
      var rest := es[1..];
      var tail := " " + Join(", ", rest) + ",";
      assert p + Join(", ", es) + "," == head + [','] + tail;
      SplitAtFirstSeparator(head, ',', tail);
      SplitJoined(" ", rest);
      assert Spaced(rest) == [" " + rest[0]] + Spaced(rest[1..]);
    }
  }

  lemma {:induction false} NonEmptyKeeps(xs: seq<string>)
    requires forall i :: 0 <= i < |xs| ==> xs[i] != ""
    ensures NonEmpty(xs) == xs
    decreases |xs|
  {
    if xs != [] {
      NonEmptyKeeps(xs[..|xs| - 1]);
    }
  }

  /**
   * The pieces the sequential hotkey pastes for a payload of non-empty,
   * comma-free addresses: the first address as it is, every later one with
   * a leading space; one per address.
   */
  function SequentialPieces(es: seq<string>): (r: seq<string>)
    requires es != []
    ensures |r| == |es| && r[0] == es[0]
    ensures forall i :: 1 <= i < |es| ==> r[i] == " " + es[i]
  {
    var r := [es[0]] + Spaced(es[1..]);
    assert forall i :: 1 <= i < |es| ==> r[i] == Spaced(es[1..])[i - 1];
    r
  }

  lemma PayloadPieces(es: seq<string>)
    requires es != [] && CommaFree(es)
    requires forall i :: 0 <= i < |es| ==> es[i] != ""
    ensures NonEmpty(Split(Payload(es), ',')) == SequentialPieces(es)
  {
    var ps := SequentialPieces(es);
    SplitJoined("", es);
    assert "" + Join(", ", es) + "," == Payload(es);
    assert "" + es[0] == es[0];
    assert Split(Payload(es), ',') == ps + [""];
    assert forall i :: 0 <= i < |ps| ==> ps[i] != "" by {
      forall i | 0 <= i < |ps| ensures ps[i] != "" {
        if i > 0 { assert ps[i][0] == ' '; }
      }
    }
    NonEmptyKeeps(ps);
    DropsEmptyLast(ps);
  }

  lemma DropsEmptyLast(xs: seq<string>)
    ensures NonEmpty(xs + [""]) == NonEmpty(xs)
  {
    assert (xs + [""])[..|xs|] == xs;
  }

  lemma SequentialBlockOf(all: string, ps: seq<string>)
    requires NonEmpty(Split(all, ',')) == ps
    ensures SequentialBlock(all) == [Binding('R')] + CyclesOf(ps) + ["Return", ""]
  {
  }

  lemma CycleBlockLayout(block: seq<string>, h: string, ps: seq<string>, t: seq<string>)
    requires block == [h] + CyclesOf(ps) + t && |t| == 2
    ensures |block| == 5 * |ps| + 3
    ensures forall i :: 0 <= i < |ps| ==> block[1 + 5 * i..6 + 5 * i] == Cycle(ps[i])
  {
    CyclesOfLayout(ps);
    var c := CyclesOf(ps);
    forall i | 0 <= i < |ps| ensures block[1 + 5 * i..6 + 5 * i] == Cycle(ps[i]) {
      RowFits(5, i, |ps|);
      BetweenHeadAndTail(block, h, c, t, 5 * i);
    }
  }

  /**
   * The sequential hotkey over the payload of non-empty, comma-free
   * addresses pastes each address once, in order: the first as it is, each
   * later one with a leading space.
   */
  lemma SequentialOneCyclePerAddress(es: seq<string>)
    requires es != [] && CommaFree(es)
    requires forall i :: 0 <= i < |es| ==> es[i] != ""
    ensures |SequentialBlock(Payload(es))| == 5 * |es| + 3
    ensures SequentialBlock(Payload(es))[1..6] == Cycle(es[0])
    ensures forall i :: 1 <= i < |es| ==> SequentialBlock(Payload(es))[1 + 5 * i..6 + 5 * i] == Cycle(" " + es[i])
  {
    var all, ps := Payload(es), SequentialPieces(es);
    PayloadPieces(es);
    SequentialBlockOf(all, ps);
    var block := SequentialBlock(all);
    CycleBlockLayout(block, Binding('R'), ps, ["Return", ""]);
    assert block[1..6] == Cycle(ps[0]);
  }

  /**
   * Where the fixed sections sit in the script: after the six lines of each
   * domain hotkey come the Z hotkey, the R hotkey and the exit line.
   */
  lemma ScriptSections(gs: seq<Group>)
    requires |gs| <= |AvailableKeys|
    ensures var n, all := 6 * |gs|, Payload(AllEmails(gs));
      && |Script(gs)| == n + 6 + |SequentialBlock(all)| + 1
      && Script(gs)[n..n + 6] == PasteBlock('Z', all)
      && Script(gs)[n + 6..|Script(gs)| - 1] == SequentialBlock(all)
      && Script(gs)[|Script(gs)| - 1] == ExitLine
  {
    var all := Payload(AllEmails(gs));
    var d, z, q := DomainBlocks(gs), PasteBlock('Z', all), SequentialBlock(all);
    DomainBlocksLength(gs);
    ScriptParts(gs);
    FourParts(Script(gs), d, z, q, ExitLine, 6 * |gs|);
  }

  lemma ScriptParts(gs: seq<Group>)
    requires |gs| <= |AvailableKeys|
    ensures var all := Payload(AllEmails(gs));
      Script(gs) == DomainBlocks(gs) + PasteBlock('Z', all) + SequentialBlock(all) + [ExitLine]
  {
  }

  lemma DomainBlocksLength(gs: seq<Group>)
    requires |gs| <= |AvailableKeys|
    ensures |DomainBlocks(gs)| == 6 * |gs|
  {
    PasteBlocksLayout(AvailableKeys[..|gs|], Payloads(gs));
  }

  lemma FourParts<T>(s: seq<T>, d: seq<T>, z: seq<T>, q: seq<T>, x: T, n: nat)
    requires |z| == 6 && s == d + z + q + [x] && |d| == n
    ensures |s| == n + 6 + |q| + 1
    ensures s[n..n + 6] == z
    ensures s[n + 6..|s| - 1] == q
    ensures s[|s| - 1] == x
  {
    assert s[n..n + 6] == z;
    assert s[n + 6..|s| - 1] == q;
  }

  /** With no address at all the sequential hotkey pastes nothing. */
  lemma SequentialEmpty()
    ensures SequentialBlock(Payload([])) == [Binding('R'), "Return", ""]
  {
    assert Payload([]) == [','] + "";
    SplitAtFirstSeparator("", ',', "");
    assert NonEmpty(["", ""]) == [];
  }
}

=== FILE: extraction.dfy ===
/**
 * Address extraction of src/email_hotkey_manager/email_to_ahk.py.
 *
 * The regular expression, the CSV tokeniser, text decoding and MIME parsing
 * are library calls; the model receives what they produce. For every
 * candidate encoding it receives the outcome of reading the file under that
 * encoding, and for a mail message the addresses the header parser returned
 * and the pattern matches of every body part. What the extractor itself
 * does with those results is modelled step by step.
 */
module Extraction {
  import opened Base
  import opened Text
  import opened SortedSets

  /** The one address that is always dropped, after lower-casing. */
  const ExcludedAddress: string := "marc.turner@ukg.com"

  datatype Encoding = Utf8 | Utf16 | Latin1

  /** The candidate encodings, in the order they are tried. */
  const Encodings: seq<Encoding> := [Utf8, Utf16, Latin1]

  /** What a library call produced under each encoding. */
  datatype PerEncoding<T> = PerEncoding(utf8: T, utf16: T, latin1: T)
  {
    function At(e: Encoding): T
    {
      match e
      case Utf8 => utf8
      case Utf16 => utf16
      case Latin1 => latin1
    }
  }

  /**
   * How a read attempt ends: it reaches the end of the file; it raises an
   * error the loop catches (`UnicodeDecodeError`, or `csv.Error` for CSV);
   * or it raises one the loop does not catch, such as the `UnicodeError`
   * that the utf-16 decoder raises for input without a byte-order mark.
   */
  datatype ReadEnd = Finished | Caught | Uncaught(message: string)

  /**
   * One attempt to read the file as CSV: for every row the reader yielded,
   * for every cell of it, the pattern matches in that cell, and how the
   * attempt ended (the reader is lazy, so the rows before an error have
   * already been processed).
   */
  datatype CsvRead = CsvRead(rows: seq<seq<seq<string>>>, end: ReadEnd)

  /**
   * One attempt to read the whole file as text: it raises `UnicodeDecodeError`,
   * it raises an error the loop does not catch, or it decodes and has these matches.
   */
  datatype TextRead = TextFailed | TextUncaught(message: string) | TextDecoded(matches: seq<string>)

  /** A body part of a message: its content type, and its pattern matches, or None when getting its content raised. */
  datatype BodyPart = BodyPart(contentType: string, content: Option<seq<string>>)

  datatype EmlBody =
    | SinglePart(content: Option<seq<string>>)  // None: getting the content or matching it raised
    | Multipart(parts: seq<BodyPart>)           // the parts in the order `walk()` visits them

  /** A parsed message: the addresses `getaddresses` returned for From, To, Cc and Bcc, in that order, and the body. */
  datatype EmlMessage = EmlMessage(headerAddresses: seq<string>, body: EmlBody)

  /** The input file: whether it exists, its suffix, and what each reader would see in it. */
  datatype InputFile = InputFile(
    isPresent: bool,
    suffix: string,
    csv: PerEncoding<CsvRead>,
    text: PerEncoding<TextRead>,
    eml: EmlMessage)

  predicate AllLowered(s: set<string>)
  {
    forall x :: x in s ==> IsLowered(x)
  }

  // ---------- what each reader contributes ----------

  /** The lower-cased forms of a list of matches, as a set. */
  function LowerAll(ms: seq<string>): (r: set<string>)
    ensures forall m :: m in ms ==> Lower(m) in r
    ensures forall x :: x in r ==> exists m :: m in ms && Lower(m) == x
    ensures AllLowered(r)
  {
    if ms == [] then {}
    else
      var init := ms[..|ms| - 1];
      assert forall m :: m in init ==> m in ms;
      assert forall m :: m in ms ==> m in init || m == ms[|ms| - 1];
      LowerIsLowered(ms[|ms| - 1]);
      LowerAll(init) + {Lower(ms[|ms| - 1])}
  }

  /** The addresses in a list of CSV cells. */
  function CellsEmails(cells: seq<seq<string>>): (r: set<string>)
    ensures AllLowered(r)
  {
    if cells == [] then {}
    else
      CellsEmails(cells[..|cells| - 1]) + LowerAll(cells[|cells| - 1])
  }

  /** The addresses in a list of CSV rows. */
  function RowsEmails(rows: seq<seq<seq<string>>>): (r: set<string>)
    ensures AllLowered(r)
  {
    if rows == [] then {}
    else
      RowsEmails(rows[..|rows| - 1]) + CellsEmails(rows[|rows| - 1])
  }

  /**
   * The CSV branch from the i-th encoding on: the rows read by this attempt
   * count whether or not it fails; a caught failure passes on to the next
   * encoding, a clean read ends the loop (an uncaught error ends the whole
   * extraction, see `CsvEscapeFrom`).
   */
  function CsvEmailsFrom(attempts: PerEncoding<CsvRead>, i: nat): (r: set<string>)
    requires i <= |Encodings|
    ensures AllLowered(r)
    decreases |Encodings| - i
  {
    if i == |Encodings| then {}
    else
      var attempt := attempts.At(Encodings[i]);
      RowsEmails(attempt.rows) + (if attempt.end.Caught? then CsvEmailsFrom(attempts, i + 1) else {})
  }

  /** The uncaught error that ends the CSV branch from the i-th encoding on, if any. */
  function CsvEscapeFrom(attempts: PerEncoding<CsvRead>, i: nat): Option<string>
    requires i <= |Encodings|
    decreases |Encodings| - i
  {
    if i == |Encodings| then None
    else
      match attempts.At(Encodings[i]).end
      case Finished => None
      case Caught => CsvEscapeFrom(attempts, i + 1)
      case Uncaught(m) => Some(m)
  }

  /** The uncaught error that ends the TXT branch from the i-th encoding on, if any. */
  function TextEscapeFrom(attempts: PerEncoding<TextRead>, i: nat): Option<string>
    requires i <= |Encodings|
    decreases |Encodings| - i
  {
    if i == |Encodings| then None
    else
      match attempts.At(Encodings[i])
      case TextFailed => TextEscapeFrom(attempts, i + 1)
      case TextUncaught(m) => Some(m)
      case TextDecoded(_) => None
  }

  /** The TXT branch from the i-th encoding on: the first encoding that decodes gives the matches. */
  function TextEmailsFrom(attempts: PerEncoding<TextRead>, i: nat): (r: set<string>)
    requires i <= |Encodings|
    ensures AllLowered(r)
    decreases |Encodings| - i
  {
    if i == |Encodings| then {}
    else
      match attempts.At(Encodings[i])
      case TextFailed => TextEmailsFrom(attempts, i + 1)
      case TextUncaught(_) => {}
      case TextDecoded(ms) => LowerAll(ms)
  }

  /** Header addresses: each non-empty one, lower-cased. */
  function HeaderEmails(addrs: seq<string>): (r: set<string>)
    ensures AllLowered(r)
    ensures "" !in r
    ensures forall x :: x in r <==> exists a :: a in addrs && a != "" && Lower(a) == x
  {
    if addrs == [] then {}
    else
      var init, a := addrs[..|addrs| - 1], addrs[|addrs| - 1];
      assert forall b :: b in addrs <==> b in init || b == a;
      LowerIsLowered(a);
      HeaderEmails(init) + (if a != "" then {Lower(a)} else {})
  }

  predicate IsTextPart(contentType: string)
  {
    contentType == "text/plain" || contentType == "text/html"
  }

  /** Body parts: the matches of every plain-text or HTML part whose content could be read. */
  function PartsEmails(parts: seq<BodyPart>): (r: set<string>)
    ensures AllLowered(r)
  {
    if parts == [] then {}
    else
      var p := parts[|parts| - 1];
      PartsEmails(parts[..|parts| - 1]) + (if IsTextPart(p.contentType) && p.content.Some? then LowerAll(p.content.value) else {})
  }

  /** An address is among the cells' addresses exactly when some cell's matches yield it. */
  lemma CellsEmailsMembers(cells: seq<seq<string>>, x: string)
    ensures x in CellsEmails(cells) <==> exists i :: 0 <= i < |cells| && CellYields(cells[i], x)
  {
    if x in CellsEmails(cells) {
      CellsEmailsSound(cells, x);
    }
    if exists i :: 0 <= i < |cells| && CellYields(cells[i], x) {
      var i :| 0 <= i < |cells| && CellYields(cells[i], x);
      CellsEmailsComplete(cells, i, x);
    }
  }

  lemma {:induction false} CellsEmailsSound(cells: seq<seq<string>>, x: string)
    requires x in CellsEmails(cells)
    ensures exists i :: 0 <= i < |cells| && CellYields(cells[i], x)
    decreases |cells|
  {
    var n := |cells| - 1;
    var init := cells[..n];
    CellsStep(cells, x);
    if x in CellsEmails(init) {
      CellsEmailsSound(init, x);
      var i :| 0 <= i < |init| && CellYields(init[i], x);
      assert init[i] == cells[i];
    } else {
      assert CellYields(cells[n], x);
    }
  }

  lemma {:induction false} CellsEmailsComplete(cells: seq<seq<string>>, i: nat, x: string)
    requires i < |cells| && CellYields(cells[i], x)
    ensures x in CellsEmails(cells)
    decreases |cells|
  {
    var n := |cells| - 1;
    var init := cells[..n];
    if i < n {
      assert init[i] == cells[i];
      CellsEmailsComplete(init, i, x);
    } else {
      assert CellYields(cells[n], x);
    }
    CellsStep(cells, x);
  }

  /** The matches of one CSV cell yield x. */
  predicate CellYields(cell: seq<string>, x: string)
  {
    x in LowerAll(cell)
  }

  lemma CellsStep(cells: seq<seq<string>>, x: string)
    requires cells != []
    ensures x in CellsEmails(cells) <==> x in CellsEmails(cells[..|cells| - 1]) || CellYields(cells[|cells| - 1], x)
  {
  }

  /** The cells of one CSV row yield x. */
  predicate RowYields(row: seq<seq<string>>, x: string)
  {
    x in CellsEmails(row)
  }

  /** An address is among the rows' addresses exactly when some row's cells yield it. */
  lemma RowsEmailsMembers(rows: seq<seq<seq<string>>>, x: string)
    ensures x in RowsEmails(rows) <==> exists i :: 0 <= i < |rows| && RowYields(rows[i], x)
  {
    if x in RowsEmails(rows) {
      RowsEmailsSound(rows, x);
    }
    if exists i :: 0 <= i < |rows| && RowYields(rows[i], x) {
      var i :| 0 <= i < |rows| && RowYields(rows[i], x);
      RowsEmailsComplete(rows, i, x);
    }
  }

  lemma {:induction false} RowsEmailsSound(rows: seq<seq<seq<string>>>, x: string)
    requires x in RowsEmails(rows)
    ensures exists i :: 0 <= i < |rows| && RowYields(rows[i], x)
    decreases |rows|
  {
    var n := |rows| - 1;
    var init := rows[..n];
    RowsStep(rows, x);
    if x in RowsEmails(init) {
      RowsEmailsSound(init, x);
      var i :| 0 <= i < |init| && RowYields(init[i], x);
      assert init[i] == rows[i];
    } else {
      assert RowYields(rows[n], x);
    }
  }

  lemma {:induction false} RowsEmailsComplete(rows: seq<seq<seq<string>>>, i: nat, x: string)
    requires i < |rows| && RowYields(rows[i], x)
    ensures x in RowsEmails(rows)
    decreases |rows|
  {
    var n := |rows| - 1;
    var init := rows[..n];
    if i < n {
      assert init[i] == rows[i];
      RowsEmailsComplete(init, i, x);
    } else {
      assert RowYields(rows[n], x);
    }
    RowsStep(rows, x);
  }

  lemma RowsStep(rows: seq<seq<seq<string>>>, x: string)
    requires rows != []
    ensures x in RowsEmails(rows) <==> x in RowsEmails(rows[..|rows| - 1]) || RowYields(rows[|rows| - 1], x)
  {
  }

  /** An address is among the body parts' addresses exactly when some readable text part yields it. */
  lemma PartsEmailsMembers(parts: seq<BodyPart>, x: string)
    ensures x in PartsEmails(parts) <==> exists i :: 0 <= i < |parts| && ReadablePartHas(parts[i], x)
  {
    if x in PartsEmails(parts) {
      PartsEmailsSound(parts, x);
    }
    if exists i :: 0 <= i < |parts| && ReadablePartHas(parts[i], x) {
      var i :| 0 <= i < |parts| && ReadablePartHas(parts[i], x);
      PartsEmailsComplete(parts, i, x);
    }
  }

  lemma {:induction false} PartsEmailsSound(parts: seq<BodyPart>, x: string)
    requires x in PartsEmails(parts)
    ensures exists i :: 0 <= i < |parts| && ReadablePartHas(parts[i], x)
    decreases |parts|
  {
    var n := |parts| - 1;
    var init := parts[..n];
    PartsStep(parts, x);
    if x in PartsEmails(init) {
      PartsEmailsSound(init, x);
      var i :| 0 <= i < |init| && ReadablePartHas(init[i], x);
      assert init[i] == parts[i];
    } else {
      assert ReadablePartHas(parts[n], x);
    }
  }

  lemma {:induction false} PartsEmailsComplete(parts: seq<BodyPart>, i: nat, x: string)
    requires i < |parts| && ReadablePartHas(parts[i], x)
    ensures x in PartsEmails(parts)
    decreases |parts|
  {
    var n := |parts| - 1;
    var init := parts[..n];
    if i < n {
      assert init[i] == parts[i];
      PartsEmailsComplete(init, i, x);
    } else {
      assert ReadablePartHas(parts[n], x);
    }
    PartsStep(parts, x);
  }

  lemma PartsStep(parts: seq<BodyPart>, x: string)
    requires parts != []
    ensures x in PartsEmails(parts) <==> x in PartsEmails(parts[..|parts| - 1]) || ReadablePartHas(parts[|parts| - 1], x)
  {
  }

  /** A plain-text or HTML part whose content could be read, and which yields x. */
  predicate ReadablePartHas(p: BodyPart, x: string)
  {
    IsTextPart(p.contentType) && p.content.Some? && x in LowerAll(p.content.value)
  }

  function BodyEmails(body: EmlBody): (r: set<string>)
    ensures AllLowered(r)
  {
    match body
    case SinglePart(content) => if content.Some? then LowerAll(content.value) else {}
    case Multipart(parts) => PartsEmails(parts)
  }

  function EmlEmails(msg: EmlMessage): (r: set<string>)
    ensures AllLowered(r)
  {
    HeaderEmails(msg.headerAddresses) + BodyEmails(msg.body)
  }

  /** The addresses the branch chosen by a (lower-cased) suffix gathers, before the exclusion. */
  function Gathered(f: InputFile, suffix: string): (r: set<string>)
    ensures AllLowered(r)
  {
    if suffix == ".csv" then CsvEmailsFrom(f.csv, 0)
    else if suffix == ".txt" then TextEmailsFrom(f.text, 0)
    else if suffix == ".eml" then EmlEmails(f.eml)
    else {}
  }

  /** The uncaught read error of the branch chosen by a (lower-cased) suffix, if any; the `.eml` reader catches its own. */
  function Escaped(f: InputFile, suffix: string): Option<string>
  {
    if suffix == ".csv" then CsvEscapeFrom(f.csv, 0)
    else if suffix == ".txt" then TextEscapeFrom(f.text, 0)
    else None
  }

  const UnsupportedMessage: string := "Unsupported file type. Use CSV, TXT, or EML."

  /**
   * The result of `extract_emails_from_file`: a missing file fails before
   * the suffix is looked at; an unknown suffix fails; an error the encoding
   * loop does not catch fails with its own text; otherwise the gathered
   * addresses without the excluded one, sorted.
   */
  function ExtractSpec(f: InputFile): (r: Result<seq<string>>)
    ensures !f.isPresent ==> r == Err(FileNotFound)
    ensures f.isPresent && Lower(f.suffix) !in {".csv", ".txt", ".eml"} ==> r == Err(UnsupportedFileType(UnsupportedMessage))
    ensures f.isPresent && Lower(f.suffix) in {".csv", ".txt", ".eml"} && Escaped(f, Lower(f.suffix)).Some? ==>
      r == Err(ReadFailed(Escaped(f, Lower(f.suffix)).value))
    ensures r.Ok? <==> f.isPresent && Lower(f.suffix) in {".csv", ".txt", ".eml"} && Escaped(f, Lower(f.suffix)) == None
    ensures r.Ok? ==> StrictlyAscending(r.value)
    ensures r.Ok? ==> forall e :: e in r.value <==> e in Gathered(f, Lower(f.suffix)) && e != ExcludedAddress
  {
    if !f.isPresent then Err(FileNotFound)
    else
      var suffix := Lower(f.suffix);
      if suffix !in {".csv", ".txt", ".eml"} then Err(UnsupportedFileType(UnsupportedMessage))
      else if Escaped(f, suffix).Some? then Err(ReadFailed(Escaped(f, suffix).value))
      else Ok(SortedSeq(Gathered(f, suffix) - {ExcludedAddress}))
  }

  // ---------- the extractor, step by step ----------

  /** `emails.update(e.lower() for e in matches)`. */
  method AddLowered(emails: set<string>, matches: seq<string>) returns (r: set<string>)
    ensures r == emails + LowerAll(matches)
  {
    r := emails;
    for i := 0 to |matches|
      invariant r == emails + LowerAll(matches[..i])
    {
      assert matches[..i + 1][..i] == matches[..i];
      r := r + {Lower(matches[i])};
    }
    assert matches[..|matches|] == matches;
  }

  /** The row and cell loops of one CSV attempt. */
  method ReadCsvRows(emails: set<string>, rows: seq<seq<seq<string>>>) returns (r: set<string>)
    ensures r == emails + RowsEmails(rows)
  {
    r := emails;
    for i := 0 to |rows|
      invariant r == emails + RowsEmails(rows[..i])
    {
      var row := rows[i];
      ghost var before := r;
      for j := 0 to |row|
        invariant r == before + CellsEmails(row[..j])
      {
        assert row[..j + 1][..j] == row[..j];
        r := AddLowered(r, row[j]);
      }
      assert row[..|row|] == row;
      assert rows[..i + 1][..i] == rows[..i];
    }
    assert rows[..|rows|] == rows;
  }

  /**
   * The CSV branch: try each encoding in turn; stop after the first attempt
   * that raises nothing; an error the loop does not catch is the result.
   */
  method CollectCsv(attempts: PerEncoding<CsvRead>) returns (r: Result<set<string>>)
    ensures r.Err? <==> CsvEscapeFrom(attempts, 0).Some?
    ensures r.Err? ==> r.error == ReadFailed(CsvEscapeFrom(attempts, 0).value)
    ensures r.Ok? ==> r.value == CsvEmailsFrom(attempts, 0)
  {
    var emails := {};
    var i := 0;
    while i < |Encodings|
      invariant i <= |Encodings|
      invariant emails + CsvEmailsFrom(attempts, i) == CsvEmailsFrom(attempts, 0)
      invariant CsvEscapeFrom(attempts, i) == CsvEscapeFrom(attempts, 0)
      decreases |Encodings| - i
    {
      var attempt := attempts.At(Encodings[i]);
      emails := ReadCsvRows(emails, attempt.rows);
      if attempt.end.Uncaught? {
        return Err(ReadFailed(attempt.end.message));
      }
      if attempt.end.Finished? {
        break;
      }
      i := i + 1;
    }
    return Ok(emails);
  }

  /**
   * The TXT branch: the first encoding under which the whole file decodes
   * gives the matches; an error the loop does not catch is the result.
   */
  method CollectText(attempts: PerEncoding<TextRead>) returns (r: Result<set<string>>)
    ensures r.Err? <==> TextEscapeFrom(attempts, 0).Some?
    ensures r.Err? ==> r.error == ReadFailed(TextEscapeFrom(attempts, 0).value)
    ensures r.Ok? ==> r.value == TextEmailsFrom(attempts, 0)
  {
    var emails := {};
    var i := 0;
    while i < |Encodings|
      invariant i <= |Encodings|
      invariant emails == {}
      invariant TextEmailsFrom(attempts, i) == TextEmailsFrom(attempts, 0)
      invariant TextEscapeFrom(attempts, i) == TextEscapeFrom(attempts, 0)
      decreases |Encodings| - i
    {
      var attempt := attempts.At(Encodings[i]);
      if attempt.TextUncaught? {
        return Err(ReadFailed(attempt.message));
      }
      if attempt.TextDecoded? {
        emails := AddLowered(emails, attempt.matches);
        break;
      }
      i := i + 1;
    }
    return Ok(emails);
  }

  /** `extract_emails_from_eml`: header addresses, then the text parts of the body. */
  method ExtractEmailsFromEml(msg: EmlMessage) returns (results: set<string>)
    ensures results == EmlEmails(msg)
  {
    results := {};
    var addrs := msg.headerAddresses;
    for i := 0 to |addrs|
      invariant results == HeaderEmails(addrs[..i])
    {
      HeaderPrefixStep(addrs, i);
      if addrs[i] != "" {
        results := results + {Lower(addrs[i])};
      }
    }
    assert addrs[..|addrs|] == addrs;
    match msg.body
    case Multipart(parts) =>
      for i := 0 to |parts|
        invariant results == HeaderEmails(addrs) + PartsEmails(parts[..i])
      {
        PartsPrefixStep(parts, i);
        var part := parts[i];
        if IsTextPart(part.contentType) && part.content.Some? {
          results := AddLowered(results, part.content.value);
        }
      }
      assert parts[..|parts|] == parts;
    case SinglePart(content) =>
      if content.Some? {
        results := AddLowered(results, content.value);
      }
  }

  lemma HeaderPrefixStep(addrs: seq<string>, i: nat)
    requires i < |addrs|
    ensures HeaderEmails(addrs[..i + 1]) == HeaderEmails(addrs[..i]) + (if addrs[i] != "" then {Lower(addrs[i])} else {})
  {
    assert addrs[..i + 1][..i] == addrs[..i];
  }

  lemma PartsPrefixStep(parts: seq<BodyPart>, i: nat)
    requires i < |parts|
    ensures PartsEmails(parts[..i + 1]) == PartsEmails(parts[..i]) +
      (if IsTextPart(parts[i].contentType) && parts[i].content.Some? then LowerAll(parts[i].content.value) else {})
  {
    assert parts[..i + 1][..i] == parts[..i];
  }

  /** `extract_emails_from_file`. */
  method ExtractEmailsFromFile(f: InputFile) returns (r: Result<seq<string>>)
    ensures r == ExtractSpec(f)
  {
    var emails: set<string> := {};
    if !f.isPresent {
      return Err(FileNotFound);
    }
    var suffix := Lower(f.suffix);
    if suffix == ".csv" {
      var read := CollectCsv(f.csv);
      if read.Err? {
        return Err(read.error);
      }
      emails := read.value;
    } else if suffix == ".txt" {
      var read := CollectText(f.text);
      if read.Err? {
        return Err(read.error);
      }
      emails := read.value;
    } else if suffix == ".eml" {
      emails := ExtractEmailsFromEml(f.eml);
    } else {
      return Err(UnsupportedFileType(UnsupportedMessage));
    }
    emails := emails - {ExcludedAddress};
    return Ok(SortedSeq(emails));
  }

  // ---------- properties ----------

  /**
   * Every extracted address is lower-cased and none is any casing of the
   * excluded address: the exclusion runs after lower-casing.
   */
  lemma ExtractedAreLoweredAndNeverExcluded(f: InputFile)
    requires ExtractSpec(f).Ok?
    ensures forall e :: e in ExtractSpec(f).value ==> IsLowered(e) && Lower(e) != ExcludedAddress
  {
    var r := ExtractSpec(f);
    forall e | e in r.value ensures IsLowered(e) && Lower(e) != ExcludedAddress {
      assert e in Gathered(f, Lower(f.suffix));
    }
  }

  /** The extracted list holds each address once. */
  lemma ExtractedAreDistinct(f: InputFile)
    requires ExtractSpec(f).Ok?
    ensures forall i, j :: 0 <= i < j < |ExtractSpec(f).value| ==> ExtractSpec(f).value[i] != ExtractSpec(f).value[j]
  {
    AscendingDistinct(ExtractSpec(f).value);
  }

  /** Writing the excluded address in any casing in the input does not bring it into the result. */
  lemma ExcludedInAnyCasing(f: InputFile, m: string)
    requires ExtractSpec(f).Ok?
    requires Lower(m) == ExcludedAddress
    ensures m !in ExtractSpec(f).value
    ensures ExcludedAddress !in ExtractSpec(f).value
  {
    ExtractedAreLoweredAndNeverExcluded(f);
  }

  /**
   * TXT: when the encodings before the k-th all raise and the k-th decodes,
   * the result is exactly that attempt's matches, lower-cased.
   */
  lemma {:induction false} TextFirstDecodingWins(attempts: PerEncoding<TextRead>, i: nat, k: nat)
    requires i <= k < |Encodings|
    requires forall j :: i <= j < k ==> attempts.At(Encodings[j]).TextFailed?
    requires attempts.At(Encodings[k]).TextDecoded?
    ensures TextEmailsFrom(attempts, i) == LowerAll(attempts.At(Encodings[k]).matches)
    ensures TextEscapeFrom(attempts, i) == None
    decreases k - i
  {
    if i < k {
      TextFirstDecodingWins(attempts, i + 1, k);
    }
  }

  /** TXT: when every encoding raises, the branch contributes nothing and raises nothing. */
  lemma {:induction false} TextAllFail(attempts: PerEncoding<TextRead>, i: nat)
    requires i <= |Encodings|
    requires forall j :: i <= j < |Encodings| ==> attempts.At(Encodings[j]).TextFailed?
    ensures TextEmailsFrom(attempts, i) == {}
    ensures TextEscapeFrom(attempts, i) == None
    decreases |Encodings| - i
  {
    if i < |Encodings| {
      TextAllFail(attempts, i + 1);
    }
  }

  /**
   * CSV: when the attempts before the k-th raise before yielding any row and
   * the k-th reads the file cleanly, the result is that attempt's addresses.
   */
  lemma {:induction false} CsvFirstCleanReadWins(attempts: PerEncoding<CsvRead>, i: nat, k: nat)
    requires i <= k < |Encodings|
    requires forall j :: i <= j < k ==> attempts.At(Encodings[j]).end.Caught? && attempts.At(Encodings[j]).rows == []
    requires attempts.At(Encodings[k]).end.Finished?
    ensures CsvEmailsFrom(attempts, i) == RowsEmails(attempts.At(Encodings[k]).rows)
    ensures CsvEscapeFrom(attempts, i) == None
    decreases k - i
  {
    if i < k {
      CsvFirstCleanReadWins(attempts, i + 1, k);
    }
  }

  /** CSV: the attempts after the first one that does not raise a caught error are never consulted. */
  lemma {:induction false} CsvIgnoresLaterAttempts(attempts: PerEncoding<CsvRead>, other: PerEncoding<CsvRead>, i: nat, k: nat)
    requires i <= k < |Encodings|
    requires forall j :: i <= j <= k ==> attempts.At(Encodings[j]) == other.At(Encodings[j])
    requires !attempts.At(Encodings[k]).end.Caught?
    ensures CsvEmailsFrom(attempts, i) == CsvEmailsFrom(other, i)
    ensures CsvEscapeFrom(attempts, i) == CsvEscapeFrom(other, i)
    decreases k - i
  {
    if i < k && attempts.At(Encodings[i]).end.Caught? {
      CsvIgnoresLaterAttempts(attempts, other, i + 1, k);
    }
  }

  // ---------- errors the encoding loop does not catch ----------

  /** TXT: the attempts from the i-th to before the k-th raise a caught error and the k-th raises the uncaught `m`. */
  predicate TextEscapesAt(attempts: PerEncoding<TextRead>, i: nat, k: nat, m: string)
  {
    i <= k < |Encodings| && attempts.At(Encodings[k]) == TextUncaught(m) &&
    forall j :: i <= j < k ==> attempts.At(Encodings[j]).TextFailed?
  }

  /** CSV: the attempts from the i-th to before the k-th raise a caught error and the k-th raises the uncaught `m`. */
  predicate CsvEscapesAt(attempts: PerEncoding<CsvRead>, i: nat, k: nat, m: string)
  {
    i <= k < |Encodings| && attempts.At(Encodings[k]).end == Uncaught(m) &&
    forall j :: i <= j < k ==> attempts.At(Encodings[j]).end.Caught?
  }

  /** TXT: an uncaught error ends the branch only after every earlier attempt raised a caught one. */
  lemma {:induction false} TextEscapeSound(attempts: PerEncoding<TextRead>, i: nat, m: string)
    requires i <= |Encodings|
    requires TextEscapeFrom(attempts, i) == Some(m)
    ensures exists k :: TextEscapesAt(attempts, i, k, m)
    decreases |Encodings| - i
  {
    if attempts.At(Encodings[i]).TextFailed? {
      TextEscapeSound(attempts, i + 1, m);
      var k :| TextEscapesAt(attempts, i + 1, k, m);
      assert TextEscapesAt(attempts, i, k, m);
    } else {
      assert TextEscapesAt(attempts, i, i, m);
    }
  }

  /** TXT: an uncaught error reached after caught ones is what the branch raises. */
  lemma {:induction false} TextEscapeComplete(attempts: PerEncoding<TextRead>, i: nat, k: nat, m: string)
    requires TextEscapesAt(attempts, i, k, m)
    ensures TextEscapeFrom(attempts, i) == Some(m)
    decreases k - i
  {
    if i < k {
      TextEscapeComplete(attempts, i + 1, k, m);
    }
  }

  /** CSV: an uncaught error ends the branch only after every earlier attempt raised a caught one. */
  lemma {:induction false} CsvEscapeSound(attempts: PerEncoding<CsvRead>, i: nat, m: string)
    requires i <= |Encodings|
    requires CsvEscapeFrom(attempts, i) == Some(m)
    ensures exists k :: CsvEscapesAt(attempts, i, k, m)
    decreases |Encodings| - i
  {
    if attempts.At(Encodings[i]).end.Caught? {
      CsvEscapeSound(attempts, i + 1, m);
      var k :| CsvEscapesAt(attempts, i + 1, k, m);
      assert CsvEscapesAt(attempts, i, k, m);
    } else {
      assert CsvEscapesAt(attempts, i, i, m);
    }
  }

  /** CSV: an uncaught error reached after caught ones is what the branch raises. */
  lemma {:induction false} CsvEscapeComplete(attempts: PerEncoding<CsvRead>, i: nat, k: nat, m: string)
    requires CsvEscapesAt(attempts, i, k, m)
    ensures CsvEscapeFrom(attempts, i) == Some(m)
    decreases k - i
  {
    if i < k {
      CsvEscapeComplete(attempts, i + 1, k, m);
    }
  }

  /**
   * The encoding loops stop at an error they do not catch, so a file that no
   * encoding before Latin-1 decodes, and that the utf-16 decoder rejects
   * with an uncaught error (a BOM-less file of even length), fails with that
   * error even though the Latin-1 attempt, which always decodes, would have
   * given addresses.
   */
  lemma Utf16ErrorHidesLatin1Text(f: InputFile)
    requires f.isPresent && Lower(f.suffix) == ".txt"
    requires f.text.utf8.TextFailed? && f.text.utf16.TextUncaught? && f.text.latin1.TextDecoded?
    ensures ExtractSpec(f) == Err(ReadFailed(f.text.utf16.message))
    ensures IntendedExtractSpec(f).Ok?
    ensures forall e :: e in IntendedExtractSpec(f).value <==> e in LowerAll(f.text.latin1.matches) && e != ExcludedAddress
  {
    assert TextEscapesAt(f.text, 0, 1, f.text.utf16.message);
    TextEscapeComplete(f.text, 0, 1, f.text.utf16.message);
    var g := CatchAll(f);
    TextFirstDecodingWins(g.text, 0, 2);
  }

  /** The same for a CSV file: the rows read under UTF-8 before its error count, the Latin-1 rows are never read. */
  lemma Utf16ErrorHidesLatin1Csv(f: InputFile)
    requires f.isPresent && Lower(f.suffix) == ".csv"
    requires f.csv.utf8.end.Caught? && f.csv.utf16.end.Uncaught?
    ensures ExtractSpec(f) == Err(ReadFailed(f.csv.utf16.end.message))
    ensures IntendedExtractSpec(f).Ok?
  {
    assert CsvEscapesAt(f.csv, 0, 1, f.csv.utf16.end.message);
    CsvEscapeComplete(f.csv, 0, 1, f.csv.utf16.end.message);
    IntendedNeverFailsOnRead(f);
  }

  /** A read that ends in an uncaught error, treated as a caught one. */
  function CatchCsv(a: CsvRead): CsvRead
  {
    if a.end.Uncaught? then a.(end := Caught) else a
  }

  /** A text attempt that ends in an uncaught error, treated as a caught one. */
  function CatchText(t: TextRead): TextRead
  {
    if t.TextUncaught? then TextFailed else t
  }

  /** The input as the evidently intended loops see it: every decoding failure passes on to the next encoding. */
  function CatchAll(f: InputFile): InputFile
  {
    f.(csv := PerEncoding(CatchCsv(f.csv.utf8), CatchCsv(f.csv.utf16), CatchCsv(f.csv.latin1)),
       text := PerEncoding(CatchText(f.text.utf8), CatchText(f.text.utf16), CatchText(f.text.latin1)))
  }

  /** Extraction with loops that catch every decoding error, as the fallback to Latin-1 intends. */
  function IntendedExtractSpec(f: InputFile): Result<seq<string>>
  {
    ExtractSpec(CatchAll(f))
  }

  lemma {:induction false} CsvCaughtNeverEscapes(attempts: PerEncoding<CsvRead>, i: nat)
    requires i <= |Encodings|
    requires forall e: Encoding :: !attempts.At(e).end.Uncaught?
    ensures CsvEscapeFrom(attempts, i) == None
    decreases |Encodings| - i
  {
    if i < |Encodings| {
      CsvCaughtNeverEscapes(attempts, i + 1);
    }
  }

  lemma {:induction false} TextCaughtNeverEscapes(attempts: PerEncoding<TextRead>, i: nat)
    requires i <= |Encodings|
    requires forall e: Encoding :: !attempts.At(e).TextUncaught?
    ensures TextEscapeFrom(attempts, i) == None
    decreases |Encodings| - i
  {
    if i < |Encodings| {
      TextCaughtNeverEscapes(attempts, i + 1);
    }
  }

  /**
   * With every decoding error caught, extraction fails only for a missing
   * file or an unsupported suffix: when every encoding fails the result is
   * an empty list, not an error.
   */
  lemma IntendedNeverFailsOnRead(f: InputFile)
    ensures IntendedExtractSpec(f).Ok? <==> f.isPresent && Lower(f.suffix) in {".csv", ".txt", ".eml"}
    ensures !f.isPresent ==> IntendedExtractSpec(f) == Err(FileNotFound)
  {
    var g := CatchAll(f);
    CsvCaughtNeverEscapes(g.csv, 0);
    TextCaughtNeverEscapes(g.text, 0);
  }

  lemma {:induction false} CsvCatchAgrees(attempts: PerEncoding<CsvRead>, i: nat)
    requires i <= |Encodings|
    requires CsvEscapeFrom(attempts, i) == None
    ensures CsvEmailsFrom(PerEncoding(CatchCsv(attempts.utf8), CatchCsv(attempts.utf16), CatchCsv(attempts.latin1)), i)
      == CsvEmailsFrom(attempts, i)
    decreases |Encodings| - i
  {
    if i < |Encodings| && attempts.At(Encodings[i]).end.Caught? {
      CsvCatchAgrees(attempts, i + 1);
    }
  }

  lemma {:induction false} TextCatchAgrees(attempts: PerEncoding<TextRead>, i: nat)
    requires i <= |Encodings|
    requires TextEscapeFrom(attempts, i) == None
    ensures TextEmailsFrom(PerEncoding(CatchText(attempts.utf8), CatchText(attempts.utf16), CatchText(attempts.latin1)), i)
      == TextEmailsFrom(attempts, i)
    decreases |Encodings| - i
  {
    if i < |Encodings| && attempts.At(Encodings[i]).TextFailed? {
      TextCatchAgrees(attempts, i + 1);
    }
  }

  /** Wherever the extraction as written succeeds, catching every decoding error changes nothing. */
  lemma IntendedAgreesWhenNothingEscapes(f: InputFile)
    requires ExtractSpec(f).Ok?
    ensures IntendedExtractSpec(f) == ExtractSpec(f)
  {
    var suffix := Lower(f.suffix);
    IntendedNeverFailsOnRead(f);
    if suffix == ".csv" {
      CsvCatchAgrees(f.csv, 0);
    } else if suffix == ".txt" {
      TextCatchAgrees(f.text, 0);
    }
    assert Gathered(CatchAll(f), suffix) == Gathered(f, suffix);
  }

  // ---------- what the pattern guarantees ----------

  /** Every match of the address pattern has an '@' in it. */
  predicate MatchesHaveAt(ms: seq<string>)
  {
    forall m :: m in ms ==> '@' in m
  }

  predicate CsvReadHasAt(a: CsvRead)
  {
    forall row, cell :: 0 <= row < |a.rows| && 0 <= cell < |a.rows[row]| ==> MatchesHaveAt(a.rows[row][cell])
  }

  predicate TextReadHasAt(t: TextRead)
  {
    t.TextDecoded? ==> MatchesHaveAt(t.matches)
  }

  /** The pattern matches the CSV and TXT readers see under every encoding have an '@'. */
  predicate PatternMatchesHaveAt(f: InputFile)
  {
    forall e: Encoding :: CsvReadHasAt(f.csv.At(e)) && TextReadHasAt(f.text.At(e))
  }

  predicate SetHasAt(s: set<string>)
  {
    forall x :: x in s ==> '@' in x
  }

  lemma LowerKeepsAt(m: string)
    requires '@' in m
    ensures '@' in Lower(m)
  {
    var i :| 0 <= i < |m| && m[i] == '@';
    assert Lower(m)[i] == '@';
  }

  lemma LowerAllHasAt(ms: seq<string>)
    requires MatchesHaveAt(ms)
    ensures SetHasAt(LowerAll(ms))
  {
    forall x | x in LowerAll(ms) ensures '@' in x {
      var m :| m in ms && Lower(m) == x;
      LowerKeepsAt(m);
    }
  }

  lemma {:induction false} CellsHaveAt(cells: seq<seq<string>>)
    requires forall c :: 0 <= c < |cells| ==> MatchesHaveAt(cells[c])
    ensures SetHasAt(CellsEmails(cells))
    decreases |cells|
  {
    if cells != [] {
      CellsHaveAt(cells[..|cells| - 1]);
      LowerAllHasAt(cells[|cells| - 1]);
    }
  }

  lemma {:induction false} RowsHaveAt(a: CsvRead, n: nat)
    requires CsvReadHasAt(a) && n <= |a.rows|
    ensures SetHasAt(RowsEmails(a.rows[..n]))
    decreases n
  {
    if n > 0 {
      RowsHaveAt(a, n - 1);
      assert a.rows[..n][..n - 1] == a.rows[..n - 1];
      CellsHaveAt(a.rows[n - 1]);
    }
  }

  lemma {:induction false} CsvHasAt(attempts: PerEncoding<CsvRead>, i: nat)
    requires i <= |Encodings|
    requires forall e: Encoding :: CsvReadHasAt(attempts.At(e))
    ensures SetHasAt(CsvEmailsFrom(attempts, i))
    decreases |Encodings| - i
  {
    if i < |Encodings| {
      var a := attempts.At(Encodings[i]);
      RowsHaveAt(a, |a.rows|);
      assert a.rows[..|a.rows|] == a.rows;
      CsvHasAt(attempts, i + 1);
    }
  }

  lemma {:induction false} TextHasAt(attempts: PerEncoding<TextRead>, i: nat)
    requires i <= |Encodings|
    requires forall e: Encoding :: TextReadHasAt(attempts.At(e))
    ensures SetHasAt(TextEmailsFrom(attempts, i))
    decreases |Encodings| - i
  {
    if i < |Encodings| {
      var a := attempts.At(Encodings[i]);
      if a.TextDecoded? {
        LowerAllHasAt(a.matches);
      } else {
        TextHasAt(attempts, i + 1);
      }
    }
  }

  /**
   * For a CSV or TXT file every extracted address has an '@', since every
   * pattern match has one and lower-casing keeps it.
   */
  lemma CsvAndTextExtractedHaveAt(f: InputFile)
    requires PatternMatchesHaveAt(f)
    requires ExtractSpec(f).Ok? && Lower(f.suffix) in {".csv", ".txt"}
    ensures forall e :: e in ExtractSpec(f).value ==> '@' in e
  {
    if Lower(f.suffix) == ".csv" {
      CsvHasAt(f.csv, 0);
    } else {
      TextHasAt(f.text, 0);
    }
  }
}

=== FILE: generator.dfy ===
/**
 * `run` of src/email_hotkey_manager/email_to_ahk.py: extract the addresses,
 * refuse an empty result, group them by domain and write the profile.
 */
module Generator {
  import opened Base
  import opened Text
  import opened Extraction
  import opened Grouping
  import opened Codegen

  /** The profile written for a non-empty list of extracted addresses, or the error the pipeline raises. */
  function Pipeline(es: seq<string>): Result<Profile>
  {
    if es == [] then Err(NoEmailsFound)
    else if !HasAt(es) then Err(NoAtSign(es[FirstWithoutAt(es)]))
    else
      var gs := Grouped(es);
      if |gs| <= |AvailableKeys| then Ok(Profile(Script(gs), Manifest(gs))) else Err(TooManyDomains)
  }

  /** What `run` produces for an input file: the first error raised along the way, or the profile. */
  function RunSpec(f: InputFile): Result<Profile>
  {
    match ExtractSpec(f)
    case Err(e) => Err(e)
    case Ok(es) => Pipeline(es)
  }

  /** `run`: each stage is entered only when the one before it succeeded. */
  method Run(f: InputFile) returns (r: Result<Profile>)
    ensures r == RunSpec(f)
  {
    var extracted := ExtractEmailsFromFile(f);
    if extracted.Err? {
      return Err(extracted.error);
    }
    var emails := extracted.value;
    if emails == [] {
      return Err(NoEmailsFound);
    }
    var grouped := GroupEmailsByDomain(emails);
    if grouped.Err? {
      return Err(grouped.error);
    }
    r := CreateAhkAndManifest(grouped.value);
  }

  // ---------- properties ----------

  /** "No emails found." is raised exactly when extraction succeeds with nothing. */
  lemma NoEmailsExactlyWhenExtractionEmpty(f: InputFile)
    ensures RunSpec(f) == Err(NoEmailsFound) <==> ExtractSpec(f) == Ok([])
  {
  }

  /**
   * A successful run writes one manifest entry per distinct domain, in the
   * order the domains first occur in the sorted address list, then the Z
   * and R entries; and it fails with "Too many domains" exactly when there
   * are more than 23 distinct domains.
   */
  lemma PipelineDomains(es: seq<string>)
    requires es != [] && HasAt(es)
    ensures Pipeline(es).Ok? <==> |Dedup(DomainList(es))| <= 23
    ensures Pipeline(es).Err? ==> Pipeline(es).error == TooManyDomains
    ensures Pipeline(es).Ok? ==> |Pipeline(es).value.manifest| == |Dedup(DomainList(es))| + 2
    ensures Pipeline(es).Ok? ==> forall i :: 0 <= i < |Dedup(DomainList(es))| ==> Pipeline(es).value.manifest[i].title == Dedup(DomainList(es))[i]
  {
    var gs := Grouped(es);
    GroupedDomainsFirstSeen(es);
    AvailableKeysPool();
    assert |Domains(gs)| == |gs|;
    if |gs| <= |AvailableKeys| {
      ManifestLayout(gs);
      var m := Manifest(gs);
      forall i | 0 <= i < |gs| ensures m[i].title == Domains(gs)[i] {
      }
    }
  }

  /**
   * For a CSV or TXT file the grouping cannot fail: every address came from
   * the pattern, so it has an '@'. Only a mail header can bring in an
   * address without one.
   */
  lemma CsvAndTextNeverLackAt(f: InputFile)
    requires PatternMatchesHaveAt(f)
    requires f.isPresent && Lower(f.suffix) in {".csv", ".txt"}
    ensures !(RunSpec(f).Err? && RunSpec(f).error.NoAtSign?)
  {
    if ExtractSpec(f).Ok? {
      CsvAndTextExtractedHaveAt(f);
    }
  }

  /**
   * A successful run pastes every extracted address: the Z hotkey carries
   * the grouped addresses, each as often as it was extracted, and the R
   * hotkey pastes them one cycle each (when no address is empty or holds a
   * comma).
   */
  lemma PipelinePastesEveryAddress(es: seq<string>)
    requires es != [] && HasAt(es) && CommaFree(es)
    requires forall i :: 0 <= i < |es| ==> es[i] != ""
    requires Pipeline(es).Ok?
    ensures var gs := Grouped(es); var all := AllEmails(gs); var s := Pipeline(es).value.script; var n := 6 * |gs|;
      && multiset(all) == multiset(es)
      && |s| == n + 6 + |SequentialBlock(Payload(all))| + 1
      && s[n..n + 6] == PasteBlock('Z', Payload(all))
      && s[n + 6..|s| - 1] == SequentialBlock(Payload(all))
      && |SequentialBlock(Payload(all))| == 5 * |es| + 3
  {
    var gs := Grouped(es);
    GroupedIsPermutation(es);
    PipelineProfile(es);
    ScriptPastesEveryAddress(gs, es);
  }

  lemma PipelineProfile(es: seq<string>)
    requires es != [] && HasAt(es) && Pipeline(es).Ok?
    ensures |Grouped(es)| <= |AvailableKeys|
    ensures Pipeline(es).value.script == Script(Grouped(es))
  {
  }

  lemma ScriptPastesEveryAddress(gs: seq<Group>, es: seq<string>)
    requires |gs| <= |AvailableKeys| && multiset(AllEmails(gs)) == multiset(es)
    requires es != [] && CommaFree(es)
    requires forall i :: 0 <= i < |es| ==> es[i] != ""
    ensures var all, s, n := AllEmails(gs), Script(gs), 6 * |gs|;
      && |s| == n + 6 + |SequentialBlock(Payload(all))| + 1
      && s[n..n + 6] == PasteBlock('Z', Payload(all))
      && s[n + 6..|s| - 1] == SequentialBlock(Payload(all))
      && |SequentialBlock(Payload(all))| == 5 * |es| + 3
  {
    var all := AllEmails(gs);
    ScriptSections(gs);
    SameAddressesKeepShape(es, all);
    SequentialCount(all);
  }

  lemma SequentialCount(es: seq<string>)
    requires es != [] && CommaFree(es)
    requires forall i :: 0 <= i < |es| ==> es[i] != ""
    ensures |SequentialBlock(Payload(es))| == 5 * |es| + 3
  {
    SequentialOneCyclePerAddress(es);
  }

  /** A rearrangement of non-empty, comma-free addresses is again non-empty and comma-free. */
  lemma SameAddressesKeepShape(es: seq<string>, all: seq<string>)
    requires multiset(all) == multiset(es)
    requires es != [] && CommaFree(es)
    requires forall i :: 0 <= i < |es| ==> es[i] != ""
    ensures all != [] && CommaFree(all)
    ensures |all| == |es|
    ensures forall i :: 0 <= i < |all| ==> all[i] != ""
  {
    assert |multiset(all)| == |all| && |multiset(es)| == |es|;
    forall i | 0 <= i < |all| ensures ',' !in all[i] && all[i] != "" {
      assert all[i] in multiset(all);
      var j :| 0 <= j < |es| && es[j] == all[i];
    }
  }
}

=== FILE: grouping.dfy ===
/**
 * `group_emails_by_domain`: an insertion-ordered dictionary from domain to
 * the list of addresses with that domain, filled by appending in input
 * order. The dictionary is a list of groups whose domains are distinct.
 */
module Grouping {
  import opened Base
  import opened Text

  datatype Group = Group(domain: string, emails: seq<string>)

  predicate HasAt(es: seq<string>)
  {
    forall e :: e in es ==> '@' in e
  }

  /** The position of the first address that has no '@'. */
  function FirstWithoutAt(es: seq<string>): (k: nat)
    requires !HasAt(es)
    ensures k < |es| && '@' !in es[k] && HasAt(es[..k])
  {
    if '@' !in es[0] then 0
    else
      var k := 1 + FirstWithoutAt(es[1..]);
      assert es[..k] == [es[0]] + es[1..][..k - 1];
      k
  }

  lemma FirstWithoutAtUnique(es: seq<string>, i: nat)
    requires i < |es| && '@' !in es[i] && HasAt(es[..i])
    ensures FirstWithoutAt(es) == i
  {
    var k := FirstWithoutAt(es);
    assert forall j :: 0 <= j < i ==> es[j] in es[..i];
    assert forall j :: 0 <= j < k ==> es[j] in es[..k];
  }

  /** The position of the first '@'. */
  function FirstAt(e: string): (i: nat)
    requires '@' in e
    ensures i < |e| && e[i] == '@' && '@' !in e[..i]
  {
    if e[0] == '@' then 0
    else
      assert '@' in e[1..] by {
        var k :| 0 <= k < |e| && e[k] == '@';
        assert e[1..][k - 1] == '@';
      }
      var i := 1 + FirstAt(e[1..]);
      assert e[..i] == [e[0]] + e[1..][..i - 1];
      i
  }

  /** `email.split("@", 1)[1]`: the text after the first '@'. */
  function DomainOf(e: string): (d: string)
    requires '@' in e
    ensures exists local :: '@' !in local && e == local + "@" + d
  {
    var i := FirstAt(e);
    assert e == e[..i] + "@" + e[i + 1..];
    e[i + 1..]
  }

  function Domains(gs: seq<Group>): seq<string>
  {
    seq(|gs|, i requires 0 <= i < |gs| => gs[i].domain)
  }

  predicate DistinctDomains(gs: seq<Group>)
  {
    forall i, j :: 0 <= i < j < |gs| ==> gs[i].domain != gs[j].domain
  }

  /** The position of d's group, or |gs| when d has none. */
  function IndexOfDomain(gs: seq<Group>, d: string): (k: nat)
    ensures k <= |gs|
    ensures forall j :: 0 <= j < k ==> gs[j].domain != d
    ensures k < |gs| ==> gs[k].domain == d
  {
    if gs == [] then 0 else if gs[0].domain == d then 0 else 1 + IndexOfDomain(gs[1..], d)
  }

  lemma InDomains(gs: seq<Group>, d: string)
    ensures d in Domains(gs) <==> IndexOfDomain(gs, d) < |gs|
  {
    var k := IndexOfDomain(gs, d);
    if d in Domains(gs) {
      var j :| 0 <= j < |gs| && Domains(gs)[j] == d;
      assert k <= j;
    }
    if k < |gs| {
      assert Domains(gs)[k] == d;
    }
  }

  /** `domain_groups[d].append(e)`: extend d's list, or add d with [e] at the end. */
  function Append(gs: seq<Group>, d: string, e: string): (r: seq<Group>)
    requires DistinctDomains(gs)
    ensures DistinctDomains(r)
    ensures |r| == if d in Domains(gs) then |gs| else |gs| + 1
    ensures forall j :: 0 <= j < |gs| ==> r[j] == if gs[j].domain == d then Group(d, gs[j].emails + [e]) else gs[j]
    ensures d !in Domains(gs) ==> r[|gs|] == Group(d, [e])
  {
    InDomains(gs, d);
    var k := IndexOfDomain(gs, d);
    if k == |gs| then gs + [Group(d, [e])]
    else gs[k := Group(d, gs[k].emails + [e])]
  }

  lemma AppendDomains(gs: seq<Group>, d: string, e: string)
    requires DistinctDomains(gs)
    ensures Domains(Append(gs, d, e)) == if d in Domains(gs) then Domains(gs) else Domains(gs) + [d]
  {
  }

  /** The grouping of a list of addresses, built by appending them one by one. */
  function Grouped(es: seq<string>): (r: seq<Group>)
    requires HasAt(es)
    ensures DistinctDomains(r)
  {
    if es == [] then []
    else
      var e := es[|es| - 1];
      Append(Grouped(es[..|es| - 1]), DomainOf(e), e)
  }

  lemma GroupedLast(es: seq<string>)
    requires HasAt(es) && es != []
    ensures HasAt(es[..|es| - 1]) && '@' in es[|es| - 1]
    ensures Grouped(es) == Append(Grouped(es[..|es| - 1]), DomainOf(es[|es| - 1]), es[|es| - 1])
  {
  }

  /** One more address with an '@' is appended to the grouping of the ones before it. */
  lemma GroupedStep(es: seq<string>, i: nat)
    requires i < |es| && HasAt(es[..i]) && '@' in es[i]
    ensures HasAt(es[..i + 1])
    ensures Grouped(es[..i + 1]) == Append(Grouped(es[..i]), DomainOf(es[i]), es[i])
  {
    var next := es[..i + 1];
    assert next[..i] == es[..i] && next[i] == es[i];
    assert next == es[..i] + [es[i]];
  }

  /** `group_emails_by_domain`; an address without '@' makes the indexing raise. */
  method GroupEmailsByDomain(emails: seq<string>) returns (r: Result<seq<Group>>)
    ensures r.Ok? <==> HasAt(emails)
    ensures r.Ok? ==> r.value == Grouped(emails)
    ensures r.Err? ==> r.error == NoAtSign(emails[FirstWithoutAt(emails)])
  {
    var groups: seq<Group> := [];
    for i := 0 to |emails|
      invariant HasAt(emails[..i])
      invariant groups == Grouped(emails[..i])
    {
      var email := emails[i];
      if '@' !in email {
        FirstWithoutAtUnique(emails, i);
        return Err(NoAtSign(email));
      }
      GroupedStep(emails, i);
      var domain := DomainOf(email);
      groups := Append(groups, domain, email);
    }
    assert emails[..|emails|] == emails;
    return Ok(groups);
  }

  // ---------- reference definitions ----------

  /** The domain of every address, in input order. */
  function DomainList(es: seq<string>): (r: seq<string>)
    requires HasAt(es)
    ensures |r| == |es|
    ensures forall i :: 0 <= i < |es| ==> r[i] == DomainOf(es[i])
  {
    if es == [] then [] else DomainList(es[..|es| - 1]) + [DomainOf(es[|es| - 1])]
  }

  /** The distinct elements of a list in the order they first occur. */
  function Dedup(xs: seq<string>): (r: seq<string>)
    ensures forall x :: x in r <==> x in xs
    ensures forall i, j :: 0 <= i < j < |r| ==> r[i] != r[j]
  {
    if xs == [] then []
    else
      var p := Dedup(xs[..|xs| - 1]);
      var x := xs[|xs| - 1];
      assert forall y :: y in xs <==> y in xs[..|xs| - 1] || y == x;
      if x in p then p else p + [x]
  }

  /** The addresses of a list that have domain d, in input order. */
  function WithDomain(es: seq<string>, d: string): (r: seq<string>)
    requires HasAt(es)
    ensures forall x :: x in r ==> x in es && DomainOf(x) == d
  {
    if es == [] then []
    else
      var e := es[|es| - 1];
      WithDomain(es[..|es| - 1], d) + (if DomainOf(e) == d then [e] else [])
  }

  /** All addresses of all groups, group after group. */
  function AllEmails(gs: seq<Group>): seq<string>
  {
    if gs == [] then [] else gs[0].emails + AllEmails(gs[1..])
  }

  // ---------- properties ----------

  /** Groups come out in the order their domain is first seen. */
  lemma {:induction false} GroupedDomainsFirstSeen(es: seq<string>)
    requires HasAt(es)
    ensures Domains(Grouped(es)) == Dedup(DomainList(es))
    decreases |es|
  {
    if es != [] {
      var init := es[..|es| - 1];
      GroupedDomainsFirstSeen(init);
      AppendDomains(Grouped(init), DomainOf(es[|es| - 1]), es[|es| - 1]);
      assert DomainList(es)[..|es| - 1] == DomainList(init);
    }
  }

  /**
   * Each group holds exactly the addresses with its domain, in input order;
   * a domain with no group has no address.
   */
  lemma {:induction false} GroupedMembers(es: seq<string>)
    requires HasAt(es)
    ensures forall j :: 0 <= j < |Grouped(es)| ==> Grouped(es)[j].emails == WithDomain(es, Grouped(es)[j].domain)
    ensures forall d :: d !in Domains(Grouped(es)) ==> WithDomain(es, d) == []
    decreases |es|
  {
    if es != [] {
      var init := es[..|es| - 1];
      var e := es[|es| - 1];
      var d := DomainOf(e);
      GroupedMembers(init);
      var g := Grouped(init);
      assert Grouped(es) == Append(g, d, e);
      assert es[..|es| - 1] == init;
      AppendMembersIn(es, g);
      AppendMembersOut(es, g);
    }
  }

  lemma WithDomainSnoc(es: seq<string>, x: string)
    requires HasAt(es) && es != []
    ensures WithDomain(es, x) == WithDomain(es[..|es| - 1], x) + (if DomainOf(es[|es| - 1]) == x then [es[|es| - 1]] else [])
  {
  }

  /** One more address: every group of the new grouping holds exactly the addresses of its domain. */
  lemma AppendMembersIn(es: seq<string>, g: seq<Group>)
    requires HasAt(es) && es != [] && DistinctDomains(g)
    requires forall j :: 0 <= j < |g| ==> g[j].emails == WithDomain(es[..|es| - 1], g[j].domain)
    requires forall x :: x !in Domains(g) ==> WithDomain(es[..|es| - 1], x) == []
    ensures var e := es[|es| - 1]; var g' := Append(g, DomainOf(e), e);
      forall j :: 0 <= j < |g'| ==> g'[j].emails == WithDomain(es, g'[j].domain)
  {
    var e := es[|es| - 1];
    var d := DomainOf(e);
    var g' := Append(g, d, e);
    forall j | 0 <= j < |g'| ensures g'[j].emails == WithDomain(es, g'[j].domain) {
      WithDomainSnoc(es, g'[j].domain);
      if j >= |g| {
        InDomains(g, d);
      }
    }
  }

  /** One more address: a domain without a group in the new grouping has no address. */
  lemma AppendMembersOut(es: seq<string>, g: seq<Group>)
    requires HasAt(es) && es != [] && DistinctDomains(g)
    requires forall x :: x !in Domains(g) ==> WithDomain(es[..|es| - 1], x) == []
    ensures var e := es[|es| - 1]; var g' := Append(g, DomainOf(e), e);
      forall x :: x !in Domains(g') ==> WithDomain(es, x) == []
  {
    var e := es[|es| - 1];
    var d := DomainOf(e);
    AppendDomains(g, d, e);
    forall x | x !in Domains(Append(g, d, e)) ensures WithDomain(es, x) == [] {
      WithDomainSnoc(es, x);
    }
  }

  lemma {:induction false} AllEmailsConcat(a: seq<Group>, b: seq<Group>)
    ensures AllEmails(a + b) == AllEmails(a) + AllEmails(b)
    decreases |a|
  {
    if a == [] {
      assert a + b == b;
    } else {
      assert (a + b)[1..] == a[1..] + b;
      AllEmailsConcat(a[1..], b);
    }
  }

  /** Appending an address to the grouping adds exactly that address to the flattened groups. */
  lemma AppendAddsOne(gs: seq<Group>, d: string, e: string)
    requires DistinctDomains(gs)
    ensures multiset(AllEmails(Append(gs, d, e))) == multiset(AllEmails(gs)) + multiset{e}
  {
    var k := IndexOfDomain(gs, d);
    InDomains(gs, d);
    if k == |gs| {
      AllEmailsConcat(gs, [Group(d, [e])]);
    } else {
      var g := Group(d, gs[k].emails + [e]);
      assert Append(gs, d, e) == gs[k := g];
      ReplaceAddsOne(gs, k, g, e);
    }
  }

  /** Extending the k-th group's list by e adds e to the addresses once. */
  lemma ReplaceAddsOne(gs: seq<Group>, k: nat, g: Group, e: string)
    requires k < |gs| && g.emails == gs[k].emails + [e]
    ensures multiset(AllEmails(gs[k := g])) == multiset(AllEmails(gs)) + multiset{e}
  {
    var r := gs[k := g];
    AllEmailsAround(gs, k);
    AllEmailsAround(r, k);
    assert r[..k] == gs[..k] && r[k + 1..] == gs[k + 1..];
    var before, after := AllEmails(gs[..k]), AllEmails(gs[k + 1..]);
    assert AllEmails(r) == before + (gs[k].emails + [e]) + after;
    assert multiset(AllEmails(r)) == multiset(before) + multiset(gs[k].emails) + multiset{e} + multiset(after);
  }

  /** The flattened groups, split around group k. */
  lemma {:induction false} AllEmailsAround(gs: seq<Group>, k: nat)
    requires k < |gs|
    ensures AllEmails(gs) == AllEmails(gs[..k]) + gs[k].emails + AllEmails(gs[k + 1..])
    decreases k
  {
    if k == 0 {
      assert gs[..0] == [];
      assert AllEmails(gs[..0]) == [];
    } else {
      var tail := gs[1..];
      AllEmailsAround(tail, k - 1);
      assert tail[..k - 1] == gs[..k][1..];
      assert tail[k - 1] == gs[k];
      assert tail[k..] == gs[k + 1..];
      assert gs[..k][0] == gs[0];
      assert AllEmails(gs[..k]) == gs[0].emails + AllEmails(gs[..k][1..]);
    }
  }

  /** The concatenated groups are a permutation of the input. */
  lemma {:induction false} GroupedIsPermutation(es: seq<string>)
    requires HasAt(es)
    ensures multiset(AllEmails(Grouped(es))) == multiset(es)
    decreases |es|
  {
    if es != [] {
      var init := es[..|es| - 1];
      var e := es[|es| - 1];
      GroupedLast(es);
      GroupedIsPermutation(init);
      AppendAddsOne(Grouped(init), DomainOf(e), e);
      assert es == init + [e];
      assert multiset(es) == multiset(init) + multiset{e};
    }
  }
}

=== FILE: hotkey_dispatch.dfy ===
/**
 * The execution side of src/email_hotkey_manager/email_to_ahk_ui.py: the
 * module-level armed slot (`armed_hotkey`), the active hotkey window (the
 * two `active_*_setter` callbacks), the F8 handler, and the registry of
 * AutoHotkey processes (`running_ahk`). The globals are the fields of one
 * `Dispatcher`; a hotkey window keeps its rows' highlight and button state
 * and its status line. Key injection is recorded as a log of key events;
 * process start, polling and termination are parameters.
 */
module HotkeyDispatch {
  import opened Base
  import opened Keystrokes

  const ReadyStatus: string := "Ready. Choose a hotkey and click ARM."
  const ArmedStatus: string := "Armed. Switch to target field and press F8."
  const RuntimeMissingStatus: string := "AutoHotkey runtime not found (expected ./ahk_runtime/AutoHotkey.exe)."

  /** Python truthiness of the armed slot: set, and not the empty string. */
  predicate IsSet(armed: Option<string>)
  {
    armed.Some? && armed.value != ""
  }

  // ---------- `set_armed_ui` ----------

  /** `armed is not None and hk == armed`. */
  predicate IsArmedRow(hotkey: string, armed: Option<string>)
  {
    armed.Some? && hotkey == armed.value
  }

  /** The armed row's button is enabled; every other one is disabled while the slot is set. */
  predicate ButtonEnabled(hotkey: string, armed: Option<string>)
  {
    IsArmedRow(hotkey, armed) || !IsSet(armed)
  }

  function Highlights(rows: seq<string>, armed: Option<string>): (r: seq<bool>)
    ensures |r| == |rows|
  {
    seq(|rows|, i requires 0 <= i < |rows| => IsArmedRow(rows[i], armed))
  }

  function Buttons(rows: seq<string>, armed: Option<string>): (r: seq<bool>)
    ensures |r| == |rows|
  {
    seq(|rows|, i requires 0 <= i < |rows| => ButtonEnabled(rows[i], armed))
  }

  predicate Distinct(rows: seq<string>)
  {
    forall i, j :: 0 <= i < j < |rows| ==> rows[i] != rows[j]
  }

  /**
   * The row rule: with nothing armed no row is highlighted and every button
   * is enabled; with a hotkey of this window armed, its row is the only one
   * highlighted and the only one whose button is enabled; with a hotkey of
   * another window armed, nothing is highlighted and every button is
   * disabled. An armed `""` is not truthy: every button stays enabled, and
   * a row whose hotkey is `""` is highlighted.
   */
  lemma ArmedRowRule(rows: seq<string>, armed: Option<string>)
    requires Distinct(rows)
    ensures armed == None ==> forall i :: 0 <= i < |rows| ==> !Highlights(rows, armed)[i] && Buttons(rows, armed)[i]
    ensures IsSet(armed) && armed.value in rows ==>
      exists k :: 0 <= k < |rows| && rows[k] == armed.value &&
        forall i :: 0 <= i < |rows| ==> (Highlights(rows, armed)[i] <==> i == k) && (Buttons(rows, armed)[i] <==> i == k)
    ensures IsSet(armed) && armed.value !in rows ==> forall i :: 0 <= i < |rows| ==> !Highlights(rows, armed)[i] && !Buttons(rows, armed)[i]
    ensures armed == Some("") ==> forall i :: 0 <= i < |rows| ==> (Highlights(rows, armed)[i] <==> rows[i] == "") && Buttons(rows, armed)[i]
  {
    if IsSet(armed) && armed.value in rows {
      var k :| 0 <= k < |rows| && rows[k] == armed.value;
      forall i | 0 <= i < |rows| ensures (Highlights(rows, armed)[i] <==> i == k) && (Buttons(rows, armed)[i] <==> i == k) {
        if i != k {
          assert rows[i] != rows[k] by {
            if i < k { assert rows[i] != rows[k]; } else { assert rows[k] != rows[i]; }
          }
        }
      }
    }
  }

  /** One hotkey window: a row per manifest hotkey, and the status line. */
  class HotkeyWindow {
    const rows: seq<string>
    var highlighted: seq<bool>
    var enabled: seq<bool>
    var status: string

    predicate Valid()
      reads this
    {
      |highlighted| == |rows| && |enabled| == |rows| && Distinct(rows)
    }

    /** The window as built: no row highlighted, every button enabled, the ready status. */
    constructor(hotkeys: seq<string>)
      requires Distinct(hotkeys)
      ensures rows == hotkeys && Valid()
      ensures highlighted == Highlights(hotkeys, None) && enabled == Buttons(hotkeys, None)
      ensures status == ReadyStatus
    {
      rows := hotkeys;
      highlighted := Highlights(hotkeys, None);
      enabled := Buttons(hotkeys, None);
      status := ReadyStatus;
    }

    /** `set_status`. */
    method SetStatus(message: string)
      modifies this
      ensures status == message
      ensures highlighted == old(highlighted) && enabled == old(enabled)
    {
      status := message;
    }

    /** `set_armed_ui`: the loop over the rows. */
    method SetArmedUi(armed: Option<string>)
      requires Valid()
      modifies this
      ensures Valid()
      ensures highlighted == Highlights(rows, armed) && enabled == Buttons(rows, armed)
      ensures status == old(status)
    {
      for i := 0 to |rows|
        invariant Valid() && status == old(status)
        invariant highlighted[..i] == Highlights(rows, armed)[..i]
        invariant enabled[..i] == Buttons(rows, armed)[..i]
      {
        var isArmed := armed.Some? && rows[i] == armed.value;
        if isArmed {
          highlighted := highlighted[i := true];
          enabled := enabled[i := true];
        } else {
          highlighted := highlighted[i := false];
          enabled := enabled[i := !IsSet(armed)];
        }
      }
      assert highlighted == highlighted[..|rows|] && Highlights(rows, armed) == Highlights(rows, armed)[..|rows|];
      assert enabled == enabled[..|rows|] && Buttons(rows, armed) == Buttons(rows, armed)[..|rows|];
    }
  }

  // ---------- the F8 handler ----------

  datatype TriggerOutcome =
    | Suppressed  // the handler returned False: F8 is swallowed
    | NotHandled  // the handler returned None
    | Raised      // sending raised; the exception left the handler

  /** Whether the key injection fails, at the n-th event of the hotkey. */
  predicate SendFails(hotkey: string, failAt: Option<nat>)
  {
    failAt.Some? && failAt.value < |HotkeyEvents(hotkey)|
  }

  /** The events actually injected: all of them, or those before the failing one. */
  function Emitted(hotkey: string, failAt: Option<nat>): (r: seq<KeyEvent>)
    ensures !SendFails(hotkey, failAt) ==> r == HotkeyEvents(hotkey)
    ensures r <= HotkeyEvents(hotkey)
  {
    if SendFails(hotkey, failAt) then HotkeyEvents(hotkey)[..failAt.value] else HotkeyEvents(hotkey)
  }

  /** The globals of the manager's execution side. */
  class Dispatcher {
    var armed: Option<string>            // `armed_hotkey`
    var statusWindow: HotkeyWindow?      // the window of `active_status_setter`
    var armedUi: HotkeyWindow?           // the window of `active_armed_ui_setter`
    var sent: seq<KeyEvent>              // every key event injected so far
    var running: map<string, nat>        // `running_ahk`: profile name to process id

    predicate Valid()
      reads this, armedUi
    {
      armedUi != null ==> armedUi.Valid()
    }

    constructor()
      ensures armed == None && statusWindow == null && armedUi == null
      ensures sent == [] && running == map[]
    {
      armed := None;
      statusWindow := null;
      armedUi := null;
      sent := [];
      running := map[];
    }

    /** `arm_hotkey`: the slot takes h whatever it held; the active window shows it; `w` (the caller's window) says so. */
    method Arm(h: string, w: HotkeyWindow)
      requires Valid()
      modifies this, armedUi, w
      ensures Valid()
      ensures armed == Some(h)
      ensures statusWindow == old(statusWindow) && armedUi == old(armedUi)
      ensures sent == old(sent) && running == old(running)
      ensures armedUi != null ==> armedUi.highlighted == Highlights(armedUi.rows, Some(h)) && armedUi.enabled == Buttons(armedUi.rows, Some(h))
      ensures w.status == ArmedStatus
      ensures w != armedUi ==> w.highlighted == old(w.highlighted) && w.enabled == old(w.enabled)
      ensures armedUi != w && armedUi != null ==> armedUi.status == old(armedUi.status)
    {
      armed := Some(h);
      if armedUi != null {
        armedUi.SetArmedUi(Some(h));
      }
      w.SetStatus(ArmedStatus);
    }

    /** `clear_armed`: the slot is emptied and the active window shows no armed row. */
    method ClearArmed(w: HotkeyWindow?)
      requires Valid()
      modifies this, armedUi, w
      ensures Valid()
      ensures armed == None
      ensures statusWindow == old(statusWindow) && armedUi == old(armedUi)
      ensures sent == old(sent) && running == old(running)
      ensures armedUi != null ==> armedUi.highlighted == Highlights(armedUi.rows, None) && armedUi.enabled == Buttons(armedUi.rows, None)
      ensures w != null ==> w.status == ReadyStatus
      ensures w != null && w != armedUi ==> w.highlighted == old(w.highlighted) && w.enabled == old(w.enabled)
      ensures armedUi != null && armedUi != w ==> armedUi.status == old(armedUi.status)
    {
      armed := None;
      if armedUi != null {
        armedUi.SetArmedUi(None);
      }
      if w != null {
        w.SetStatus(ReadyStatus);
      }
    }

    /**
     * `on_trigger_pressed`. With the slot set it injects the armed hotkey;
     * whether or not that raises, the `finally` block empties the slot and
     * clears the active window's rows. With the slot unset it does nothing.
     */
    method OnTriggerPressed(failAt: Option<nat>) returns (outcome: TriggerOutcome)
      requires Valid()
      modifies this, armedUi, statusWindow
      ensures Valid()
      ensures statusWindow == old(statusWindow) && armedUi == old(armedUi) && running == old(running)
      ensures IsSet(old(armed)) ==>
        var h := old(armed).value;
        && armed == None
        && sent == old(sent) + Emitted(h, failAt)
        && outcome == (if SendFails(h, failAt) then Raised else Suppressed)
        && (armedUi != null ==> armedUi.highlighted == Highlights(armedUi.rows, None) && armedUi.enabled == Buttons(armedUi.rows, None))
        && (statusWindow != null ==> statusWindow.status == if SendFails(h, failAt) then old(statusWindow.status) else "Sent " + h)
        && (armedUi != null && armedUi != statusWindow ==> armedUi.status == old(armedUi.status))
        && (statusWindow != null && statusWindow != armedUi ==>
              statusWindow.highlighted == old(statusWindow.highlighted) && statusWindow.enabled == old(statusWindow.enabled))
      ensures !IsSet(old(armed)) ==>
        && outcome == NotHandled && armed == old(armed) && sent == old(sent)
        && (armedUi != null ==> unchanged(armedUi)) && (statusWindow != null ==> unchanged(statusWindow))
    {
      if !IsSet(armed) {
        return NotHandled;
      }
      var h := armed.value;
      var events := SendHotkey(h);
      var raised := failAt.Some? && failAt.value < |events|;
      if raised {
        sent := sent + events[..failAt.value];
      } else {
        sent := sent + events;
        if statusWindow != null {
          statusWindow.SetStatus("Sent " + h);
        }
      }
      // finally
      if armedUi != null {
        armedUi.SetArmedUi(None);
      }
      armed := None;
      outcome := if raised then Raised else Suppressed;
    }

    /**
     * `ensure_ahk_running`: nothing happens while the profile's process is
     * alive (`alive` is what polling it reports); without a runtime it
     * fails and the registry stays as it was; otherwise the new process is
     * registered under the name.
     */
    method EnsureAhkRunning(name: string, alive: bool, runtimeFound: bool, pid: nat, w: HotkeyWindow) returns (ok: bool)
      modifies this, w
      ensures armed == old(armed) && statusWindow == old(statusWindow) && armedUi == old(armedUi) && sent == old(sent)
      ensures w.highlighted == old(w.highlighted) && w.enabled == old(w.enabled)
      ensures name in old(running) && alive ==> ok && running == old(running) && w.status == old(w.status)
      ensures !(name in old(running) && alive) && !runtimeFound ==> !ok && running == old(running) && w.status == RuntimeMissingStatus
      ensures !(name in old(running) && alive) && runtimeFound ==>
        ok && running == old(running)[name := pid] && w.status == "AutoHotkey started for profile: " + name
    {
      if name in running && alive {
        return true;
      }
      if !runtimeFound {
        w.SetStatus(RuntimeMissingStatus);
        return false;
      }
      running := running[name := pid];
      w.SetStatus("AutoHotkey started for profile: " + name);
      return true;
    }

    /** `stop_ahk`: whatever terminating the process does, the `finally` block drops the name and only it. */
    method StopAhk(name: string)
      modifies this
      ensures running == old(running) - {name}
      ensures armed == old(armed) && statusWindow == old(statusWindow) && armedUi == old(armedUi) && sent == old(sent)
    {
      if name !in running {
        return;
      }
      // terminate, wait, kill: process I/O
      running := running - {name};
    }

    /** Opening a hotkey window makes it the active one and shows the current slot in it. */
    method OpenWindow(w: HotkeyWindow)
      requires w.Valid()
      modifies this, w
      ensures Valid()
      ensures statusWindow == w && armedUi == w
      ensures armed == old(armed) && sent == old(sent) && running == old(running)
      ensures w.highlighted == Highlights(w.rows, armed) && w.enabled == Buttons(w.rows, armed)
      ensures w.status == old(w.status)
    {
      statusWindow := w;
      armedUi := w;
      w.SetArmedUi(armed);
    }

    /**
     * `on_close`: the window stops being the active one if it was, the
     * slot is cleared (the still-active window, if another, shows that),
     * and the profile's process is stopped.
     */
    method CloseWindow(w: HotkeyWindow, profileName: string)
      requires Valid()
      modifies this, armedUi
      ensures Valid()
      ensures statusWindow == (if old(statusWindow) == w then null else old(statusWindow))
      ensures armedUi == (if old(armedUi) == w then null else old(armedUi))
      ensures armed == None
      ensures running == old(running) - {profileName}
      ensures sent == old(sent)
      ensures armedUi != null ==> armedUi.highlighted == Highlights(armedUi.rows, None) && armedUi.enabled == Buttons(armedUi.rows, None)
      ensures armedUi != null ==> armedUi.status == old(armedUi.status)
      ensures old(armedUi) != w ==>
        w.status == old(w.status) && w.highlighted == old(w.highlighted) && w.enabled == old(w.enabled)
    {
      if statusWindow == w {
        statusWindow := null;
      }
      if armedUi == w {
        armedUi := null;
      }
      ClearArmed(null);
      StopAhk(profileName);
    }
  }
}

=== FILE: keystrokes.dfy ===
/**
 * `send_hotkey` (the same in both copies of the manager): the hotkey name is
 * lower-cased and split at '+'; every part but the last is a modifier, held
 * down in order; the last part is pressed once; the modifiers are released
 * in reverse order. Key injection is modelled as the list of events it
 * emits; the pauses between them are left out.
 */
module Keystrokes {
  import opened Base
  import opened Text

  datatype KeyEvent = KeyDown(key: string) | Press(key: string) | KeyUp(key: string)

  /** The modifiers of a hotkey name: every '+'-separated part of its lower-cased form but the last. */
  function Modifiers(hotkey: string): (r: seq<string>)
    ensures |r| == |Split(Lower(hotkey), '+')| - 1
  {
    var parts := Split(Lower(hotkey), '+');
    parts[..|parts| - 1]
  }

  /** The key of a hotkey name: the last '+'-separated part of its lower-cased form. */
  function MainKey(hotkey: string): string
  {
    var parts := Split(Lower(hotkey), '+');
    parts[|parts| - 1]
  }

  /** A key-down for each key, in order. */
  function Downs(keys: seq<string>): (r: seq<KeyEvent>)
    ensures |r| == |keys|
  {
    seq(|keys|, i requires 0 <= i < |keys| => KeyDown(keys[i]))
  }

  /** A key-up for each key, last key first. */
  function Ups(keys: seq<string>): (r: seq<KeyEvent>)
    ensures |r| == |keys|
  {
    if keys == [] then [] else Ups(keys[1..]) + [KeyUp(keys[0])]
  }

  /** The events `send_hotkey` emits for a hotkey name. */
  function HotkeyEvents(hotkey: string): seq<KeyEvent>
  {
    var mods := Modifiers(hotkey);
    Downs(mods) + [Press(MainKey(hotkey))] + Ups(mods)
  }

  /** `send_hotkey`: the modifier loop, the key press, the reversed release loop. */
  method SendHotkey(hotkey: string) returns (events: seq<KeyEvent>)
    ensures events == HotkeyEvents(hotkey)
  {
    var parts := Split(Lower(hotkey), '+');
    var modifiers := parts[..|parts| - 1];
    var key := parts[|parts| - 1];
    events := [];
    for i := 0 to |modifiers|
      invariant events == Downs(modifiers[..i])
    {
      events := events + [KeyDown(modifiers[i])];
    }
    assert modifiers[..|modifiers|] == modifiers;
    events := events + [Press(key)];
    var j := |modifiers|;
    while j > 0
      invariant 0 <= j <= |modifiers|
      invariant events == Downs(modifiers) + [Press(key)] + Ups(modifiers[j..])
      decreases j
    {
      j := j - 1;
      assert modifiers[j..][1..] == modifiers[j + 1..];
      events := events + [KeyUp(modifiers[j])];
    }
  }

  // ---------- a reference: the keys held down ----------

  /**
   * Replaying events on a stack of held keys: a key-down holds the key, a
   * press leaves the stack as it is, a key-up must release the key held
   * most recently; None when a key-up releases anything else.
   */
  function Replay(held: seq<string>, events: seq<KeyEvent>): Option<seq<string>>
    decreases |events|
  {
    if events == [] then Some(held)
    else
      match events[0]
      case KeyDown(k) => Replay(held + [k], events[1..])
      case Press(_) => Replay(held, events[1..])
      case KeyUp(k) =>
        if held != [] && held[|held| - 1] == k then Replay(held[..|held| - 1], events[1..]) else None
  }

  lemma {:induction false} ReplayAppend(held: seq<string>, a: seq<KeyEvent>, b: seq<KeyEvent>)
    ensures Replay(held, a + b) == if Replay(held, a).Some? then Replay(Replay(held, a).value, b) else None
    decreases |a|
  {
    if a != [] {
      assert (a + b)[1..] == a[1..] + b;
      assert (a + b)[0] == a[0];
      match a[0]
      case KeyDown(k) => ReplayAppend(held + [k], a[1..], b);
      case Press(_) => ReplayAppend(held, a[1..], b);
      case KeyUp(k) =>
        if held != [] && held[|held| - 1] == k {
          ReplayAppend(held[..|held| - 1], a[1..], b);
        }
    } else {
      assert a + b == b;
    }
  }

  /** Holding the keys down in order puts them on the stack in order. */
  lemma {:induction false} ReplayDowns(held: seq<string>, keys: seq<string>)
    ensures Replay(held, Downs(keys)) == Some(held + keys)
    decreases |keys|
  {
    if keys == [] {
      assert held + keys == held;
    } else {
      assert Downs(keys)[0] == KeyDown(keys[0]);
      assert Downs(keys)[1..] == Downs(keys[1..]);
      ReplayDowns(held + [keys[0]], keys[1..]);
      assert held + [keys[0]] + keys[1..] == held + keys;
    }
  }

  /** Releasing the keys last-first takes exactly them off the top of the stack. */
  lemma {:induction false} ReplayUps(held: seq<string>, keys: seq<string>)
    ensures Replay(held + keys, Ups(keys)) == Some(held)
    decreases |keys|
  {
    if keys != [] {
      var top := held + [keys[0]];
      assert held + keys == top + keys[1..];
      ReplayUps(top, keys[1..]);
      ReplayAppend(top + keys[1..], Ups(keys[1..]), [KeyUp(keys[0])]);
      assert top[..|top| - 1] == held;
    } else {
      assert held + keys == held;
    }
  }

  /**
   * The events of any hotkey name are balanced and properly nested: every
   * key-down is matched by exactly one later key-up of the same key, in
   * reverse order, and at the single press all the modifiers are held.
   */
  lemma HotkeyEventsBalanced(hotkey: string)
    ensures Replay([], HotkeyEvents(hotkey)) == Some([])
    ensures Replay([], Downs(Modifiers(hotkey))) == Some(Modifiers(hotkey))
    ensures |HotkeyEvents(hotkey)| == 2 * |Modifiers(hotkey)| + 1
    ensures HotkeyEvents(hotkey)[|Modifiers(hotkey)|] == Press(MainKey(hotkey))
    ensures forall i :: 0 <= i < |HotkeyEvents(hotkey)| && i != |Modifiers(hotkey)| ==> !HotkeyEvents(hotkey)[i].Press?
  {
    var mods := Modifiers(hotkey);
    var downs, press, ups := Downs(mods), [Press(MainKey(hotkey))], Ups(mods);
    ReplayDowns([], mods);
    assert [] + mods == mods;
    ReplayAppend([], downs, press);
    ReplayAppend([], downs + press, ups);
    assert [] + mods == mods;
    ReplayUps([], mods);
    UpsAreKeyUps(mods);
  }

  lemma {:induction false} UpsAreKeyUps(keys: seq<string>)
    ensures forall i :: 0 <= i < |Ups(keys)| ==> Ups(keys)[i].KeyUp?
    decreases |keys|
  {
    if keys != [] {
      UpsAreKeyUps(keys[1..]);
    }
  }

  /** A name without '+' is sent as one press of its lower-cased form. */
  lemma NoModifiers(hotkey: string)
    requires '+' !in hotkey
    ensures HotkeyEvents(hotkey) == [Press(Lower(hotkey))]
  {
    assert '+' !in Lower(hotkey) by {
      forall i | 0 <= i < |hotkey| ensures Lower(hotkey)[i] != '+' {
        assert hotkey[i] != '+';
      }
    }
    SplitWithoutSeparator(Lower(hotkey), '+');
  }

  /** The manifest's names: "Ctrl+Shift+Z" holds ctrl, then shift, presses z, and releases shift, then ctrl. */
  lemma CtrlShiftEvents(key: char)
    requires key != '+'
    ensures HotkeyEvents("Ctrl+Shift+" + [key]) ==
      [KeyDown("ctrl"), KeyDown("shift"), Press([LowerChar(key)]), KeyUp("shift"), KeyUp("ctrl")]
  {
    var h := "Ctrl+Shift+" + [key];
    var low := Lower(h);
    assert low == "ctrl" + ['+'] + ("shift" + ['+'] + [LowerChar(key)]);
    assert '+' !in [LowerChar(key)];
    SplitWithoutSeparator([LowerChar(key)], '+');
    SplitAtFirstSeparator("shift", '+', [LowerChar(key)]);
    SplitAtFirstSeparator("ctrl", '+', "shift" + ['+'] + [LowerChar(key)]);
    var mods := ["ctrl", "shift"];
    assert Modifiers(h) == mods;
    assert Ups(mods) == [KeyUp("shift"), KeyUp("ctrl")] by {
      assert mods[1..] == ["shift"];
      assert mods[1..][1..] == [];
    }
  }
}

=== FILE: legacy_generator.dfy ===
/**
 * The older root-level email_to_ahk.py. Its extractor reads CSV and TXT
 * only and says so in its error message; its grouping, code generation and
 * `run` are the same as in the current package, so they are the members of
 * Grouping and Codegen.
 */
module LegacyGenerator {
  import opened Base
  import opened Text
  import opened SortedSets
  import opened Extraction
  import opened Grouping
  import opened Codegen
  import Generator

  const LegacyUnsupportedMessage: string := "Unsupported file type. Use CSV or TXT."

  /**
   * `extract_emails_from_file` of the older copy: a missing file, then the
   * suffix, then an error the encoding loop does not catch, as in the
   * current one, without `.eml`.
   */
  function LegacyExtractSpec(f: InputFile): (r: Result<seq<string>>)
    ensures !f.isPresent ==> r == Err(FileNotFound)
    ensures r.Ok? <==> f.isPresent && Lower(f.suffix) in {".csv", ".txt"} && Escaped(f, Lower(f.suffix)) == None
    ensures f.isPresent && Lower(f.suffix) !in {".csv", ".txt"} ==> r == Err(UnsupportedFileType(LegacyUnsupportedMessage))
    ensures f.isPresent && Lower(f.suffix) in {".csv", ".txt"} && Escaped(f, Lower(f.suffix)).Some? ==>
      r == Err(ReadFailed(Escaped(f, Lower(f.suffix)).value))
    ensures r.Ok? ==> StrictlyAscending(r.value)
    ensures r.Ok? ==> forall e :: e in r.value <==> e in Gathered(f, Lower(f.suffix)) && e != ExcludedAddress
  {
    if !f.isPresent then Err(FileNotFound)
    else
      var suffix := Lower(f.suffix);
      if suffix !in {".csv", ".txt"} then Err(UnsupportedFileType(LegacyUnsupportedMessage))
      else if Escaped(f, suffix).Some? then Err(ReadFailed(Escaped(f, suffix).value))
      else Ok(SortedSeq(Gathered(f, suffix) - {ExcludedAddress}))
  }

  method LegacyExtractEmailsFromFile(f: InputFile) returns (r: Result<seq<string>>)
    ensures r == LegacyExtractSpec(f)
  {
    var emails: set<string> := {};
    if !f.isPresent {
      return Err(FileNotFound);
    }
    if Lower(f.suffix) == ".csv" {
      var read := CollectCsv(f.csv);
      if read.Err? {
        return Err(read.error);
      }
      emails := read.value;
    } else if Lower(f.suffix) == ".txt" {
      var read := CollectText(f.text);
      if read.Err? {
        return Err(read.error);
      }
      emails := read.value;
    } else {
      return Err(UnsupportedFileType(LegacyUnsupportedMessage));
    }
    emails := emails - {ExcludedAddress};
    return Ok(SortedSeq(emails));
  }

  function LegacyRunSpec(f: InputFile): Result<Profile>
  {
    match LegacyExtractSpec(f)
    case Err(e) => Err(e)
    case Ok(es) => Generator.Pipeline(es)
  }

  /** `run` of the older copy. */
  method LegacyRun(f: InputFile) returns (r: Result<Profile>)
    ensures r == LegacyRunSpec(f)
  {
    var extracted := LegacyExtractEmailsFromFile(f);
    if extracted.Err? {
      return Err(extracted.error);
    }
    var emails := extracted.value;
    if emails == [] {
      return Err(NoEmailsFound);
    }
    var grouped := GroupEmailsByDomain(emails);
    if grouped.Err? {
      return Err(grouped.error);
    }
    r := CreateAhkAndManifest(grouped.value);
  }

  // ---------- the two copies compared ----------

  /**
   * On a CSV or TXT file, and on a missing file, the two copies produce the
   * same addresses and the same profile; an `.eml` file the current copy
   * reads is refused by the older one; other suffixes fail in both, with
   * different messages.
   */
  lemma CopiesAgreeOutsideEml(f: InputFile)
    ensures !f.isPresent || Lower(f.suffix) in {".csv", ".txt"} ==>
      LegacyExtractSpec(f) == ExtractSpec(f) && LegacyRunSpec(f) == Generator.RunSpec(f)
    ensures f.isPresent && Lower(f.suffix) == ".eml" ==>
      ExtractSpec(f).Ok? && LegacyRunSpec(f) == Err(UnsupportedFileType(LegacyUnsupportedMessage))
    ensures f.isPresent && Lower(f.suffix) !in {".csv", ".txt", ".eml"} ==>
      LegacyRunSpec(f) == Err(UnsupportedFileType(LegacyUnsupportedMessage))
      && Generator.RunSpec(f) == Err(UnsupportedFileType(UnsupportedMessage))
  {
  }

  /** The older copy never meets an address without '@': it only reads pattern matches. */
  lemma LegacyNeverLacksAt(f: InputFile)
    requires PatternMatchesHaveAt(f)
    ensures !(LegacyRunSpec(f).Err? && LegacyRunSpec(f).error.NoAtSign?)
  {
    if LegacyExtractSpec(f).Ok? {
      CopiesAgreeOutsideEml(f);
      Generator.CsvAndTextNeverLackAt(f);
    }
  }
}

=== FILE: legacy_ui.dfy ===
/**
 * The older root-level email_to_ahk_ui.py: one window with one status
 * line, the armed slot, the F8 handler without a `finally` block, a
 * registry that only records that a profile's script was opened, and a
 * "Generate" that does not check the sanitised name for emptiness.
 */
module LegacyUi {
  import opened Base
  import opened Text
  import opened Extraction
  import opened Codegen
  import opened Keystrokes
  import opened HotkeyDispatch
  import opened ManagerUi
  import LegacyGenerator
  import Generator

  const LegacyArmedStatus: string := "Hotkey armed \U{2014} switch to target field and press F8"

  /** The globals of the older manager: the armed slot, the status line, injected keys, `running_ahk`. */
  class LegacyDispatcher {
    var armed: Option<string>
    var status: string
    var sent: seq<KeyEvent>
    var running: map<string, bool>
    var launched: seq<string>          // the profiles whose script was handed to the shell, in order

    constructor()
      ensures armed == None && status == "Ready." && sent == [] && running == map[] && launched == []
    {
      armed := None;
      status := "Ready.";
      sent := [];
      running := map[];
      launched := [];
    }

    /** `arm_hotkey`: last write wins. */
    method ArmHotkey(h: string)
      modifies this
      ensures armed == Some(h) && status == LegacyArmedStatus
      ensures sent == old(sent) && running == old(running) && launched == old(launched)
    {
      armed := Some(h);
      status := LegacyArmedStatus;
    }

    /** `send_hotkey`, which here also reports "Sent <hotkey>" once the keys are out. */
    method SendHotkeyAndReport(h: string, failAt: Option<nat>) returns (raised: bool)
      modifies this
      ensures raised == SendFails(h, failAt)
      ensures sent == old(sent) + Emitted(h, failAt)
      ensures status == if raised then old(status) else "Sent " + h
      ensures armed == old(armed) && running == old(running) && launched == old(launched)
    {
      var events := SendHotkey(h);
      raised := failAt.Some? && failAt.value < |events|;
      if raised {
        sent := sent + events[..failAt.value];
        return;
      }
      sent := sent + events;
      status := "Sent " + h;
    }

    /**
     * `on_trigger_pressed`: with the slot set it sends the hotkey and then
     * empties the slot; a send that raises leaves the slot set.
     */
    method OnTriggerPressed(failAt: Option<nat>) returns (outcome: TriggerOutcome)
      modifies this
      ensures running == old(running) && launched == old(launched)
      ensures IsSet(old(armed)) ==>
        var h := old(armed).value;
        && sent == old(sent) + Emitted(h, failAt)
        && (SendFails(h, failAt) ==> outcome == Raised && armed == old(armed) && status == old(status))
        && (!SendFails(h, failAt) ==> outcome == Suppressed && armed == None && status == "Sent " + h)
      ensures !IsSet(old(armed)) ==> outcome == NotHandled && armed == old(armed) && sent == old(sent) && status == old(status)
    {
      if !IsSet(armed) {
        return NotHandled;
      }
      var raised := SendHotkeyAndReport(armed.value, failAt);
      if raised {
        return Raised;
      }
      armed := None;
      return Suppressed;
    }

    /** `ensure_ahk_running`: a profile is launched only when the registry does not know it yet. */
    method EnsureAhkRunning(name: string)
      modifies this
      ensures running == old(running)[name := if name in old(running) then old(running)[name] else true]
      ensures launched == old(launched) + (if name in old(running) then [] else [name])
      ensures name !in old(running) ==> status == "Started profile: " + name
      ensures name in old(running) ==> status == old(status)
      ensures armed == old(armed) && sent == old(sent)
    {
      if name !in running {
        launched := launched + [name];
        running := running[name := true];
        status := "Started profile: " + name;
      }
    }

    /**
     * `delete_profile`: the name leaves the registry first, so a later
     * `EnsureAhkRunning` launches it again; `unlinkError` is the message of
     * a failed file deletion, if any.
     */
    method DeleteProfile(name: string, unlinkError: Option<string>)
      modifies this
      ensures running == old(running) - {name}
      ensures status == if unlinkError.None? then "Deleted profile: " + name else "Failed to delete " + name + ": " + unlinkError.value
      ensures armed == old(armed) && sent == old(sent) && launched == old(launched)
    {
      running := running - {name};
      if unlinkError.None? {
        status := "Deleted profile: " + name;
      } else {
        status := "Failed to delete " + name + ": " + unlinkError.value;
      }
    }
  }

  // ---------- "Generate" in the older copy ----------

  datatype LegacyOutcome =
    | LegacyRejected(status: string)
    | LegacyFailed(status: string)
    | LegacyCreated(name: string, profile: Profile)

  /** `run_generator` of the older copy: no check that the sanitised name is non-empty. */
  function LegacyGenerateSpec(isFile: bool, profileText: string, f: InputFile): LegacyOutcome
  {
    var profileName := Strip(profileText);
    if !isFile then LegacyRejected("Invalid input file.")
    else if profileName == "" then LegacyRejected("Profile name required.")
    else
      var safe := SafeName(profileName);
      match LegacyGenerator.LegacyRunSpec(f)
      case Err(e) => LegacyFailed(Message(e))
      case Ok(p) => LegacyCreated(safe, p)
  }

  method LegacyRunGenerator(isFile: bool, profileText: string, f: InputFile) returns (r: LegacyOutcome)
    ensures r == LegacyGenerateSpec(isFile, profileText, f)
  {
    if !isFile {
      return LegacyRejected("Invalid input file.");
    }
    var profileName := Strip(profileText);
    if profileName == "" {
      return LegacyRejected("Profile name required.");
    }
    var safe := SafeName(profileName);
    var run := LegacyGenerator.LegacyRun(f);
    if run.Err? {
      return LegacyFailed(Message(run.error));
    }
    return LegacyCreated(safe, run.value);
  }

  /**
   * A name made only of characters the sanitiser drops (such as "!!!")
   * passes the older copy's checks and creates a profile with an empty
   * name, stored as ".ahk"; the current copy rejects it.
   */
  lemma LegacyAcceptsEmptyName(profileText: string, f: InputFile)
    requires Strip(profileText) != ""
    requires forall c :: c in profileText ==> !IsNameChar(c) && !IsSpace(c)
    requires f.isPresent && Lower(f.suffix) in {".csv", ".txt"}
    requires LegacyGenerator.LegacyRunSpec(f).Ok?
    ensures LegacyGenerateSpec(true, profileText, f) == LegacyCreated("", LegacyGenerator.LegacyRunSpec(f).value)
    ensures GenerateSpec(true, profileText, f) == Rejected("Invalid profile name", "Profile name must contain letters/numbers.")
  {
    assert Strip(profileText) == profileText;
    SafeNameEmpty(profileText);
  }

  /** "!!!" is such a name. */
  lemma BangsAreNoName()
    ensures Strip("!!!") == "!!!" && SafeName("!!!") == ""
  {
    assert forall c :: c in "!!!" ==> !IsNameChar(c) && !IsSpace(c);
    SafeNameEmpty("!!!");
  }

  /**
   * Wherever the sanitised name is non-empty, the two copies agree on CSV
   * and TXT files: both create the same profile under the same name, or
   * both fail with the same message.
   */
  lemma GenerateAgreesOnSafeNames(profileText: string, f: InputFile)
    requires SafeName(Strip(profileText)) != ""
    requires !f.isPresent || Lower(f.suffix) in {".csv", ".txt"}
    ensures LegacyGenerateSpec(true, profileText, f).LegacyCreated? <==> GenerateSpec(true, profileText, f).Created?
    ensures GenerateSpec(true, profileText, f).Created? ==>
      LegacyGenerateSpec(true, profileText, f).name == GenerateSpec(true, profileText, f).name
      && LegacyGenerateSpec(true, profileText, f).profile == GenerateSpec(true, profileText, f).profile
    ensures GenerateSpec(true, profileText, f).Failed? ==>
      LegacyGenerateSpec(true, profileText, f) == LegacyFailed(GenerateSpec(true, profileText, f).message)
  {
    LegacyGenerator.CopiesAgreeOutsideEml(f);
  }
}

=== FILE: manager_ui.dfy ===
/**
 * The pure parts of the manager window of
 * src/email_hotkey_manager/email_to_ahk_ui.py: the file-type label, the
 * profile-name sanitising and the checks of "Generate" before the generator
 * runs, and the order of the profile list. Widgets, dialogs and files are
 * left out; the facts they provide (does the input path name a file, which
 * scripts the profile folder holds) are parameters.
 */
module ManagerUi {
  import opened Base
  import opened Text
  import opened Extraction
  import opened Codegen
  import Generator

  // ---------- file type ----------

  const NoFileType: string := "—"

  /** `friendly_file_type`: the label of a path's (lower-cased) suffix. */
  function FriendlyFileType(suffix: string): (r: string)
    ensures r == "CSV" <==> Lower(suffix) == ".csv"
    ensures r == "TXT" <==> Lower(suffix) == ".txt"
    ensures r == "EML" <==> Lower(suffix) == ".eml"
    ensures r in {"CSV", "TXT", "EML", NoFileType}
  {
    var ext := Lower(suffix);
    if ext == ".csv" then "CSV"
    else if ext == ".txt" then "TXT"
    else if ext == ".eml" then "EML"
    else NoFileType
  }

  /**
   * The label shows a type exactly for the suffixes the extractor does not
   * refuse, which are the files it reads successfully once every decoding
   * error is caught.
   */
  lemma FriendlyTypeMatchesExtractor(f: InputFile)
    requires f.isPresent
    ensures FriendlyFileType(f.suffix) != NoFileType <==> ExtractSpec(f) != Err(UnsupportedFileType(UnsupportedMessage))
    ensures FriendlyFileType(f.suffix) != NoFileType <==> IntendedExtractSpec(f).Ok?
  {
    IntendedNeverFailsOnRead(f);
  }

  // ---------- profile names ----------

  /** `c.isalnum() or c in " _-"`. */
  predicate IsNameChar(c: char)
  {
    IsAlnum(c) || c == ' ' || c == '_' || c == '-'
  }

  /** `"".join(c for c in name if ...)`: the name characters, in order. */
  function KeepNameChars(s: string): (r: string)
    ensures forall c :: c in r <==> c in s && IsNameChar(c)
    ensures |r| <= |s|
  {
    if s == [] then []
    else
      var rest := KeepNameChars(s[1..]);
      assert forall c :: c in s <==> c == s[0] || c in s[1..];
      if IsNameChar(s[0]) then [s[0]] + rest else rest
  }

  /** Filtering distributes over concatenation: the kept characters of each part, in order. */
  lemma {:induction false} KeepNameCharsAppend(a: string, b: string)
    ensures KeepNameChars(a + b) == KeepNameChars(a) + KeepNameChars(b)
    decreases |a|
  {
    if a == [] {
      assert a + b == b;
    } else {
      assert (a + b)[0] == a[0] && (a + b)[1..] == a[1..] + b;
      KeepNameCharsAppend(a[1..], b);
    }
  }

  /** One character is kept exactly when it is a name character. */
  lemma KeepNameCharsOne(c: char)
    ensures KeepNameChars([c]) == if IsNameChar(c) then [c] else []
  {
    assert [c][1..] == [];
  }

  /**
   * The profile name that is used for the file names: the name characters
   * of the input, trimmed; empty exactly when the input has no name
   * character other than white space.
   */
  function SafeName(name: string): (r: string)
    ensures forall c :: c in r ==> IsNameChar(c) && c in name
    ensures r == [] || (!IsSpace(r[0]) && !IsSpace(r[|r| - 1]))
    ensures r == [] <==> forall c :: c in name && IsNameChar(c) ==> IsSpace(c)
  {
    Strip(KeepNameChars(name))
  }

  lemma {:induction false} KeepNameCharsKeepsNames(s: string)
    requires forall c :: c in s ==> IsNameChar(c)
    ensures KeepNameChars(s) == s
    decreases |s|
  {
    if s != [] {
      KeepNameCharsKeepsNames(s[1..]);
      assert [s[0]] + s[1..] == s;
    }
  }

  lemma StripKeepsTrimmed(s: string)
    requires s == [] || (!IsSpace(s[0]) && !IsSpace(s[|s| - 1]))
    ensures Strip(s) == s
  {
    assert LeadingSpaces(s) == 0;
    assert TrailingSpaces(s) == 0;
  }

  /** Sanitising a sanitised name again changes nothing. */
  lemma SafeNameIdempotent(name: string)
    ensures SafeName(SafeName(name)) == SafeName(name)
  {
    var safe := SafeName(name);
    KeepNameCharsKeepsNames(safe);
    StripKeepsTrimmed(safe);
  }

  /** A name with no letter, digit, space, '_' or '-' sanitises to nothing. */
  lemma SafeNameEmpty(name: string)
    requires forall c :: c in name ==> !IsNameChar(c)
    ensures SafeName(name) == ""
  {
  }

  // ---------- "Generate" ----------

  datatype GenerateOutcome =
    | Rejected(title: string, message: string)      // an error dialog before the generator runs
    | Failed(message: string)                       // the generator raised; the dialog shows its message
    | Created(name: string, profile: Profile, sourceType: string)

  /**
   * `run_generator`: the input must be a file, the (stripped) profile name
   * non-empty, and its sanitised form non-empty, checked in that order;
   * only then does the generator run, writing the profile under the
   * sanitised name. `isFile` is the `is_file()` test and `f.isPresent` the
   * extractor's own `exists()` test, made later: they are independent, so a
   * file removed between the two tests gives `Failed("Input file not found.")`.
   */
  function GenerateSpec(isFile: bool, profileText: string, f: InputFile): GenerateOutcome
  {
    var profileName := Strip(profileText);
    if !isFile then Rejected("Invalid input", "Input file not found.")
    else if profileName == "" then Rejected("Missing profile name", "Profile name is required.")
    else
      var safe := SafeName(profileName);
      if safe == "" then Rejected("Invalid profile name", "Profile name must contain letters/numbers.")
      else
        match Generator.RunSpec(f)
        case Err(e) => Failed(Message(e))
        case Ok(p) => Created(safe, p, FriendlyFileType(f.suffix))
  }

  /** `run_generator`, with `f` the file the stripped input path names. */
  method RunGenerator(isFile: bool, profileText: string, f: InputFile) returns (r: GenerateOutcome)
    ensures r == GenerateSpec(isFile, profileText, f)
  {
    if !isFile {
      return Rejected("Invalid input", "Input file not found.");
    }
    var profileName := Strip(profileText);
    if profileName == "" {
      return Rejected("Missing profile name", "Profile name is required.");
    }
    var safe := SafeName(profileName);
    if safe == "" {
      return Rejected("Invalid profile name", "Profile name must contain letters/numbers.");
    }
    var run := Generator.Run(f);
    if run.Err? {
      return Failed(Message(run.error));
    }
    return Created(safe, run.value, FriendlyFileType(f.suffix));
  }

  /**
   * The generator runs exactly when the input is a file and the sanitised
   * name is non-empty; a created profile's name is a safe, non-empty name.
   */
  lemma GeneratorRunsOnlyOnSafeNames(isFile: bool, profileText: string, f: InputFile)
    ensures !GenerateSpec(isFile, profileText, f).Rejected? <==> isFile && SafeName(Strip(profileText)) != ""
    ensures GenerateSpec(isFile, profileText, f).Created? ==>
      var name := GenerateSpec(isFile, profileText, f).name;
      name != "" && (forall c :: c in name ==> IsNameChar(c)) && name[0] != ' ' && name[|name| - 1] != ' '
  {
    var profileName := Strip(profileText);
    var spec := GenerateSpec(isFile, profileText, f);
    if spec.Created? {
      assert spec.name == SafeName(profileName);
    }
  }

  // ---------- the profile list ----------

  /** A script found in the profile folder: its stem, and its manifest's entry count when the manifest exists. */
  datatype FoundScript = FoundScript(stem: string, hasManifest: bool, hotkeyCount: Option<nat>, sourceType: string)

  datatype ProfileInfo = ProfileInfo(name: string, hotkeyCount: Option<nat>, sourceType: string)

  /** The profiles of the scripts that have a manifest, in the order they were found. */
  function Listed(found: seq<FoundScript>): seq<ProfileInfo>
  {
    if found == [] then []
    else
      var s := found[|found| - 1];
      Listed(found[..|found| - 1]) + (if s.hasManifest then [ProfileInfo(s.stem, s.hotkeyCount, s.sourceType)] else [])
  }

  /** The sort key: the lower-cased name. */
  function NameKey(p: ProfileInfo): string { Lower(p.name) }

  predicate NameOrdered(ps: seq<ProfileInfo>)
  {
    forall i, j :: 0 <= i < j < |ps| ==> LessEq(NameKey(ps[i]), NameKey(ps[j]))
  }

  /** p placed before the first profile whose key is greater than its own. */
  function Insert(p: ProfileInfo, ps: seq<ProfileInfo>): (r: seq<ProfileInfo>)
    requires NameOrdered(ps)
    ensures multiset(r) == multiset(ps) + multiset{p}
    ensures NameOrdered(r)
  {
    if ps == [] then [p]
    else if Less(NameKey(p), NameKey(ps[0])) then
      InsertFrontOrdered(p, ps);
      [p] + ps
    else
      var rest := Insert(p, ps[1..]);
      assert ps == [ps[0]] + ps[1..];
      InsertAfterOrdered(ps[0], p, ps[1..], rest);
      [ps[0]] + rest
  }

  lemma InsertFrontOrdered(p: ProfileInfo, ps: seq<ProfileInfo>)
    requires NameOrdered(ps) && ps != [] && Less(NameKey(p), NameKey(ps[0]))
    ensures NameOrdered([p] + ps)
  {
    var r := [p] + ps;
    forall i, j | 0 <= i < j < |r| ensures LessEq(NameKey(r[i]), NameKey(r[j])) {
      if i == 0 && j > 1 {
        assert LessEq(NameKey(ps[0]), NameKey(ps[j - 1]));
        if NameKey(ps[0]) != NameKey(ps[j - 1]) {
          LessTransitive(NameKey(p), NameKey(ps[0]), NameKey(ps[j - 1]));
        }
      } else if i > 0 {
        assert r[i] == ps[i - 1] && r[j] == ps[j - 1];
      }
    }
  }

  lemma InsertAfterOrdered(q: ProfileInfo, p: ProfileInfo, ps: seq<ProfileInfo>, rest: seq<ProfileInfo>)
    requires NameOrdered([q] + ps) && NameOrdered(rest)
    requires !Less(NameKey(p), NameKey(q))
    requires multiset(rest) == multiset(ps) + multiset{p}
    ensures NameOrdered([q] + rest)
  {
    var r := [q] + rest;
    forall i, j | 0 <= i < j < |r| ensures LessEq(NameKey(r[i]), NameKey(r[j])) {
      if i == 0 {
        var x := rest[j - 1];
        assert x in multiset(rest);
        if x == p {
          if NameKey(q) != NameKey(p) {
            LessTotal(NameKey(q), NameKey(p));
          }
        } else {
          assert x in multiset(ps);
          var k :| 0 <= k < |ps| && ps[k] == x;
          assert ([q] + ps)[k + 1] == x && ([q] + ps)[0] == q;
          assert LessEq(NameKey(q), NameKey(x));
        }
        assert r[j] == x;
      } else {
        assert r[i] == rest[i - 1] && r[j] == rest[j - 1];
        assert LessEq(NameKey(rest[i - 1]), NameKey(rest[j - 1]));
      }
    }
  }

  /** `profiles.sort(key=lambda p: p["name"].lower())`, as an insertion sort. */
  function SortByName(ps: seq<ProfileInfo>): (r: seq<ProfileInfo>)
    ensures multiset(r) == multiset(ps)
    ensures NameOrdered(r)
  {
    if ps == [] then []
    else
      var init := ps[..|ps| - 1];
      assert ps == init + [ps[|ps| - 1]];
      Insert(ps[|ps| - 1], SortByName(init))
  }

  /** The profiles whose key is k, in order. */
  function WithKey(ps: seq<ProfileInfo>, k: string): seq<ProfileInfo>
  {
    if ps == [] then [] else (if NameKey(ps[0]) == k then [ps[0]] else []) + WithKey(ps[1..], k)
  }

  lemma {:induction false} WithKeySnoc(ps: seq<ProfileInfo>, p: ProfileInfo, k: string)
    ensures WithKey(ps + [p], k) == WithKey(ps, k) + (if NameKey(p) == k then [p] else [])
    decreases |ps|
  {
    if ps == [] {
      assert ps + [p] == [p];
    } else {
      var q, t := ps[0], ps[1..];
      assert ps + [p] == [q] + (t + [p]);
      assert ps == [q] + t;
      WithKeyCons(q, t + [p], k);
      WithKeyCons(q, t, k);
      WithKeySnoc(t, p, k);
      var qk, mine := (if NameKey(q) == k then [q] else []), (if NameKey(p) == k then [p] else []);
      assert qk + (WithKey(t, k) + mine) == (qk + WithKey(t, k)) + mine;
    }
  }

  lemma WithKeyLast(ps: seq<ProfileInfo>, k: string)
    requires ps != []
    ensures WithKey(ps, k) == WithKey(ps[..|ps| - 1], k) + (if NameKey(ps[|ps| - 1]) == k then [ps[|ps| - 1]] else [])
  {
    assert ps == ps[..|ps| - 1] + [ps[|ps| - 1]];
    WithKeySnoc(ps[..|ps| - 1], ps[|ps| - 1], k);
  }

  lemma NameOrderedTail(ps: seq<ProfileInfo>)
    requires NameOrdered(ps) && ps != []
    ensures NameOrdered(ps[1..])
  {
    forall i, j | 0 <= i < j < |ps| - 1 ensures LessEq(NameKey(ps[1..][i]), NameKey(ps[1..][j])) {
      assert ps[1..][i] == ps[i + 1] && ps[1..][j] == ps[j + 1];
    }
  }

  lemma WithKeyCons(q: ProfileInfo, ps: seq<ProfileInfo>, k: string)
    ensures WithKey([q] + ps, k) == (if NameKey(q) == k then [q] else []) + WithKey(ps, k)
  {
    assert ([q] + ps)[1..] == ps;
  }

  /** In an ordered list that starts above k, nothing has key k. */
  lemma {:induction false} NoneWithKey(ps: seq<ProfileInfo>, k: string)
    requires NameOrdered(ps) && ps != [] && Less(k, NameKey(ps[0]))
    ensures WithKey(ps, k) == []
    decreases |ps|
  {
    LessIrreflexive(k);
    if |ps| > 1 {
      assert LessEq(NameKey(ps[0]), NameKey(ps[1]));
      if NameKey(ps[0]) != NameKey(ps[1]) {
        LessTransitive(k, NameKey(ps[0]), NameKey(ps[1]));
      }
      NameOrderedTail(ps);
      NoneWithKey(ps[1..], k);
    }
  }

  lemma FrontKeepsKeyOrder(p: ProfileInfo, ps: seq<ProfileInfo>, k: string)
    requires NameOrdered(ps) && ps != [] && Less(NameKey(p), NameKey(ps[0]))
    ensures WithKey([p] + ps, k) == WithKey(ps, k) + (if NameKey(p) == k then [p] else [])
  {
    var r := [p] + ps;
    assert r[1..] == ps;
    var mine := if NameKey(p) == k then [p] else [];
    assert WithKey(r, k) == mine + WithKey(ps, k);
    if NameKey(p) == k {
      NoneWithKey(ps, k);
      assert mine + [] == [] + mine;
    } else {
      assert [] + WithKey(ps, k) == WithKey(ps, k) + [];
    }
  }

  /** Inserting p adds it after the profiles that share its key. */
  lemma {:induction false} InsertKeepsKeyOrder(p: ProfileInfo, ps: seq<ProfileInfo>, k: string)
    requires NameOrdered(ps)
    ensures WithKey(Insert(p, ps), k) == WithKey(ps, k) + (if NameKey(p) == k then [p] else [])
    decreases |ps|
  {
    if ps == [] {
    } else if Less(NameKey(p), NameKey(ps[0])) {
      assert Insert(p, ps) == [p] + ps;
      FrontKeepsKeyOrder(p, ps, k);
    } else {
      var q, tail := ps[0], ps[1..];
      NameOrderedTail(ps);
      InsertKeepsKeyOrder(p, tail, k);
      var rest := Insert(p, tail);
      InsertAfterShape(p, ps);
      WithKeyCons(q, rest, k);
      assert ps == [q] + tail;
      WithKeyCons(q, tail, k);
      var qk, mine := (if NameKey(q) == k then [q] else []), (if NameKey(p) == k then [p] else []);
      calc {
        WithKey(Insert(p, ps), k);
        WithKey([q] + rest, k);
        qk + WithKey(rest, k);
        qk + (WithKey(tail, k) + mine);
        (qk + WithKey(tail, k)) + mine;
        WithKey(ps, k) + mine;
      }
    }
  }

  /** Past the front: p is inserted into the tail. */
  lemma InsertAfterShape(p: ProfileInfo, ps: seq<ProfileInfo>)
    requires NameOrdered(ps) && ps != [] && !Less(NameKey(p), NameKey(ps[0]))
    ensures NameOrdered(ps[1..])
    ensures Insert(p, ps) == [ps[0]] + Insert(p, ps[1..])
  {
    NameOrderedTail(ps);
  }

  /**
   * The sort is stable: the profiles that share a lower-cased name keep the
   * order they were found in. With `NameOrdered` and the multiset
   * postcondition of `SortByName` this determines the sorted list.
   */
  lemma {:induction false} SortByNameStable(ps: seq<ProfileInfo>, k: string)
    ensures WithKey(SortByName(ps), k) == WithKey(ps, k)
    decreases |ps|
  {
    if ps != [] {
      var init := ps[..|ps| - 1];
      var last := ps[|ps| - 1];
      var sortedInit := SortByName(init);
      assert SortByName(ps) == Insert(last, sortedInit);
      SortByNameStable(init, k);
      InsertKeepsKeyOrder(last, sortedInit, k);
      WithKeyLast(ps, k);
    }
  }

  /** `load_profiles`: the glob loop, then the sort. */
  method LoadProfiles(found: seq<FoundScript>) returns (profiles: seq<ProfileInfo>)
    ensures profiles == SortByName(Listed(found))
  {
    profiles := [];
    for i := 0 to |found|
      invariant profiles == Listed(found[..i])
    {
      var s := found[i];
      assert found[..i + 1][..i] == found[..i];
      if s.hasManifest {
        profiles := profiles + [ProfileInfo(s.stem, s.hotkeyCount, s.sourceType)];
      }
    }
    assert found[..|found|] == found;
    profiles := SortByName(profiles);
  }

  /** The profiles listed are exactly the found scripts that have a manifest. */
  lemma {:induction false} ListedAreThoseWithManifest(found: seq<FoundScript>)
    ensures forall p :: p in Listed(found) <==> exists s :: s in found && s.hasManifest && p == ProfileInfo(s.stem, s.hotkeyCount, s.sourceType)
    decreases |found|
  {
    if found != [] {
      var init := found[..|found| - 1];
      ListedAreThoseWithManifest(init);
      assert forall s :: s in found <==> s in init || s == found[|found| - 1];
    }
  }
}

=== FILE: sorted_sets.dfy ===
/**
 * Python's `sorted(s)` on a set of strings: the unique strictly ascending
 * list (in code-point order) whose elements are exactly those of the set.
 */
module SortedSets {
  import opened Text

  predicate StrictlyAscending(s: seq<string>)
  {
    forall i, j :: 0 <= i < j < |s| ==> Less(s[i], s[j])
  }

  predicate IsMinimum(m: string, s: set<string>)
  {
    m in s && forall y :: y in s ==> LessEq(m, y)
  }

  lemma {:induction false} MinimumExists(s: set<string>)
    requires s != {}
    ensures exists m :: IsMinimum(m, s)
    decreases |s|
  {
    var x :| x in s;
    var rest := s - {x};
    if rest == {} {
      assert s == {x};
      assert IsMinimum(x, s);
    } else {
      MinimumExists(rest);
      var m :| IsMinimum(m, rest);
      if Less(x, m) {
        forall y | y in s ensures LessEq(x, y) {
          if y != x {
            assert LessEq(m, y);
            if m != y { LessTransitive(x, m, y); }
          }
        }
        assert IsMinimum(x, s);
      } else {
        if x != m { LessTotal(x, m); }
        assert IsMinimum(m, s);
      }
    }
  }

  lemma MinimumUnique(s: set<string>)
    ensures forall m, n :: IsMinimum(m, s) && IsMinimum(n, s) ==> m == n
  {
    forall m, n | IsMinimum(m, s) && IsMinimum(n, s) ensures m == n {
      if m != n {
        assert Less(m, n) && Less(n, m);
        LessAsymmetric(m, n);
      }
    }
  }

  /** `sorted(s)`: the smallest element first, then the sorted rest. */
  function SortedSeq(s: set<string>): (r: seq<string>)
    ensures StrictlyAscending(r)
    ensures forall x :: x in r <==> x in s
    decreases |s|
  {
    if s == {} then []
    else
      MinimumExists(s);
      MinimumUnique(s);
      var m :| IsMinimum(m, s);
      var rest := SortedSeq(s - {m});
      assert forall j :: 0 <= j < |rest| ==> Less(m, rest[j]) by {
        forall j | 0 <= j < |rest| ensures Less(m, rest[j]) {
          assert rest[j] in s - {m};
        }
      }
      [m] + rest
  }

  /** Two strictly ascending lists with the same elements are equal: `sorted` is determined by its set. */
  lemma {:induction false} AscendingUnique(a: seq<string>, b: seq<string>)
    requires StrictlyAscending(a) && StrictlyAscending(b)
    requires forall x :: x in a <==> x in b
    ensures a == b
    decreases |a|
  {
    if a == [] {
      assert forall x :: x in multiset(b) ==> x in b && x !in a;
      assert multiset(b) == multiset{};
      assert |b| == |multiset(b)| == 0;
    } else {
      assert b != [] by { assert a[0] in b; }
      if a[0] != b[0] {
        assert a[0] in b && b[0] in a;
        var i :| 0 <= i < |b| && b[i] == a[0];
        var j :| 0 <= j < |a| && a[j] == b[0];
        assert i > 0 && j > 0;
        assert Less(b[0], a[0]) && Less(a[0], b[0]);
        LessAsymmetric(a[0], b[0]);
      }
      forall x ensures x in a[1..] <==> x in b[1..] {
        if x in a[1..] {
          var k :| 1 <= k < |a| && a[k] == x;
          assert Less(a[0], x);
          LessIrreflexive(x);
          assert x in b && x != b[0];
        }
        if x in b[1..] {
          var k :| 1 <= k < |b| && b[k] == x;
          assert Less(b[0], x);
          LessIrreflexive(x);
          assert x in a && x != a[0];
        }
      }
      AscendingUnique(a[1..], b[1..]);
      assert a == [a[0]] + a[1..] && b == [b[0]] + b[1..];
    }
  }

  /** A strictly ascending list holds each element once. */
  lemma AscendingDistinct(a: seq<string>)
    requires StrictlyAscending(a)
    ensures forall i, j :: 0 <= i < j < |a| ==> a[i] != a[j]
  {
    forall i, j | 0 <= i < j < |a| ensures a[i] != a[j] {
      LessIrreflexive(a[i]);
    }
  }
}

=== FILE: text.dfy ===
/**
 * The string operations of Python's `str` that the generator and the
 * manager use: `lower`, ordering by code point, `", ".join`, `split(",")`,
 * `strip`, `isalnum`; and list flattening.
 * Character classes are the ASCII ones (see README, "Left out").
 */
module Text {

  // ---------- case ----------

  predicate IsUpper(c: char) { 'A' <= c <= 'Z' }

  function LowerChar(c: char): char
  {
    if IsUpper(c) then (c as int + 32) as char else c
  }

  /** `s.lower()`: every upper-case letter replaced by its lower-case form. */
  function Lower(s: string): (r: string)
    ensures |r| == |s|
    ensures forall i :: 0 <= i < |s| ==> !IsUpper(r[i])
    ensures forall i :: 0 <= i < |s| && !IsUpper(s[i]) ==> r[i] == s[i]
    ensures forall i :: 0 <= i < |s| && IsUpper(s[i]) ==> 'a' <= r[i] <= 'z' && r[i] as int - 'a' as int == s[i] as int - 'A' as int
  {
    seq(|s|, i requires 0 <= i < |s| => LowerChar(s[i]))
  }

  /** A string that `lower()` leaves as it is. */
  predicate IsLowered(s: string) { Lower(s) == s }

  lemma LowerIsLowered(s: string)
    ensures IsLowered(Lower(s))
  {
  }

  // ---------- ordering (Python compares strings code point by code point) ----------

  predicate Less(a: string, b: string)
    decreases |a|
  {
    if a == [] then b != []
    else b != [] && (a[0] < b[0] || (a[0] == b[0] && Less(a[1..], b[1..])))
  }

  predicate LessEq(a: string, b: string) { a == b || Less(a, b) }

  lemma {:induction false} LessIrreflexive(a: string)
    ensures !Less(a, a)
    decreases |a|
  {
    if a != [] {
      LessIrreflexive(a[1..]);
    }
  }

  lemma {:induction false} LessTransitive(a: string, b: string, c: string)
    requires Less(a, b) && Less(b, c)
    ensures Less(a, c)
    decreases |a|
  {
    if a != [] && a[0] == b[0] && b[0] == c[0] {
      LessTransitive(a[1..], b[1..], c[1..]);
    }
  }

  lemma {:induction false} LessTotal(a: string, b: string)
    requires a != b
    ensures Less(a, b) || Less(b, a)
    decreases |a|
  {
    if a != [] && b != [] && a[0] == b[0] {
      assert a == [a[0]] + a[1..] && b == [b[0]] + b[1..];
      LessTotal(a[1..], b[1..]);
    }
  }

  lemma LessAsymmetric(a: string, b: string)
    requires Less(a, b)
    ensures !Less(b, a)
  {
    if Less(b, a) {
      LessTransitive(a, b, a);
      LessIrreflexive(a);
    }
  }

  // ---------- join and split ----------

  /** `sep.join(xs)`: the pieces in order with one separator between neighbours. */
  function Join(sep: string, xs: seq<string>): string
  {
    if xs == [] then ""
    else if |xs| == 1 then xs[0]
    else xs[0] + sep + Join(sep, xs[1..])
  }

  /** `s.split(c)` for a one-character separator: never empty, one more piece than separators. */
  function Split(s: string, c: char): (r: seq<string>)
    ensures |r| >= 1
  {
    if s == [] then [""]
    else
      var rest := Split(s[1..], c);
      if s[0] == c then [""] + rest else [[s[0]] + rest[0]] + rest[1..]
  }

  lemma {:induction false} SplitPiecesHaveNoSeparator(s: string, c: char)
    ensures forall i :: 0 <= i < |Split(s, c)| ==> c !in Split(s, c)[i]
    decreases |s|
  {
    if s != [] {
      SplitPiecesHaveNoSeparator(s[1..], c);
    }
  }

  /** Joining the pieces of `s.split(c)` with c gives s back. */
  lemma {:induction false} SplitThenJoin(s: string, c: char)
    ensures Join([c], Split(s, c)) == s
    decreases |s|
  {
    if s != [] {
      var rest := Split(s[1..], c);
      SplitThenJoin(s[1..], c);
      assert s == [s[0]] + s[1..];
      if s[0] == c {
        assert Split(s, c) == [""] + rest;
        JoinCons([c], "", rest);
      } else {
        assert Split(s, c) == [[s[0]] + rest[0]] + rest[1..];
        JoinExtendsFirst([c], s[0], rest);
      }
    }
  }

  /** Putting a character in front of the first piece puts it in front of the joined text. */
  lemma JoinExtendsFirst(sep: string, a: char, xs: seq<string>)
    requires xs != []
    ensures Join(sep, [[a] + xs[0]] + xs[1..]) == [a] + Join(sep, xs)
  {
    JoinCons(sep, xs[0], xs[1..]);
    assert xs == [xs[0]] + xs[1..];
    JoinCons(sep, [a] + xs[0], xs[1..]);
  }

  /** Joining a piece in front of a list: the piece, then the separator if more follow, then the rest joined. */
  lemma JoinCons(sep: string, x: string, xs: seq<string>)
    ensures Join(sep, [x] + xs) == x + (if xs == [] then "" else sep + Join(sep, xs))
  {
    assert ([x] + xs)[0] == x && ([x] + xs)[1..] == xs;
  }

  /** Splitting at c a list joined with c, whose pieces hold no c, gives the list back. */
  lemma {:induction false} JoinThenSplit(xs: seq<string>, c: char)
    requires xs != []
    requires forall i :: 0 <= i < |xs| ==> c !in xs[i]
    ensures Split(Join([c], xs), c) == xs
    decreases |xs|
  {
    if |xs| == 1 {
      SplitWithoutSeparator(xs[0], c);
    } else {
      var tail := xs[1..];
      JoinThenSplit(tail, c);
      JoinCons([c], xs[0], tail);
      assert xs == [xs[0]] + tail;
      SplitAtFirstSeparator(xs[0], c, Join([c], tail));
    }
  }

  lemma {:induction false} SplitWithoutSeparator(a: string, c: char)
    requires c !in a
    ensures Split(a, c) == [a]
    decreases |a|
  {
    if a != [] {
      SplitWithoutSeparator(a[1..], c);
      assert [a[0]] + a[1..] == a;
    }
  }

  /** Splitting at the first separator gives the text before it, then the split of the rest. */
  lemma {:induction false} SplitAtFirstSeparator(a: string, c: char, b: string)
    requires c !in a
    ensures Split(a + [c] + b, c) == [a] + Split(b, c)
    decreases |a|
  {
    if a == [] {
      assert a + [c] + b == [c] + b;
      assert ([c] + b)[1..] == b;
    } else {
      var s := a + [c] + b;
      assert s[0] == a[0] && s[1..] == a[1..] + [c] + b;
      SplitAtFirstSeparator(a[1..], c, b);
      assert [a[0]] + a[1..] == a;
    }
  }

  // ---------- strip and character classes ----------

  /** The ASCII characters for which `str.isspace()` holds. */
  predicate IsSpace(c: char)
  {
    c == ' ' || c == '\t' || c == '\n' || c == '\r' || c == '\U{0B}' || c == '\U{0C}'
    || ('\U{1C}' <= c <= '\U{1F}')
  }

  predicate IsDigit(c: char) { '0' <= c <= '9' }

  /** `str.isalnum()` on one character, ASCII letters and digits. */
  predicate IsAlnum(c: char) { 'a' <= c <= 'z' || 'A' <= c <= 'Z' || IsDigit(c) }

  function LeadingSpaces(s: string): (n: nat)
    ensures n <= |s|
    ensures forall k :: 0 <= k < n ==> IsSpace(s[k])
    ensures n < |s| ==> !IsSpace(s[n])
  {
    if s == [] || !IsSpace(s[0]) then 0 else 1 + LeadingSpaces(s[1..])
  }

  function TrailingSpaces(s: string): (n: nat)
    ensures n <= |s|
    ensures forall k :: |s| - n <= k < |s| ==> IsSpace(s[k])
    ensures n < |s| ==> !IsSpace(s[|s| - 1 - n])
  {
    if s == [] || !IsSpace(s[|s| - 1]) then 0 else 1 + TrailingSpaces(s[..|s| - 1])
  }

  /** `r` is the slice of `s` that starts after its leading white space and is followed only by white space. */
  predicate IsStrippedOf(r: string, s: string)
  {
    IsTrimmedSliceAt(r, s, LeadingSpaces(s))
  }

  /** `r` is the slice of `s` at `i`, followed only by white space. */
  predicate IsTrimmedSliceAt(r: string, s: string, i: nat)
  {
    && i + |r| <= |s| && r == s[i..i + |r|]
    && (forall k :: i + |r| <= k < |s| ==> IsSpace(s[k]))
  }

  /** `s.strip()`: the longest slice of `s` that neither starts nor ends with white space. */
  function Strip(s: string): (r: string)
    ensures r == [] || (!IsSpace(r[0]) && !IsSpace(r[|r| - 1]))
    ensures IsStrippedOf(r, s)
    ensures forall c :: c in r ==> c in s
    ensures (forall c :: c in s ==> !IsSpace(c)) ==> r == s
    ensures r == [] <==> forall c :: c in s ==> IsSpace(c)
  {
    var i := LeadingSpaces(s);
    TrailingOfSuffix(s, i);
    TrimmedSlice(s, i, |s| - TrailingSpaces(s[i..]))
  }

  /** `strip` removes white space from the two ends of the string and nothing else. */
  lemma StripRemovesOnlyEnds(s: string)
    ensures exists i, j ::
      && 0 <= i <= j <= |s| && Strip(s) == s[i..j]
      && (forall k :: 0 <= k < i ==> IsSpace(s[k]))
      && (forall k :: j <= k < |s| ==> IsSpace(s[k]))
  {
    var r := Strip(s);
    var i := LeadingSpaces(s);
    assert r == s[i..i + |r|];
  }

  /** The trailing white space of `s[i..]`, counted back from the end of `s`. */
  lemma TrailingOfSuffix(s: string, i: nat)
    requires i <= |s|
    requires i < |s| ==> !IsSpace(s[i])
    ensures var j := |s| - TrailingSpaces(s[i..]);
      && i <= j <= |s|
      && (forall k :: j <= k < |s| ==> IsSpace(s[k]))
      && (i < j ==> !IsSpace(s[j - 1]))
      && (i == j ==> i == |s|)
  {
    var t := s[i..];
    var n := TrailingSpaces(t);
    forall k | |s| - n <= k < |s|
      ensures IsSpace(s[k])
    {
      assert s[k] == t[k - i];
    }
    assert n < |t| ==> s[|s| - n - 1] == t[|t| - 1 - n];
  }

  /** The slice between a run of leading and a run of trailing white space has the properties of `strip`. */
  function TrimmedSlice(s: string, i: nat, j: nat): (r: string)
    requires i <= j <= |s|
    requires forall k :: j <= k < |s| ==> IsSpace(s[k])
    requires i < j ==> !IsSpace(s[i]) && !IsSpace(s[j - 1])
    requires i == j ==> i == |s|
    requires forall k :: 0 <= k < i ==> IsSpace(s[k])
    ensures r == s[i..j]
    ensures
      && (r == [] || (!IsSpace(r[0]) && !IsSpace(r[|r| - 1])))
      && IsTrimmedSliceAt(r, s, i)
      && (forall c :: c in r ==> c in s)
      && ((forall c :: c in s ==> !IsSpace(c)) ==> r == s)
      && (r == [] <==> forall c :: c in s ==> IsSpace(c))
  {
    assert 0 < i ==> s[0] in s;
    assert j < |s| ==> s[j] in s;
    assert i == j ==> forall c :: c in s ==> IsSpace(c) by {
      if i == j {
        forall c | c in s ensures IsSpace(c) {
          var k :| 0 <= k < |s| && s[k] == c;
        }
      }
    }
    assert i < j ==> s[i] in s;
    s[i..j]
  }

  // ---------- flattening ----------

  /** The concatenation of a list of lists, in order. */
  function Concat<T>(xss: seq<seq<T>>): seq<T>
  {
    if xss == [] then [] else xss[0] + Concat(xss[1..])
  }

  lemma {:induction false} ConcatAppend<T>(a: seq<seq<T>>, b: seq<seq<T>>)
    ensures Concat(a + b) == Concat(a) + Concat(b)
    decreases |a|
  {
    if a == [] {
      assert a + b == b;
    } else {
      assert (a + b)[1..] == a[1..] + b;
      ConcatAppend(a[1..], b);
    }
  }
}
